=== FILE: README.md ===
# packeteer, modelled in Dafny

packeteer describes binary packets declaratively. A packet class lists
typed fields in order, and the library packs an instance into bytes,
unpacks bytes into a fresh instance (`from_raw`), and lets a program
read and assign fields by position or by name. The fields are:

- primitives with a `struct` type code (integers, floats, booleans,
  characters), packed in the packet's byte order;
- padding;
- `Raw` bytes and `String` text, whose length is static, taken from a
  sibling field, or implicit in the value;
- `List`s that repeat a prototype field, whose count follows the same
  three length modes;
- nested sub-packets.

Assigning a sized field writes its new length through to the sibling
that holds it. `unpack` reads each field's length as it stands when the
field is reached, so an earlier count governs later data.

This project models the `packeteer` package, packeteer/fields.py and
packeteer/packets.py, as immutable datatypes and pure functions:

| file | module | contents |
|---|---|---|
| base.dfy | `Base` | the error-carrying `Result` |
| base.dfy | `Base` | byte helpers: zero fill, resize, strip |
| intcodec.dfy | `IntCodec` | the fixed-width integer codec in both byte orders, two's complement for signed codes |
| types.dfy | `Types` | values, length modes, the `Field` and `Packet` datatypes, field layout |
| primitive.dfy | `Primitive` | the type-code width table and `struct.pack`/`unpack` of one value |
| tables.dfy | `Tables` | the name table, the padding-skipping index, `keys`/`values`/`items` |
| sizing.dfy | `Sizing` | length resolution and `size` |
| packing.dfy | `Packing` | `pack` |
| parsing.dfy | `Parsing` | `unpack` and `from_raw` |
| setting.dfy | `Setting` | `set` with its normalisation and write-through |
| container.dfy | `Container` | subscripting, construction with keywords, `clear`, `==`/`!=` |
| roundtrip.dfy | `RoundTrip` | `from_raw(pack(p)) == p` |
| regression.dfy | `Regression` | the nested-list packet of the regression test |
| aswritten.dfy, findings.dfy | `AsWritten`, `Findings` | the source's behaviour where it departs from its evident intent |

Four design choices shape the model:

- **Explicit parent.** A field's parent packet becomes an explicit
  environment argument `Env`: `Detached`, or `Owner(p)`. This replaces
  the back-reference the source keeps.
- **No mutation.** A failed operation returns an error and leaves its
  input unchanged. This replaces the source's in-place assignment and
  rollback.
- **Consumed bytes.** Unpacking a field returns the decoded field and the
  number of bytes it consumed. Each field, and each list element, starts
  where the previous one ended.
- **Intended semantics.** The model follows the intent stated in the
  source's comments and its regression test (tests/regression_test.py):
  `size` is a pure function, and `unpack` decodes before it measures.
  The as-written behaviour lives in `AsWritten`, and "## Findings"
  compares the two.

The project's documentation and tests disagree with the code in a few
places. The model follows the code:

- Some tests pass a `count=` keyword to primitive fields. `Field.__init__`
  (packeteer/fields.py:14) takes none, so multi-count primitives are not
  modelled.
- The comment in `List.size` says the padded list is a copy. The code
  pads the stored list in place and sums it, uncut. The model measures a
  pure copy; `AsWritten.SizeAsWritten` keeps the code's sum.

## Model

| member | source | states |
|---|---|---|
| IntCodec.DecodeEncodeInt | packeteer/fields.py:50-62 | decoding the bytes an in-range integer encodes to gives the integer back, signed or unsigned, in either byte order |
| IntCodec.EncodeDecodeInt | packeteer/fields.py:50-62 | every non-empty byte string is the encoding of the integer it decodes to |
| IntCodec.ReverseReverse | packeteer/fields.py:54 | switching byte order twice is the identity |
| Primitive.Width | packeteer/fields.py:64-75 | a width exists exactly for the type codes `Field.__init__` admits; it is 1, 2, 4 or 8; any other code raises RuntimeError |
| Primitive.PackPrim | packeteer/fields.py:50-55 | an integer code packs exactly the integers in the range of its width and signedness; a float code exactly an image of its width; `c` exactly one byte; `?` anything; padding and unknown codes nothing. A successful pack is exactly the code's width, and every refusal is a `struct.error` |
| Primitive.UnpackOfPack | packeteer/fields.py:50-62 | a value `unpack` can produce packs, and unpacks back to itself, in either byte order |
| Primitive.UnpackCanonical | packeteer/fields.py:57-62 | a successful unpack yields such a value; it packs back to the same bytes, except that a boolean byte other than 0 and 1 comes back as 1 |
| Base.Resize | packeteer/fields.py:206-215 | the result has exactly `n` bytes: the value's prefix, then zero fill |
| Base.StripZeros | packeteer/fields.py:246-251 | the result is a prefix of the input; only zero bytes are dropped; it ends in a non-zero byte or is empty |
| Base.StripResize | packeteer/fields.py:240-251 | text with no trailing zero, zero-filled to its field's size and stripped on unpack, comes back unchanged |
| Tables.VisibleIndex | packeteer/packets.py:26-34 | the sparse index lists every non-padding position exactly once, in schema order, and nothing else |
| Tables.NameTable | packeteer/packets.py:26-34 | every name in the table maps to a non-padding field that carries it |
| Tables.NameTableComplete | packeteer/packets.py:26-34 | a name is in the table if and only if some non-padding field carries it; a repeated name maps to its last field |
| Tables.Position | packeteer/packets.py:71-72 | a name resolves if and only if a non-padding field carries it, to such a field; otherwise KeyError |
| Tables.Lookup | packeteer/packets.py:71-72 | the field a name resolves to carries that name; an unknown name raises KeyError |
| Tables.Keys | packeteer/packets.py:166-168 | entry `k` is the name of the `k`-th non-padding field |
| Tables.Values | packeteer/packets.py:170-172 | entry `k` is the value of the `k`-th non-padding field |
| Tables.Items | packeteer/packets.py:174-176 | entry `k` pairs key `k` with value `k` |
| Tables.TablesKeepLayout | packeteer/packets.py:26-34 | both tables depend only on the fields' kinds and names, never on their content |
| Sizing.Len | packeteer/fields.py:86 | `len` succeeds exactly on bytes, text and sequences, giving the number of bytes, encoded bytes or items; anything else is a TypeError |
| Sizing.RefLength | packeteer/fields.py:87-90 | a field with no packet resolves a sibling length to 0; an unknown sibling raises KeyError; a sibling holding a non-negative integer or boolean gives that number, and any other value is refused |
| Sizing.Size | packeteer/fields.py:64-91 | a primitive measures its code's width and padding 1 byte; `Raw` and `String` measure their resolved length; a sub-packet measures its packet, and a sub-packet field holding anything else raises AttributeError; a list is measurable exactly when its count resolves and each counted element is |
| Sizing.PacketSize | packeteer/packets.py:141-146 | a packet is measurable exactly when every field is, each with the packet as owner; an empty packet measures 0 |
| Packing.SizeIsPackLength | packeteer/fields.py:50-333 | for a field whose list counts match their stored elements and whose padding is one byte, `size()` equals the length of `pack()` |
| Packing.Pack | packeteer/fields.py:50-55 | a packed primitive, `Raw` or `String` is exactly its size long; padding packs as its fill, exactly when the fill is bytes; a sub-packet packs as its packet; a list packs exactly when every element does |
| Packing.PackPacket | packeteer/packets.py:117-122 | a packet packs exactly when every field packs under its byte order; an empty packet packs to nothing |
| Packing.PacketSizeIsPackLength | packeteer/packets.py:117-146 | for a packet whose lists hold as many elements as their counts and whose padding is one byte, `size()`, the sum of the field sizes, equals the length of `pack()` |
| Parsing.Parse | packeteer/fields.py:57-348 | padding decodes to itself; a list with no length mode raises RuntimeError before decoding anything; a decoded field keeps its kind, name and length mode, and never consumes more bytes than remain |
| Parsing.ParsePacket | packeteer/packets.py:124-134 | unpacking never consumes more than the buffer and keeps the class, the byte order and the number of fields; an empty packet consumes nothing |
| Parsing.ParseElements | packeteer/fields.py:341-348 | a list decodes exactly its resolved count of elements, within the bytes that remain |
| Parsing.ParseFieldsLayout | packeteer/packets.py:124-134 | unpacking changes field contents only, never the packet's layout |
| Parsing.ParseFieldsStops | packeteer/packets.py:124-134 | unpacking keeps the fields decoded so far; it stops at some field, which is the end unless `partial` is set, and leaves that field and every later one untouched; a stop before the end is at a field whose size, measured as the packet then stands, exceeds the bytes left |
| Parsing.FromRaw | packeteer/packets.py:42-47 | `from_raw` returns a packet of the class's own layout |
| RoundTrip.ParseInvertsPack | packeteer/fields.py:50-348 | a field decodes from its own pack whatever bytes follow, consuming exactly the packed bytes |
| RoundTrip.ElementsInvertPack | packeteer/fields.py:327-348 | a list's elements decode in order from their concatenated packs, consuming exactly those bytes |
| RoundTrip.PacketInvertsPack | packeteer/packets.py:117-134 | a packet decodes over its class's template from its own pack, consuming exactly the packed bytes |
| RoundTrip.FromRawInvertsPack | packeteer/packets.py:42-47 | `from_raw(p.pack()) == p`, and the result packs to the same bytes |
| Setting.Conform | packeteer/fields.py:277-282 | the list is cut or padded with prototype copies to exactly `n` elements, keeping the stored prefix |
| Setting.Normalize | packeteer/fields.py:206-284 | a static `Raw` takes bytes only and resizes them to its length; a static `String` truncates its text; a `List` takes one new element per item, cut or padded to a static count, and fails exactly when some element's assignment fails; other fields keep the value as given |
| Setting.NewElements | packeteer/fields.py:259-270 | one element per item, each assigned its item; fails exactly when one of those assignments fails |
| Setting.NewElement | packeteer/fields.py:259-265 | a truthy item is assigned to the prototype copy as to a field outside any packet; a falsy item leaves the copy as the prototype; the copy keeps the prototype's layout |
| Setting.DetachedSet | packeteer/fields.py:39-48 | an assignment outside a packet is accepted exactly when the value normalises and the normalised field packs; it then stores the normalised value and keeps the layout; a normalisation error is raised as it is |
| Setting.WriteThrough | packeteer/fields.py:97-105 | writing a length through succeeds exactly when the content has a length, the sibling name resolves and the sibling accepts that number; an unknown sibling raises KeyError and any other failure TypeError; afterwards the sibling holds the number and every other field is as it was |
| Setting.SetAt | packeteer/fields.py:97-105 | assignment to padding changes nothing; an accepted assignment never changes the packet's layout |
| Setting.SetAtAccepts | packeteer/fields.py:97-105 | an assignment to a non-padding field is accepted exactly when the value normalises, the sibling accepts the written-through length, and the field then packs in the updated packet |
| Setting.SetAtStores | packeteer/fields.py:97-105 | the assigned field holds the normalised value; padding ignores assignment |
| Setting.SetAtFrame | packeteer/fields.py:97-105 | an assignment changes no other field than the length sibling it writes through to |
| Setting.SetAtSyncsLength | packeteer/fields.py:97-105 | after an accepted assignment the field's resolved length equals its content's length |
| Setting.SetAtSibling | packeteer/fields.py:97-105 | after an accepted assignment the sibling holds the assigned length and the field packs |
| Setting.SizedByListFails | packeteer/fields.py:83-91 | a `Raw` or `String` sized by a list sibling can never pack |
| Setting.SiblingTakesNumber | packeteer/fields.py:103 | a primitive sibling that accepts a length holds exactly that number |
| Container.KeyIndex | packeteer/packets.py:63-75 | an integer selects the `k`-th non-padding field or raises IndexError; a name selects its field or raises KeyError; any other key raises TypeError |
| Container.GetItem | packeteer/packets.py:63-78 | a read succeeds exactly when the key selects a field, and otherwise raises that key error |
| Container.GetItemByIndex | packeteer/packets.py:63-78 | reading position `k` gives entry `k` of `values()` |
| Container.GetItemByName | packeteer/packets.py:63-78 | reading a name gives the value paired with that key in the listing; no later field carries the name |
| Container.SetItem | packeteer/packets.py:80-98 | key errors propagate as raised; any failure of the assignment itself becomes TypeError; the layout is kept |
| Container.SetThenGet | packeteer/packets.py:63-98 | after assigning a primitive through a key, reading it through the key gives the value back |
| Container.KeyIndexKeepsLayout | packeteer/packets.py:63-92 | a key selects the same field in any packet of the same layout |
| Container.Clear | packeteer/packets.py:136-139 | `clear()` keeps the layout |
| Container.ClearRestoresDefaults | packeteer/packets.py:136-139 | without write-through, every primitive, sub-packet and implicitly or sibling-sized `Raw`/`String` field holds its default afterwards |
| Container.ClearLeavesEarlier | packeteer/packets.py:136-139 | the field loop of `clear()` never touches a field it has already passed |
| Container.ClearOneFrame | packeteer/packets.py:136-139 | resetting one field leaves every other field as it was, adds no write-through, and leaves a field stored as given holding its default |
| Container.New | packeteer/packets.py:15-40 | construction succeeds only when every keyword names a field, and keeps the class's layout |
| Container.NewStores | packeteer/packets.py:36-40 | with distinct keywords and no write-through, each named field holds its keyword's value as its assignment normalises it |
| Container.NewFrame | packeteer/packets.py:36-40 | without write-through, a field no keyword names stays as the blank instance has it |
| Container.NewUnknownName | packeteer/packets.py:36-40 | a keyword that names no field makes construction fail, with KeyError when the keywords before it were accepted |
| Container.IntegerRange | packeteer/packets.py:80-98 | assigning an integer to an integer-coded primitive succeeds exactly when it fits the code's width and signedness; out of range it raises TypeError |
| Container.ValueEq | packeteer/packets.py:103-109 | integers and booleans are equal exactly when numerically equal; bytes, text, floats and None exactly when identical; equal values are of one kind; a packet equals only a packet of its class |
| Container.PacketEq | packeteer/packets.py:103-109 | `__eq__` answers exactly against a packet of the same class, and answers True exactly when each non-padding field's name resolves in the other packet to an equal value |
| Container.FieldEqIsViewEq | packeteer/packets.py:103-109 | comparing a field with a value is comparing the value the field shows |
| Container.FieldsEqAll | packeteer/packets.py:103-109 | the comparison loop holds exactly when each non-padding field of the left packet has a name the right packet resolves and an equal value there |
| Container.EqIffItemsMatch | packeteer/packets.py:103-109 | `a == b` holds exactly when both are of one class and every item of `a` matches `b`'s value under the same name |
| Container.OpEq | packeteer/packets.py:103-115 | `==` holds only between packets of one class, and there it is `__eq__`'s answer |
| Container.OpNe | packeteer/packets.py:111-115 | `!=` is always the negation of `==` |
| Container.OtherClassUnequal | packeteer/packets.py:103-115 | against another class both methods decline, so `==` is false and `!=` is true |
| Regression.ParsePacket1 | tests/regression_test.py:15-38 | any nested groups of entries that fit their counts decode from their little-endian bytes into the packet holding them |
| Regression.RegressionTest | tests/regression_test.py:34-38 | the test's buffer decodes into groups of 3, 2 and 1 entries |
| Regression.RegressionCounts | tests/regression_test.py:40-66 | the decoded packet reads count 3 at the top and 3, 2, 1 in its groups |
| AsWritten.SetFieldAsWritten | packeteer/fields.py:39-48 | the source's `set` raises exactly when the intended assignment fails, and agrees with it on success |
| AsWritten.SetAtAsWritten | packeteer/fields.py:97-105 | the source's assignment through a packet raises exactly when the intended one fails, and agrees with it on success |
| AsWritten.WriteThroughAsWritten | packeteer/fields.py:103 | the source's write-through fails exactly when the intended one does, and agrees with it on success |
| AsWritten.PackListAsWritten | packeteer/fields.py:327-333 | the source's list pack is the intended pack in big-endian order, whatever the packet's order |
| AsWritten.SizeAsWritten | packeteer/fields.py:294-325 | the source's size agrees with the intended one on every field but lists and sub-packets; a list is measurable exactly when its count resolves and every element of its grown stored list is |
| AsWritten.UnpackAsWritten | packeteer/fields.py:57-348 | the source's field unpack keeps the field's kind, accepts only a slice exactly the size it measures (padding and sub-packets aside), and refuses a list with no length mode with RuntimeError |
| AsWritten.UnpackPacketAsWritten | packeteer/packets.py:124-134 | the source's packet unpack keeps the layout |
| AsWritten.FromRawAsWritten | packeteer/packets.py:42-47 | the source's `from_raw` succeeds exactly when its unpack does, gives every field the content that unpack decodes, and leaves each of the packet's sub-packet fields with a default object holding the decoded packet, since in a fresh instance that object is the field's value |
| AsWritten.ClearAsWritten | packeteer/fields.py:35-43 | the source's `clear()` keeps the layout; a sub-packet field still holding the object it was built with is only re-checked, and every other field is reset to what its default object then holds |
| Findings.SetKeepsPackable | packeteer/fields.py:39-48 | the intended `set` keeps a packable field packable, whatever the value |
| Findings.SetKeepsBadValue | packeteer/fields.py:39-48 | the source's `set` keeps an integer in an empty `Raw` field, which then cannot pack |
| Findings.SetAtKeepsSync | packeteer/fields.py:97-105 | the intended assignment keeps a `Raw`/`String` length in sync with its sibling, however it ends |
| Findings.StaleLength | packeteer/fields.py:97-105 | in a packet of a one-byte count holding 0 and an empty `Raw` field it sizes, assigning 1 to 255 bytes of text leaves the text's length in the count and the field empty, with `struct.error` raised; the corrected assignment fails as a whole |
| Findings.SetLeavesStaleLength | packeteer/fields.py:97-105 | after the source's failed assignment, the sibling says 3 while the field holds no bytes |
| Findings.ListFollowsByteOrder | packeteer/fields.py:327-333 | a list of any length packs as its elements' own packs joined in order, each in the list's byte order; the source joins them in big-endian order |
| Findings.ListIgnoresByteOrder | packeteer/fields.py:327-333 | the source packs a list of `UInt16` 1 as `00 01` even in a little-endian packet, which packs it as `01 00` |
| Findings.ListUnpackIgnoresByteOrder | packeteer/fields.py:335-348 | outside a packet and in little-endian order, the source reads the one-element `UInt16` list `01 00` as 256, where the intended decoding reads 1 |
| Findings.SizeIgnoresSurplus | packeteer/fields.py:294-325 | extra stored elements past a list's count do not change its intended size |
| Findings.SizeCountsSurplus | packeteer/fields.py:294-325 | the source measures a one-byte list with count 0 as 1 byte, where the intended size is 0 |
| Findings.CountedSizeAsWritten | packeteer/fields.py:294-325 | the source measures a packet of a one-byte count `c` and a list of sub-packets it counts, with no element stored, as 1 plus `c` times the template sub-packet's size |
| Findings.CountedUnpackAsWritten | packeteer/packets.py:124-134 | the source hands a counted list the slice measured from its template elements, and any error there is the packet's |
| Findings.Sub1AsWrittenFails | packeteer/fields.py:341 | the inner template packet, given its one-byte slice with a non-zero count, fails the list's length assertion |
| Findings.Packet1AsWrittenFails | packeteer/fields.py:341-347 | the regression packet fails with AssertionError on any buffer whose first two counts are non-zero |
| Findings.RegressionAsWrittenFails | tests/regression_test.py:34-38 | the source's `unpack` fails with AssertionError on the test's own buffer |
| Findings.ClearKeepsSubPackets | packeteer/fields.py:35-43 | without write-through, the source's `clear()` leaves every sub-packet field that still holds the object it was built with, as after construction without a keyword for it or after `from_raw`, exactly as it was |
| Findings.ClearKeepsDecoded | packeteer/fields.py:35-43 | the source's `from_raw` decodes a count of 5 into a sub-packet whose template holds 0, and into its default object too; its `clear()` then keeps 5. The intended `from_raw` leaves the template at 0, and the intended `clear()` restores 0 |
| Findings.ClearReplacesAssigned | packeteer/fields.py:35-43 | without write-through, the source's `clear()` gives a sub-packet field that was assigned a packet what its default object holds: the template after construction, the decoded content after `from_raw` |
| Findings.ClearRestoresDecoded | packeteer/fields.py:35-43 | without write-through, after the source's `from_raw`, assigning a packet to a sub-packet field and then calling `clear()` leaves that field with the content `from_raw` decoded into it |
| Findings.ClearAfterFromRawAssignment | packeteer/fields.py:35-43 | `Outer.from_raw(b'\x05')`, then assigning `Inner(n=7)` to its sub-packet, then `clear()`: in the source the sub-packet ends with count 5, neither the 7 assigned nor the template's 0 |
| Findings.ClearAfterAssignment | packeteer/fields.py:35-43 | assigning a sub-packet with count 7 succeeds, and the source's `clear()` then restores the template's count 0 |

## Left out

- packeter/ (a superseded Python 2 rewrite of the same package) is not part of this model.
- Float and double values: they are opaque byte images of their width, since IEEE arithmetic plays no part in the layout. So a float field accepts only such an image: `struct` also packs an integer or a boolean into `f` and `d`, where the model refuses it. And floats compare by image, so `0.0` and `-0.0` differ and a NaN equals itself, unlike Python's `==`.
- Text encoding: a `String` holds its encoded bytes. Choosing an encoding and decoding through Python codecs are not modelled. So lengths of text count encoded bytes where the source counts characters: the implicit size, the value written through to a sibling and the cut of a static `String`. Text `'é'` has length 1 in the source and 2 here; the two agree on ASCII text.
- `hex_dump`, `__str__`, `__repr__`, `__bytes__`, `dict`, the `iter*` generators and the docstring-derived packet name: presentation only.
- `deepcopy` of templates and parent back-references: immutable values and the `Env` argument replace them.
- `Field.unpack` with no type code: the `Field` datatype has no such case, so the RuntimeError at packeteer/fields.py:59-60 cannot arise.
- Container.ClearRestoresDefaults: stated only for packets in which no field writes its length through, since resetting such a field also rewrites its sibling; and only for fields that store their value as given, since a statically sized `Raw` or `String` resizes its default and a list rebuilds its elements from it.
- AsWritten.ClearAsWritten: which sub-packet fields still hold the object they were built with is an argument: every one after construction without a keyword for it, or after `from_raw`; none given by keyword (packeteer/packets.py:36-40) or assigned a packet since. The model does not derive it from the history of assignments, and a reset field that shares its default again is not tracked within one `clear()`.
- AsWritten.ClearAsWritten: a reset that fails goes through the corrected `ClearOne`, which leaves the packet as it was. The source resets through `Field.set` as written, which keeps the new value on any error but `struct.error` and keeps a length already written through (`AsWritten.SetAtAsWritten` models that call); the partial state a failing `clear()` leaves is not modelled.
- AsWritten.FromRawAsWritten: the default object follows the decode only for the packet's own sub-packet fields. A sub-packet nested in one of them, or inside a list element, keeps its template default in the model, though in the source `unpack` decodes into its default object as well while the two are shared. The as-written unpack takes no `partial` flag: it decodes every field, as `from_raw` does by default.
- Findings.StaleLength: stated for a packet of a one-byte count and an empty `Raw` field only; `SetAtAsWritten` models the general case, and `AsWritten.SetAtAsWritten` relates it to the corrected assignment.
- Findings.CountedSizeAsWritten: stated for a list with no element stored; with elements stored the source sums the stored list grown to the count, as `AsWritten.SizeAsWritten` states.
- Container.NewStores: stated only for classes in which no field writes its length through, since a later keyword's length can overwrite an earlier keyword's field. Keyword names are distinct because Python passes them as a dictionary.
- Sizing.RefLength: a sibling holding a negative integer is refused, where the source passes the negative size on; and text, bytes or floats are refused, where the source converts them with `int()`.
- Setting.WriteThrough: the sibling takes the new length as a field outside the packet, so a sibling that itself writes its length through to a third field does not pass it on. Siblings in the source's classes are primitive counts, which write nothing through.
- Static list elements: the elements a statically sized `List` creates when its class is defined have no parent packet, so in the source an element sized by a sibling name measures 0. The model measures every element with the list's own packet.
- Python tuples: lists and tuples are one sequence value. Given to a statically sized `Raw` that needs padding, a tuple raises TypeError in the source, where the model raises `struct.error` as for a list.
- Setting.SetAtSyncsLength: excludes a field named as its own length sibling, and a list counted by a field that is not a primitive.
- Packing.SizeIsPackLength: stated only for fields whose lists hold as many elements as their count and whose padding is one byte. Operations do not keep this: assigning a new count to a list's length field leaves the list as long as it was.
- Packing.PacketSizeIsPackLength: stated only for packets whose fields are in sync in the same sense.
- RoundTrip.FromRawInvertsPack: holds when the class's template decodes each field to the packet's own content. This excludes text with trailing zero bytes, since `String.unpack` strips them, and implicit-length fields whose template length differs.

## Findings

| source | as written | input that shows it | evidently intended | confidence | as-written member | corrected member |
|---|---|---|---|---|---|---|
| packeteer/fields.py:39-48 | `set` rolls back only on `struct.error`; a value that fails the pack check with any other error stays stored | `Raw('data')` (implicit length), `set(42)`: `len(42)` raises TypeError and 42 stays | a value that fails the check is never stored | not executed | Findings.SetKeepsBadValue | Findings.SetKeepsPackable |
| packeteer/fields.py:97-105 | the new length is written to the sibling before the value is checked, and is never rolled back | a `UInt8` count then `Raw` sized by it: setting text `"abc"` raises `struct.error` with the count at 3 and the data empty | a failed assignment leaves the count and the data in sync | not executed | Findings.SetLeavesStaleLength | Findings.SetAtKeepsSync |
| packeteer/fields.py:327-333 | `List.pack` calls each element's `pack()` without the byte order, so elements are always big-endian | a `LittleEndian` packet with a list of one `UInt16` holding 1 packs it as `00 01` | list elements follow the packet's byte order | not executed | Findings.ListIgnoresByteOrder | Findings.ListFollowsByteOrder |
| packeteer/fields.py:335-348 | `List.unpack` calls each element's `unpack()` without the byte order, so elements are always read big-endian | in little-endian order, a list of one `UInt16` given the bytes `01 00` reads 256 | list elements decode in the packet's byte order, inverting `pack` | not executed | Findings.ListUnpackIgnoresByteOrder | RoundTrip.ElementsInvertPack |
| packeteer/fields.py:294-325 | `List.size` sums the stored list rather than the list cut to its count | a list sized by a sibling name, outside any packet so its count is 0, holding one stored `UInt8` element, measures 1 | the size of exactly the counted elements, as the method's comment says | not executed | Findings.SizeCountsSurplus | Findings.SizeIgnoresSurplus |
| packeteer/packets.py:124-134 | `unpack` slices by sizes measured before a field is decoded, so each nested sub-packet is measured from its template's zero count | the buffer of tests/regression_test.py:36-37 raises AssertionError in `List.unpack` | each field decodes from where the previous one ended, as the regression test expects | not executed | Findings.RegressionAsWrittenFails | Regression.RegressionTest |
| packeteer/fields.py:35-43 | `reset` assigns the `_default` object itself, and until a packet is assigned to it, a `Packet` field's value is that same object, which `unpack` changes in place; after `from_raw`, even a packet assigned later is reset to the decoded content | `from_raw` decodes a count of 5 into a sub-packet whose template holds 0; `clear()` then leaves the 5 | `clear()` restores each field's template default | not executed | Findings.ClearKeepsDecoded | Container.ClearRestoresDefaults |

=== FILE: aswritten.dfy ===
/** The source's behaviour where it departs from what it evidently
    intends. The rest of the model uses the corrected definitions; these
    exist to exhibit each departure on a concrete input (see findings.dfy).

    - `Field.set` rolls back only on `struct.error`
      (packeteer/fields.py:39-48), and the length written through to the
      sibling before the check is never rolled back
      (packeteer/fields.py:97-105).
    - `List.pack` and `List.unpack` call the elements without the byte
      order (packeteer/fields.py:327-348), so elements are always
      big-endian.
    - `List.size` grows the stored list in place and sums the grown list,
      never the list cut to the count (packeteer/fields.py:302-325).
    - `unpack` slices the buffer by sizes measured before the field is
      decoded, at the packet (packeteer/packets.py:124-134) and at the
      list element (packeteer/fields.py:341-348).
    - `clear()` resets a sub-packet field to its default object
      (packeteer/fields.py:35-37), which is the very object its value is
      and which `unpack` and item assignment change in place
      (packeteer/fields.py:197-199), so the sub-packet keeps its content;
      after `from_raw`, a packet assigned to the field later is reset to
      the content decoded into that object. */
module AsWritten {
  import opened Base
  import opened Types
  import opened Primitive
  import opened Tables
  import opened Sizing
  import opened Packing
  import opened Setting
  import opened Container

  /** `Field.set` as written, for a field no packet owns: the state after
      the call, and whether it raised. A value that fails the pack check
      with anything but `struct.error` stays stored. */
  function SetFieldAsWritten(f: Field, v: Value): (r: (Field, Result<()>))
    ensures r.1.Ok? <==> DetachedSet(f, v).Ok?
    ensures r.1.Ok? ==> r.0 == DetachedSet(f, v).value
  {
    var g := Normalize(f, v);
    if g.Err? then (f, Err(g.error))
    else
      var check := Pack(Detached, g.value, true);
      if check.Ok? then (g.value, Ok(()))
      else if check.error == StructError then (f, Err(StructError))
      else (g.value, Err(check.error))
  }

  /** `field.set(value)` as written, for field `i` of packet `p`: the
      packet after the call, and whether it raised. The length is written
      through to the sibling first and stays there whatever happens next. */
  function SetAtAsWritten(p: Packet, i: nat, v: Value): (r: (Packet, Result<()>))
    requires i < |p.fields|
    ensures r.1.Ok? <==> SetAt(p, i, v).Ok?
    ensures r.1.Ok? ==> r.0 == SetAt(p, i, v).value
  {
    var f := p.fields[i];
    if f.Pad? then (p, Ok(()))
    else
      var g := Normalize(f, v);
      if g.Err? then (p, Err(g.error))
      else
        var written := if WritesThrough(g.value) then WriteThroughAsWritten(p, g.value) else (p, Ok(()));
        var p1 := written.0;
        if written.1.Err? then (p1, written.1)
        else
          var p2 := Packet(p1.cls, p1.bigEndian, p1.fields[i := g.value]);
          var check := Pack(Owner(p2), g.value, true);
          if check.Ok? then (p2, Ok(()))
          else if check.error == StructError then (p1, Err(StructError))
          else (p2, Err(check.error))
  }

  /** `self._parent[self._size] = len(sized_value)` as written: the
      sibling's own assignment keeps a value that fails with anything but
      `struct.error`. */
  function WriteThroughAsWritten(p: Packet, g: Field): (r: (Packet, Result<()>))
    requires WritesThrough(g)
    ensures r.1.Ok? <==> WriteThrough(p, g).Ok?
    ensures r.1.Ok? ==> r.0 == WriteThrough(p, g).value
  {
    var n := ContentLength(g);
    if n.Err? then (p, Err(n.error))
    else
      var j := Position(p, g.len.sibling);
      if j.Err? then (p, Err(j.error))
      else
        var s := SetFieldAsWritten(p.fields[j.value], IntV(n.value));
        var q := Packet(p.cls, p.bigEndian, p.fields[j.value := s.0]);
        if s.1.Err? then (q, Err(TypeError)) else (q, Ok(()))
  }

  /** `List.pack` as written: every element packs with the default,
      big-endian, byte order. */
  function PackListAsWritten(env: Env, f: Field): (r: Result<seq<Byte>>)
    requires f.List?
    ensures r == Pack(env, f, true)
  {
    PackElements(env, f, 0, true)
  }

  /** How many elements the stored list holds after `List.size` has
      grown it to `count`: it is padded, never cut. */
  function GrownLength(f: Field, count: nat): nat
    requires f.List?
  {
    if |f.elems| >= count then |f.elems| else count
  }

  /** `field.size()` as written: a list sums its grown stored list. */
  function SizeAsWritten(env: Env, f: Field): (r: Result<nat>)
    ensures !f.List? && !f.Sub? ==> r == Size(env, f)
    ensures f.Sub? && f.value.PacketV? ==> r == PacketSizeAsWritten(f.value.packet)
    ensures f.Sub? && !f.value.PacketV? ==> r == Err(AttributeError)
    ensures f.List? ==>
      (r.Ok? <==>
        && Count(env, f).Ok?
        && forall k :: 0 <= k < GrownLength(f, Count(env, f).value) ==> SizeAsWritten(env, Element(f, k)).Ok?)
    decreases f, 1
  {
    match f
    case Sub(_, _, v) => if v.PacketV? then PacketSizeAsWritten(v.packet) else Err(AttributeError)
    case List(_, spec, _, _, elems) =>
      var count :- Resolve(env, spec, Ok(|elems|));
      ElementsSizeAsWritten(env, f, 0, GrownLength(f, count))
    case _ => Size(env, f)
  }

  function ElementsSizeAsWritten(env: Env, f: Field, from: nat, total: nat): (r: Result<nat>)
    requires f.List? && from <= total
    ensures r.Ok? <==> forall k :: from <= k < total ==> SizeAsWritten(env, Element(f, k)).Ok?
    decreases f, 0, total - from
  {
    if from == total then Ok(0)
    else
      var e := if from < |f.elems| then f.elems[from] else f.proto;
      assert e == Element(f, from);
      var s :- SizeAsWritten(env, e);
      var rest :- ElementsSizeAsWritten(env, f, from + 1, total);
      Ok(s + rest)
  }

  function PacketSizeAsWritten(p: Packet): (r: Result<nat>)
    ensures r.Ok? <==> forall k :: 0 <= k < |p.fields| ==> SizeAsWritten(Owner(p), p.fields[k]).Ok?
    decreases p, 1
  {
    FieldsSizeAsWritten(p, 0)
  }

  function FieldsSizeAsWritten(p: Packet, from: nat): (r: Result<nat>)
    requires from <= |p.fields|
    ensures r.Ok? <==> forall k :: from <= k < |p.fields| ==> SizeAsWritten(Owner(p), p.fields[k]).Ok?
    decreases p, 0, |p.fields| - from
  {
    if from == |p.fields| then Ok(0)
    else
      var s :- SizeAsWritten(Owner(p), p.fields[from]);
      var rest :- FieldsSizeAsWritten(p, from + 1);
      Ok(s + rest)
  }

  /** `raw[a:b]`, which clamps both ends to the buffer. */
  function Slice(raw: seq<Byte>, a: nat, b: nat): (r: seq<Byte>)
    ensures |r| <= |raw|
  {
    var lo := if a <= |raw| then a else |raw|;
    var hi := if b <= |raw| then b else |raw|;
    if lo <= hi then raw[lo..hi] else []
  }

  /** `field.unpack(raw)` as written: `raw` is the slice the caller cut by
      the size it measured beforehand, and every field insists on it
      being exactly its own size. */
  function UnpackAsWritten(env: Env, f: Field, raw: seq<Byte>, bigEndian: bool): (r: Result<Field>)
    ensures r.Ok? ==> Shape(r.value) == Shape(f)
    ensures r.Ok? && !f.Pad? && !f.Sub? ==> SizeAsWritten(env, f) == Ok(|raw|)
    ensures f.List? && f.len.Implicit? ==> r == Err(RuntimeError)
    decreases f, 1
  {
    match f
    case Prim(name, code, dflt, _) =>
      var w :- Width(code);
      if |raw| != w then Err(StructError)
      else
        var v :- UnpackPrim(code, raw, bigEndian);
        Ok(Prim(name, code, dflt, v))
    case Pad(_) => Ok(f)
    case Raw(name, spec, dflt, _) =>
      var n :- Size(env, f);
      if |raw| != n then Err(StructError) else Ok(Raw(name, spec, dflt, BytesV(raw)))
    case Str(name, spec, dflt, _) =>
      var n :- Size(env, f);
      if |raw| != n then Err(StructError) else Ok(Str(name, spec, dflt, TextV(StripZeros(raw))))
    case Sub(name, dflt, v) =>
      if !v.PacketV? then Err(AttributeError)
      else
        var q :- UnpackPacketAsWritten(v.packet, raw);
        Ok(Sub(name, dflt, PacketV(q)))
    case List(name, spec, proto, dflt, _) =>
      if spec.Implicit? then Err(RuntimeError)
      else
        var count :- Resolve(env, spec, Ok(|f.elems|));
        var total := GrownLength(f, count);
        var n :- ElementsSizeAsWritten(env, f, 0, total);
        if |raw| != n then Err(AssertionError)
        else
          var es :- UnpackElementsAsWritten(env, f, 0, total, raw, 0);
          Ok(List(name, spec, proto, dflt, es))
  }

  /** The element loop of `List.unpack`: each element of the grown list is
      measured, handed the next slice of that length, and unpacked with
      the default byte order. */
  function UnpackElementsAsWritten(env: Env, f: Field, from: nat, total: nat, raw: seq<Byte>, start: nat)
    : Result<seq<Field>>
    requires f.List? && from <= total
    decreases f, 0, total - from
  {
    if from == total then Ok([])
    else
      var e := if from < |f.elems| then f.elems[from] else f.proto;
      var w :- SizeAsWritten(env, e);
      var g :- UnpackAsWritten(env, e, Slice(raw, start, start + w), true);
      var rest :- UnpackElementsAsWritten(env, f, from + 1, total, raw, start + w);
      Ok([g] + rest)
  }

  /** `BasePacket.unpack(raw)` as written: each field is measured, with
      its own template content, before it is decoded. */
  function UnpackPacketAsWritten(p: Packet, raw: seq<Byte>): (r: Result<Packet>)
    ensures r.Ok? ==> SameLayout(r.value, p)
    decreases p, 1
  {
    UnpackFieldsAsWritten(p, [], raw, 0)
  }

  function UnpackFieldsAsWritten(p: Packet, decoded: seq<Field>, raw: seq<Byte>, start: nat): (r: Result<Packet>)
    requires |decoded| <= |p.fields|
    ensures r.Ok? && (forall k :: 0 <= k < |decoded| ==> Shape(decoded[k]) == Shape(p.fields[k])) ==>
      SameLayout(r.value, p)
    decreases p, 0, |p.fields| - |decoded|
  {
    if |decoded| == |p.fields| then Ok(Packet(p.cls, p.bigEndian, decoded))
    else
      match FieldAsWritten(p, decoded, raw, start)
      case Err(e) => Err(e)
      case Ok((g, w)) => UnpackFieldsAsWritten(p, decoded + [g], raw, start + w)
  }

  /** The next field of that loop, measured in the packet as it then
      stands and decoded from the slice of that width at `start`; gives
      the decoded field and the width. */
  function FieldAsWritten(p: Packet, decoded: seq<Field>, raw: seq<Byte>, start: nat): (r: Result<(Field, nat)>)
    requires |decoded| < |p.fields|
    ensures r.Ok? ==> Shape(r.value.0) == Shape(p.fields[|decoded|])
    decreases p, 0, |p.fields| - |decoded|, 1
  {
    var w :- MeasureAsWritten(p, decoded);
    var g :- DecodeAsWritten(p, decoded, Slice(raw, start, start + w));
    Ok((g, w))
  }

  /** The size of the next field, measured with the fields decoded so far
      and the template's for the rest. */
  function MeasureAsWritten(p: Packet, decoded: seq<Field>): (r: Result<nat>)
    requires |decoded| < |p.fields|
    decreases p, 0, |p.fields| - |decoded|, 0
  {
    SizeAsWritten(Owner(Packet(p.cls, p.bigEndian, decoded + p.fields[|decoded|..])), p.fields[|decoded|])
  }

  /** The next field decoded from its slice in that same packet. */
  function DecodeAsWritten(p: Packet, decoded: seq<Field>, slice: seq<Byte>): (r: Result<Field>)
    requires |decoded| < |p.fields|
    ensures r.Ok? ==> Shape(r.value) == Shape(p.fields[|decoded|])
    decreases p, 0, |p.fields| - |decoded|, 0
  {
    UnpackAsWritten(Owner(Packet(p.cls, p.bigEndian, decoded + p.fields[|decoded|..])), p.fields[|decoded|], slice, p.bigEndian)
  }

  /** `BasePacket.from_raw` as written: `unpack` into a fresh instance.
      A field's `default` here is the current content of its `_default`
      object. In a fresh instance every sub-packet field's value is that
      object, so the content `unpack` decodes into it in place is the
      default's content as well. */
  function FromRawAsWritten(blank: Packet, raw: seq<Byte>): (r: Result<Packet>)
    ensures r.Ok? <==> UnpackPacketAsWritten(blank, raw).Ok?
    ensures r.Ok? ==> r.value.cls == blank.cls && r.value.bigEndian == blank.bigEndian && |r.value.fields| == |blank.fields|
    ensures r.Ok? ==> forall k :: 0 <= k < |r.value.fields| ==>
      View(r.value.fields[k]) == View(UnpackPacketAsWritten(blank, raw).value.fields[k])
    ensures r.Ok? ==> forall k :: 0 <= k < |r.value.fields| ==>
      if blank.fields[k].Sub? then r.value.fields[k].Sub? && r.value.fields[k].name == blank.fields[k].name
        && r.value.fields[k].default == r.value.fields[k].value
      else Shape(r.value.fields[k]) == Shape(blank.fields[k])
  {
    var q :- UnpackPacketAsWritten(blank, raw);
    Ok(ShareDefaults(q))
  }

  /** Every sub-packet field's default made its current value. */
  function ShareDefaults(p: Packet): Packet
  {
    Packet(p.cls, p.bigEndian, seq(|p.fields|, k requires 0 <= k < |p.fields| =>
      if p.fields[k].Sub? then p.fields[k].(default := p.fields[k].value) else p.fields[k]))
  }

  /** `clear()` as written. `reset` assigns a field its `_default` object
      itself, and a field's `default` here is that object's current
      content. A sub-packet field's value is that very object from
      construction until a packet is assigned to it, and `unpack` changes
      it in place; `shared` holds the positions of the sub-packet fields
      in that state: every one after construction without a keyword for
      it and after `from_raw`, none given by keyword or assigned since.
      Resetting such a field stores the same object again and re-checks
      that it packs, so its content stays; every other field, an
      assigned sub-packet included, is reset as `ClearOne` does, to the
      content its default object has then. */
  function ClearAsWritten(p: Packet, shared: set<nat>): (r: Result<Packet>)
    ensures r.Ok? ==> SameLayout(r.value, p)
  {
    ClearFromAsWritten(p, shared, 0)
  }

  function ClearFromAsWritten(p: Packet, shared: set<nat>, from: nat): (r: Result<Packet>)
    requires from <= |p.fields|
    ensures r.Ok? ==> SameLayout(r.value, p)
    decreases |p.fields| - from
  {
    if from == |p.fields| then Ok(p)
    else
      var q :- ClearOneAsWritten(p, shared, from);
      ClearFromAsWritten(q, shared, from + 1)
  }

  /** Field `from` reset as written: a sub-packet still sharing its
      default object only re-checked. */
  function ClearOneAsWritten(p: Packet, shared: set<nat>, from: nat): (r: Result<Packet>)
    requires from < |p.fields|
    ensures p.fields[from].Sub? && from in shared ==>
      (r.Ok? <==> Pack(Owner(p), p.fields[from], true).Ok?) && (r.Ok? ==> r.value == p)
    ensures !(p.fields[from].Sub? && from in shared) ==> r == ClearOne(p, from)
    ensures r.Ok? ==> SameLayout(r.value, p)
  {
    var f := p.fields[from];
    if f.Sub? && from in shared then
      var _ :- Pack(Owner(p), f, true);
      Ok(p)
    else ClearOne(p, from)
  }
}

=== FILE: base.dfy ===
/** Shared vocabulary: bytes, the exceptions the codec raises, and the
    byte-string helpers that Python's `struct` and `bytes` supply. */
module Base {

  /** One octet of a packed buffer. */
  type Byte = b: int | 0 <= b < 256

  /** The exception classes the codec raises, named after Python's. */
  datatype Error =
    | StructError     // struct.error: value out of range, wrong type, wrong buffer length
    | TypeError       // bad key type, failed set through a packet, bytes/text mix-ups
    | KeyError        // unknown field name
    | IndexError      // visible index outside the sparse index table
    | RuntimeError    // invalid type code; unpacking a list with no size mode
    | AttributeError  // a sub-packet field that holds no packet
    | AssertionError  // a failed `assert` statement

  /** The outcome of an operation that may raise. */
  datatype Result<+T> = Ok(value: T) | Err(error: Error) {
    predicate IsFailure() {
      Err?
    }

    function PropagateFailure<U>(): Result<U>
      requires Err?
    {
      Err(error)
    }

    function Extract(): T
      requires Ok?
    {
      value
    }
  }

  /** `n` zero bytes. */
  function Zeros(n: nat): (z: seq<Byte>)
    ensures |z| == n
    ensures forall i :: 0 <= i < n ==> z[i] == 0
  {
    if n == 0 then [] else Zeros(n - 1) + [0]
  }

  /** What `struct.pack('<n>s', b)` produces: `b` cut or zero-filled to exactly `n` bytes. */
  function Resize(b: seq<Byte>, n: nat): (r: seq<Byte>)
    ensures |r| == n
    ensures forall i :: 0 <= i < n ==> r[i] == (if i < |b| then b[i] else 0)
  {
    if |b| >= n then b[..n] else b + Zeros(n - |b|)
  }

  /** `bytes.rstrip(b'\x00')`: drop every trailing zero byte. */
  function StripZeros(b: seq<Byte>): (r: seq<Byte>)
    ensures |r| <= |b| && r == b[..|r|]
    ensures forall i :: |r| <= i < |b| ==> b[i] == 0
    ensures r == [] || r[|r| - 1] != 0
  {
    if |b| == 0 then b
    else if b[|b| - 1] == 0 then StripZeros(b[..|b| - 1])
    else b
  }

  /** 256 to the power `n`: the number of values `n` bytes can hold. */
  function Pow256(n: nat): (p: nat)
    ensures p >= 1
  {
    if n == 0 then 1 else 256 * Pow256(n - 1)
  }

  /** Zero-filling text that has no trailing zero byte and stripping the
      zeros again gives the text back. */
  lemma {:induction false} StripResize(x: seq<Byte>, n: nat)
    requires |x| <= n && (x == [] || x[|x| - 1] != 0)
    ensures StripZeros(Resize(x, n)) == x
    decreases n
  {
    if n > |x| {
      StripResize(x, n - 1);
      assert Resize(x, n)[..n - 1] == Resize(x, n - 1);
    } else {
      assert Resize(x, n) == x;
    }
  }

  /** A prefix grown by the next element. */
  lemma TakeOneMore<T>(s: seq<T>, i: nat)
    requires i < |s|
    ensures s[..i] + [s[i]] == s[..i + 1]
  {
  }

  /** A suffix split off its first element. */
  lemma DropOne<T>(s: seq<T>, i: nat)
    requires i < |s|
    ensures s[i..] == [s[i]] + s[i + 1..]
  {
  }

  /** `buf` made of `head`, `tail` and `rest`, regrouped, and what is left
      of it after `head`. */
  lemma DropHead<T>(buf: seq<T>, head: seq<T>, tail: seq<T>, rest: seq<T>)
    requires buf == head + tail + rest
    ensures buf == head + (tail + rest)
    ensures |head| <= |buf| && buf[|head|..] == tail + rest
  {
    assert head + tail + rest == head + (tail + rest);
  }
}

=== FILE: container.dfy ===
/** The packet as a container: subscripting by position or name
    (packeteer/packets.py:63-98), construction with keyword values
    (packeteer/packets.py:15-40), `clear` (packeteer/packets.py:136-139)
    and equality (packeteer/packets.py:103-115). */
module Container {
  import opened Base
  import opened Types
  import opened Primitive
  import opened Tables
  import opened Setting
  import opened IntCodec

  /** The field position a subscript selects. An integer goes through the
      sparse index and raises IndexError outside it; a string goes through
      the name table and raises KeyError for an unknown name; any other
      key raises TypeError. */
  function KeyIndex(p: Packet, key: Key): (r: Result<nat>)
    ensures r.Ok? ==> r.value < |p.fields| && !p.fields[r.value].Pad?
    ensures key.Index? ==> (r.Ok? <==> 0 <= key.i < |VisibleIndex(p.fields)|)
    ensures key.Index? && r.Ok? ==> r.value == VisibleIndex(p.fields)[key.i]
    ensures key.Index? && r.Err? ==> r.error == IndexError
    ensures key.Name? ==> (r.Ok? <==> exists j :: 0 <= j < |p.fields| && !p.fields[j].Pad? && p.fields[j].name == key.s)
    ensures key.Name? && r.Ok? ==> p.fields[r.value].name == key.s
    ensures key.Name? && r.Err? ==> r.error == KeyError
    ensures key.OtherKey? ==> r == Err(TypeError)
  {
    match key
    case Index(i) =>
      var index := VisibleIndex(p.fields);
      if 0 <= i < |index| then Ok(index[i]) else Err(IndexError)
    case Name(s) => Position(p, s)
    case OtherKey => Err(TypeError)
  }

  /** `packet[key]`: the selected field's value. */
  function GetItem(p: Packet, key: Key): (r: Result<Value>)
    ensures r.Ok? <==> KeyIndex(p, key).Ok?
    ensures r.Err? ==> r.error == KeyIndex(p, key).error
  {
    var i :- KeyIndex(p, key);
    Ok(View(p.fields[i]))
  }

  /** `packet[key] = value`: subscript errors as for reading; any failure
      of the assignment itself surfaces as TypeError, and leaves the
      packet as it was. */
  function SetItem(p: Packet, key: Key, v: Value): (r: Result<Packet>)
    ensures KeyIndex(p, key).Err? ==> r == Err(KeyIndex(p, key).error)
    ensures KeyIndex(p, key).Ok? && r.Err? ==> r.error == TypeError
    ensures KeyIndex(p, key).Ok? ==> (r.Ok? <==> SetAt(p, KeyIndex(p, key).value, v).Ok?)
    ensures r.Ok? ==> SameLayout(r.value, p)
  {
    var i :- KeyIndex(p, key);
    var q := SetAt(p, i, v);
    if q.Err? then Err(TypeError) else q
  }

  /** Reading by position `k` gives entry `k` of `values()`. */
  lemma GetItemByIndex(p: Packet, k: int)
    requires 0 <= k < |Values(p)|
    ensures GetItem(p, Index(k)) == Ok(Values(p)[k])
  {
  }

  /** Reading by name gives the value of the last non-padding field of
      that name, and the name is one of `keys()`. */
  lemma {:induction false} GetItemByName(p: Packet, name: string)
    requires GetItem(p, Name(name)).Ok?
    ensures exists k :: 0 <= k < |Keys(p)| && Keys(p)[k] == name && Values(p)[k] == GetItem(p, Name(name)).value
    ensures forall j :: Position(p, name).value < j < |p.fields| ==> p.fields[j].Pad? || p.fields[j].name != name
  {
    var j := Position(p, name).value;
    var index := VisibleIndex(p.fields);
    assert j in index;
    var k :| 0 <= k < |index| && index[k] == j;
    assert Keys(p)[k] == name && Values(p)[k] == View(p.fields[j]);
    NameTableComplete(p.fields, name);
  }

  /** Writing a value into a primitive field and reading it back through
      the same key gives the value. */
  lemma SetThenGet(p: Packet, key: Key, v: Value)
    requires KeyIndex(p, key).Ok? && p.fields[KeyIndex(p, key).value].Prim?
    requires SetItem(p, key, v).Ok?
    ensures GetItem(SetItem(p, key, v).value, key) == Ok(v)
  {
    var i := KeyIndex(p, key).value;
    var r := SetAt(p, i, v).value;
    assert SetItem(p, key, v) == Ok(r);
    SetAtStores(p, i, v);
    KeyIndexKeepsLayout(r, p, key);
  }

  /** Subscripts select the same position in packets of the same layout. */
  lemma KeyIndexKeepsLayout(q: Packet, p: Packet, key: Key)
    requires SameLayout(q, p)
    ensures KeyIndex(q, key) == KeyIndex(p, key)
  {
    TablesKeepLayout(q.fields, p.fields);
  }

  /** `clear()`: every field, padding included, is reset to its default
      in schema order; the first failure propagates. */
  function Clear(p: Packet): (r: Result<Packet>)
    ensures r.Ok? ==> SameLayout(r.value, p)
  {
    ClearFrom(p, 0)
  }

  function ClearFrom(p: Packet, from: nat): (r: Result<Packet>)
    requires from <= |p.fields|
    ensures r.Ok? ==> SameLayout(r.value, p)
    decreases |p.fields| - from
  {
    if from == |p.fields| then Ok(p)
    else
      var q :- ClearOne(p, from);
      ClearFrom(q, from + 1)
  }

  /** Reset field `from` to its default; padding is left alone. */
  function ClearOne(p: Packet, from: nat): (r: Result<Packet>)
    requires from < |p.fields|
    ensures r.Ok? ==> SameLayout(r.value, p)
  {
    var f := p.fields[from];
    if f.Pad? then Ok(p) else SetAt(p, from, f.default)
  }

  /** No field writes a length through to a sibling. */
  predicate NoWriteThrough(p: Packet)
  {
    forall k :: 0 <= k < |p.fields| ==> !WritesThrough(p.fields[k])
  }

  /** The fields whose assignment stores the value exactly as given:
      primitives, sub-packets, and `Raw` and `String` fields without a
      static length. */
  predicate StoresAsGiven(f: Field)
  {
    f.Prim? || f.Sub? || ((f.Raw? || f.Str?) && !f.len.Static?)
  }

  /** Without write-through, resetting one field touches no other, and a
      field that stores values as given then holds its default. */
  lemma ClearOneFrame(p: Packet, from: nat)
    requires from < |p.fields| && NoWriteThrough(p) && ClearOne(p, from).Ok?
    ensures NoWriteThrough(ClearOne(p, from).value)
    ensures forall k :: 0 <= k < |p.fields| && k != from ==> ClearOne(p, from).value.fields[k] == p.fields[k]
    ensures StoresAsGiven(p.fields[from]) ==> View(ClearOne(p, from).value.fields[from]) == p.fields[from].default
  {
    var q := ClearOne(p, from).value;
    assert forall k :: 0 <= k < |p.fields| ==> WritesThrough(q.fields[k]) == WritesThrough(p.fields[k]);
    var f := p.fields[from];
    if !f.Pad? {
      SetAtStores(p, from, f.default);
      forall k | 0 <= k < |p.fields| && k != from
        ensures q.fields[k] == p.fields[k]
      {
        SetAtFrame(p, from, f.default, k);
      }
    }
  }

  /** In a packet where no length is written through, `clear()` leaves
      every primitive field, sub-packet and implicitly sized field holding
      its default. */
  lemma {:induction false} ClearRestoresDefaults(p: Packet, from: nat)
    requires from <= |p.fields| && NoWriteThrough(p)
    requires ClearFrom(p, from).Ok?
    ensures forall k :: from <= k < |p.fields| && StoresAsGiven(p.fields[k]) ==>
      View(ClearFrom(p, from).value.fields[k]) == p.fields[k].default
    decreases |p.fields| - from
  {
    if from < |p.fields| {
      var q := ClearOne(p, from).value;
      ClearOneFrame(p, from);
      ClearRestoresDefaults(q, from + 1);
      ClearLeavesEarlier(q, from + 1, from);
      var r := ClearFrom(q, from + 1).value;
      assert ClearFrom(p, from) == Ok(r);
      forall k | from <= k < |p.fields| && StoresAsGiven(p.fields[k])
        ensures View(r.fields[k]) == p.fields[k].default
      {
        if k > from {
          assert q.fields[k] == p.fields[k];
        }
      }
    }
  }

  /** Resetting later fields leaves an earlier one alone when no length is
      written through. */
  lemma {:induction false} ClearLeavesEarlier(p: Packet, from: nat, k: nat)
    requires k < from <= |p.fields| && NoWriteThrough(p)
    requires ClearFrom(p, from).Ok?
    ensures ClearFrom(p, from).value.fields[k] == p.fields[k]
    decreases |p.fields| - from
  {
    if from < |p.fields| {
      ClearOneFrame(p, from);
      ClearLeavesEarlier(ClearOne(p, from).value, from + 1, k);
    }
  }

  /** `Packet(**kwargs)`: the class's new instance `blank`, then each
      keyword assigned to the field of that name, in order. An unknown
      name raises KeyError; an assignment failure propagates as raised. */
  function New(blank: Packet, kwargs: seq<(string, Value)>): (r: Result<Packet>)
    ensures r.Ok? ==> SameLayout(r.value, blank)
    ensures r.Ok? ==> forall k :: 0 <= k < |kwargs| ==> Position(blank, kwargs[k].0).Ok?
    decreases |kwargs|
  {
    if |kwargs| == 0 then Ok(blank)
    else
      var i :- Position(blank, kwargs[0].0);
      var q :- SetAt(blank, i, kwargs[0].1);
      var r := New(q, kwargs[1..]);
      NewStepLayout(blank, q, kwargs, r);
      r
  }

  /** The rest of the keywords, assigned after the first, keep the layout
      of the blank instance and name only its fields. */
  lemma NewStepLayout(blank: Packet, q: Packet, kwargs: seq<(string, Value)>, r: Result<Packet>)
    requires |kwargs| > 0 && SameLayout(q, blank) && Position(blank, kwargs[0].0).Ok?
    requires r.Ok? ==> SameLayout(r.value, q) && forall k :: 0 <= k < |kwargs| - 1 ==> Position(q, kwargs[1..][k].0).Ok?
    ensures r.Ok? ==> SameLayout(r.value, blank) && forall k :: 0 <= k < |kwargs| ==> Position(blank, kwargs[k].0).Ok?
  {
    if r.Ok? {
      assert forall k :: 1 <= k < |kwargs| ==> kwargs[k] == kwargs[1..][k - 1];
      PositionsKeepLayout(q, blank, kwargs);
    }
  }

  lemma PositionsKeepLayout(q: Packet, p: Packet, kwargs: seq<(string, Value)>)
    requires SameLayout(q, p)
    ensures forall k :: 0 <= k < |kwargs| ==> Position(q, kwargs[k].0) == Position(p, kwargs[k].0)
  {
    TablesKeepLayout(q.fields, p.fields);
  }

  /** Keywords name pairwise distinct fields. */
  predicate DistinctNames(kwargs: seq<(string, Value)>)
  {
    forall j, k :: 0 <= j < k < |kwargs| ==> kwargs[j].0 != kwargs[k].0
  }

  /** The first keyword of a successful construction without
      write-through: its field is assigned alone, and construction goes on
      from there with the remaining keywords. */
  lemma NewFirst(blank: Packet, kwargs: seq<(string, Value)>)
    requires |kwargs| > 0 && NoWriteThrough(blank) && New(blank, kwargs).Ok?
    ensures Position(blank, kwargs[0].0).Ok?
    ensures SetAt(blank, Position(blank, kwargs[0].0).value, kwargs[0].1).Ok?
    ensures
      var i := Position(blank, kwargs[0].0).value;
      var q := SetAt(blank, i, kwargs[0].1).value;
      && New(blank, kwargs) == New(q, kwargs[1..])
      && NoWriteThrough(q) && SameLayout(q, blank)
      && Normalize(blank.fields[i], kwargs[0].1) == Ok(q.fields[i])
      && forall j :: 0 <= j < |blank.fields| && j != i ==> q.fields[j] == blank.fields[j]
  {
    var i := Position(blank, kwargs[0].0).value;
    var q := SetAt(blank, i, kwargs[0].1).value;
    assert forall k :: 0 <= k < |blank.fields| ==> WritesThrough(q.fields[k]) == WritesThrough(blank.fields[k]);
    SetAtStores(blank, i, kwargs[0].1);
    forall j | 0 <= j < |blank.fields| && j != i
      ensures q.fields[j] == blank.fields[j]
    {
      SetAtFrame(blank, i, kwargs[0].1, j);
    }
  }

  /** Without write-through, construction leaves every field no keyword
      names as the blank instance has it. */
  lemma {:induction false} NewFrame(blank: Packet, kwargs: seq<(string, Value)>, j: nat)
    requires NoWriteThrough(blank) && New(blank, kwargs).Ok?
    requires j < |blank.fields| && forall k :: 0 <= k < |kwargs| ==> Position(blank, kwargs[k].0) != Ok(j)
    ensures New(blank, kwargs).value.fields[j] == blank.fields[j]
    decreases |kwargs|
  {
    if |kwargs| > 0 {
      NewFirst(blank, kwargs);
      var q := SetAt(blank, Position(blank, kwargs[0].0).value, kwargs[0].1).value;
      var rest := kwargs[1..];
      PositionsKeepLayout(q, blank, kwargs);
      forall m | 0 <= m < |rest|
        ensures Position(q, rest[m].0) != Ok(j)
      {
        assert rest[m] == kwargs[m + 1];
      }
      NewFrame(q, rest, j);
    }
  }

  lemma DistinctTail(kwargs: seq<(string, Value)>)
    requires |kwargs| > 0 && DistinctNames(kwargs)
    ensures DistinctNames(kwargs[1..])
  {
    forall a, b | 0 <= a < b < |kwargs| - 1
      ensures kwargs[1..][a].0 != kwargs[1..][b].0
    {
      assert kwargs[1..][a] == kwargs[a + 1] && kwargs[1..][b] == kwargs[b + 1];
    }
  }

  /** In a class where no length is written through, construction with
      distinct keywords leaves each named field holding its keyword's
      value, normalised as its assignment does. */
  lemma NewStores(blank: Packet, kwargs: seq<(string, Value)>, k: nat)
    requires NoWriteThrough(blank) && DistinctNames(kwargs)
    requires New(blank, kwargs).Ok? && k < |kwargs|
    ensures var i := Position(blank, kwargs[k].0).value;
      Normalize(blank.fields[i], kwargs[k].1) == Ok(New(blank, kwargs).value.fields[i])
  {
    var i := Position(blank, kwargs[k].0).value;
    NewStoresAt(blank, kwargs, k, i, blank.fields[i], kwargs[k].1);
  }

  /** The situation `NewStoresAt` follows: a construction without
      write-through from distinct keywords, whose `k`-th keyword names
      the field `f` at `i` and carries the value `v`. */
  predicate StoresCase(blank: Packet, kwargs: seq<(string, Value)>, k: nat, i: nat, f: Field, v: Value)
  {
    && NoWriteThrough(blank) && DistinctNames(kwargs)
    && New(blank, kwargs).Ok? && k < |kwargs|
    && Position(blank, kwargs[k].0) == Ok(i) && f == blank.fields[i] && v == kwargs[k].1
  }

  /** `NewStores` with the field `f` at `i` and the value `v` held fixed
      while the construction is followed keyword by keyword. */
  lemma {:induction false} NewStoresAt(blank: Packet, kwargs: seq<(string, Value)>, k: nat, i: nat, f: Field, v: Value)
    requires StoresCase(blank, kwargs, k, i, f, v)
    ensures New(blank, kwargs).Ok? && i < |New(blank, kwargs).value.fields|
    ensures Normalize(f, v) == Ok(New(blank, kwargs).value.fields[i])
    decreases |kwargs|
  {
    if k == 0 {
      NewStoresFirst(blank, kwargs);
    } else {
      var q := NewLaterStep(blank, kwargs, k, i, f, v);
      NewStoresAt(q, kwargs[1..], k - 1, i, f, v);
    }
  }

  /** The first keyword's field is assigned first and never again. */
  lemma NewStoresFirst(blank: Packet, kwargs: seq<(string, Value)>)
    requires NoWriteThrough(blank) && DistinctNames(kwargs)
    requires New(blank, kwargs).Ok? && 0 < |kwargs|
    ensures var i := Position(blank, kwargs[0].0).value;
      Normalize(blank.fields[i], kwargs[0].1) == Ok(New(blank, kwargs).value.fields[i])
  {
    NewFirst(blank, kwargs);
    var i0 := Position(blank, kwargs[0].0).value;
    var q := SetAt(blank, i0, kwargs[0].1).value;
    var rest := kwargs[1..];
    PositionsKeepLayout(q, blank, kwargs);
    forall m | 0 <= m < |rest|
      ensures Position(q, rest[m].0) != Ok(i0)
    {
      assert rest[m] == kwargs[m + 1];
    }
    NewFrame(q, rest, i0);
  }

  /** What the construction after the first keyword inherits: the rest
      of the keywords, still distinct, and the later keyword's field as
      the blank instance has it. */
  lemma NewLaterStep(blank: Packet, kwargs: seq<(string, Value)>, k: nat, i: nat, f: Field, v: Value) returns (q: Packet)
    requires StoresCase(blank, kwargs, k, i, f, v) && k > 0
    ensures StoresCase(q, kwargs[1..], k - 1, i, f, v)
    ensures New(blank, kwargs) == New(q, kwargs[1..])
  {
    NewFirst(blank, kwargs);
    var i0 := Position(blank, kwargs[0].0).value;
    q := SetAt(blank, i0, kwargs[0].1).value;
    UntouchedField(blank, q, i0, kwargs[0].0, kwargs[k].0);
    DistinctTail(kwargs);
    assert kwargs[1..][k - 1] == kwargs[k];
  }

  /** A field found under another name than the first keyword's is one
      the first assignment left alone. */
  lemma UntouchedField(blank: Packet, q: Packet, i0: nat, first: string, name: string)
    requires SameLayout(q, blank) && Position(blank, first) == Ok(i0) && name != first
    requires forall j :: 0 <= j < |blank.fields| && j != i0 ==> q.fields[j] == blank.fields[j]
    ensures Position(q, name) == Position(blank, name)
    ensures Position(blank, name).Ok? ==> q.fields[Position(blank, name).value] == blank.fields[Position(blank, name).value]
  {
    PositionKeepsLayout(q, blank, name);
  }

  /** A keyword that names no field makes construction fail, and when
      every keyword before it was assigned, the failure is KeyError. */
  lemma {:induction false} NewUnknownName(blank: Packet, kwargs: seq<(string, Value)>, k: nat)
    requires k < |kwargs| && Position(blank, kwargs[k].0).Err?
    ensures New(blank, kwargs).Err?
    ensures New(blank, kwargs[..k]).Ok? ==> New(blank, kwargs) == Err(KeyError)
    decreases k
  {
    if k > 0 {
      var prefix := kwargs[..k];
      assert prefix[0] == kwargs[0];
      var i := Position(blank, kwargs[0].0);
      if i.Ok? && SetAt(blank, i.value, kwargs[0].1).Ok? {
        var q := SetAt(blank, i.value, kwargs[0].1).value;
        var rest := kwargs[1..];
        assert rest[k - 1] == kwargs[k];
        PositionKeepsLayout(q, blank, kwargs[k].0);
        NewUnknownName(q, rest, k - 1);
        assert prefix[1..] == rest[..k - 1];
      }
    }
  }

  /** Assigning an integer to an integer-coded primitive field succeeds
      exactly when the number fits the code's width and signedness; a
      number out of range is refused with TypeError. */
  lemma IntegerRange(p: Packet, key: Key, x: int)
    requires KeyIndex(p, key).Ok?
    requires p.fields[KeyIndex(p, key).value].Prim? && IsIntCode(p.fields[KeyIndex(p, key).value].code)
    ensures var code := p.fields[KeyIndex(p, key).value].code;
      && (SetItem(p, key, IntV(x)).Ok? <==> InRange(x, Width(code).value, IsSigned(code)))
      && (!InRange(x, Width(code).value, IsSigned(code)) ==> SetItem(p, key, IntV(x)) == Err(TypeError))
  {
    SetAtAccepts(p, KeyIndex(p, key).value, IntV(x));
  }

  /** The outcome of a rich comparison method. */
  datatype Comparison = Answer(b: bool) | NotImplemented

  /** Python's `==` on two field values. Integers and booleans compare
      numerically; lists element by element; packets by `__eq__`; floats
      by their image. */
  function ValueEq(a: Value, b: Value): (r: bool)
    ensures IsIntegral(a) && IsIntegral(b) ==> (r <==> AsInt(a) == AsInt(b))
    ensures r && !IsIntegral(a) ==>
      && a.NoneV? == b.NoneV? && a.BytesV? == b.BytesV? && a.TextV? == b.TextV?
      && a.FloatV? == b.FloatV? && a.SeqV? == b.SeqV? && a.PacketV? == b.PacketV?
    ensures (a.NoneV? || a.BytesV? || a.TextV? || a.FloatV?) ==> (r <==> a == b)
    ensures a.PacketV? && r ==> b.PacketV? && b.packet.cls == a.packet.cls
    decreases a, 0
  {
    match a
    case NoneV => b.NoneV?
    case BoolV(_) => IsIntegral(b) && AsInt(a) == AsInt(b)
    case IntV(_) => IsIntegral(b) && AsInt(a) == AsInt(b)
    case BytesV(x) => b.BytesV? && b.bytes == x
    case TextV(x) => b.TextV? && b.text == x
    case FloatV(x) => b.FloatV? && b.bits == x
    case SeqV(xs) =>
      b.SeqV? && |xs| == |b.items| && forall k :: 0 <= k < |xs| ==> ValueEq(xs[k], b.items[k])
    case PacketV(q) => b.PacketV? && q.cls == b.packet.cls && FieldsEq(q, b.packet, 0)
  }

  /** Whether the value field `f` shows equals `w`. */
  function FieldEq(f: Field, w: Value): bool
    decreases f, 0
  {
    match f
    case Pad(fill) => ValueEq(fill, w)
    case List(_, _, _, _, elems) =>
      w.SeqV? && |elems| == |w.items| && forall k :: 0 <= k < |elems| ==> FieldEq(elems[k], w.items[k])
    case _ => ValueEq(f.value, w)
  }

  /** The loop of `__eq__` from field `from` on: each non-padding field of
      `a` against the value `b` holds under the same name. */
  function FieldsEq(a: Packet, b: Packet, from: nat): bool
    requires from <= |a.fields|
    decreases a, |a.fields| - from
  {
    if from == |a.fields| then true
    else
      var f := a.fields[from];
      var here := f.Pad? || (Lookup(b, f.name).Ok? && FieldEq(f, View(Lookup(b, f.name).value)));
      here && FieldsEq(a, b, from + 1)
  }

  /** `a.__eq__(b)`: declines unless `b` is a packet of the same class,
      and otherwise answers whether every item of `a` equals `b`'s value
      under the same name. */
  function PacketEq(a: Packet, b: Value): (r: Comparison)
    ensures r.Answer? <==> b.PacketV? && b.packet.cls == a.cls
    ensures r.Answer? ==>
      (r.b <==> forall j :: 0 <= j < |a.fields| && !a.fields[j].Pad? ==>
        GetItem(b.packet, Name(a.fields[j].name)).Ok?
        && ValueEq(View(a.fields[j]), GetItem(b.packet, Name(a.fields[j].name)).value))
  {
    if b.PacketV? && b.packet.cls == a.cls then
      FieldsEqAll(a, b.packet, 0);
      Answer(FieldsEq(a, b.packet, 0))
    else NotImplemented
  }

  /** `a.__ne__(b)`. */
  function PacketNe(a: Packet, b: Value): (r: Comparison)
    ensures r.NotImplemented? <==> PacketEq(a, b).NotImplemented?
    ensures r.Answer? ==> r.b == !PacketEq(a, b).b
  {
    match PacketEq(a, b)
    case Answer(x) => Answer(!x)
    case NotImplemented => NotImplemented
  }

  /** `a == b`: when `a` declines, the reflected `b.__eq__(a)` is tried,
      and when both decline two distinct objects are unequal. */
  function OpEq(a: Packet, b: Value): (r: bool)
    ensures r ==> b.PacketV? && b.packet.cls == a.cls
    ensures b.PacketV? && b.packet.cls == a.cls ==> r == PacketEq(a, b).b
  {
    match PacketEq(a, b)
    case Answer(x) => x
    case NotImplemented =>
      b.PacketV? && PacketEq(b.packet, PacketV(a)) == Answer(true)
  }

  /** `a != b`, with the same fallbacks; two distinct objects differ. */
  function OpNe(a: Packet, b: Value): (r: bool)
    ensures r == !OpEq(a, b)
  {
    match PacketNe(a, b)
    case Answer(x) => x
    case NotImplemented =>
      !(b.PacketV? && PacketNe(b.packet, PacketV(a)) == Answer(false))
  }

  /** A field's comparison is the comparison of the value it shows. */
  lemma {:induction false} FieldEqIsViewEq(f: Field, w: Value)
    ensures FieldEq(f, w) == ValueEq(View(f), w)
    decreases f
  {
    if f.List? {
      forall k | w.SeqV? && 0 <= k < |f.elems| && k < |w.items|
        ensures FieldEq(f.elems[k], w.items[k]) == ValueEq(View(f.elems[k]), w.items[k])
      {
        FieldEqIsViewEq(f.elems[k], w.items[k]);
      }
    }
  }

  /** The loop holds exactly when every non-padding field from `from` on
      matches the field of its name in `b`. */
  lemma {:induction false} FieldsEqAll(a: Packet, b: Packet, from: nat)
    requires from <= |a.fields|
    ensures FieldsEq(a, b, from) <==>
      forall j :: from <= j < |a.fields| && !a.fields[j].Pad? ==>
        GetItem(b, Name(a.fields[j].name)).Ok?
        && ValueEq(View(a.fields[j]), GetItem(b, Name(a.fields[j].name)).value)
    decreases |a.fields| - from
  {
    if from < |a.fields| {
      FieldsEqAll(a, b, from + 1);
      var f := a.fields[from];
      if !f.Pad? && Lookup(b, f.name).Ok? {
        FieldEqIsViewEq(f, View(Lookup(b, f.name).value));
      }
    }
  }

  /** Packets are equal exactly when they are of one class and every
      item of the left one equals the right one's value under that key. */
  lemma EqIffItemsMatch(a: Packet, b: Packet)
    ensures OpEq(a, PacketV(b)) <==>
      a.cls == b.cls &&
      forall k :: 0 <= k < |Items(a)| ==>
        GetItem(b, Name(Items(a)[k].0)).Ok? && ValueEq(Items(a)[k].1, GetItem(b, Name(Items(a)[k].0)).value)
  {
    FieldsEqAll(a, b, 0);
    var index := VisibleIndex(a.fields);
    if a.cls == b.cls {
      assert forall k :: 0 <= k < |Items(a)| ==> Items(a)[k] == (a.fields[index[k]].name, View(a.fields[index[k]]));
    }
  }

  /** Against anything but a packet of its class, `__eq__` declines, so
      `==` is False and `!=` is True. */
  lemma OtherClassUnequal(a: Packet, b: Value)
    requires !b.PacketV? || b.packet.cls != a.cls
    ensures PacketEq(a, b) == NotImplemented && PacketNe(a, b) == NotImplemented
    ensures !OpEq(a, b) && OpNe(a, b)
  {
  }
}

=== FILE: findings.dfy ===
/** Where the source departs from what it evidently intends, each shown on
    a concrete input against the as-written model (aswritten.dfy), next to
    the property the corrected model keeps for every input. */
module Findings {
  import opened Base
  import opened IntCodec
  import opened Types
  import opened Primitive
  import opened Tables
  import opened Sizing
  import opened Packing
  import opened Parsing
  import opened Setting
  import opened Container
  import opened AsWritten
  import opened Regression

  // ---- Field.set keeps a value that fails its pack check ----

  /** The field after `field.set(v)`: the new content when the assignment
      succeeds, the old field when it raises. */
  function AfterSet(f: Field, v: Value): (r: Field)
    ensures Shape(r) == Shape(f)
  {
    if DetachedSet(f, v).Ok? then DetachedSet(f, v).value else f
  }

  /** A field that packs still packs after any assignment, failed or not. */
  lemma SetKeepsPackable(f: Field, v: Value)
    requires Pack(Detached, f, true).Ok?
    ensures Pack(Detached, AfterSet(f, v), true).Ok?
    ensures DetachedSet(f, v).Err? ==> AfterSet(f, v) == f
  {
  }

  /** A raw field sized by its content, holding no bytes. */
  const EmptyRaw: Field := Raw("data", Implicit, NoneV, BytesV([]))

  /** Assigning it the integer 42 raises TypeError, not `struct.error`, so
      the source does not roll back: the field keeps 42 and no longer packs. */
  lemma SetKeepsBadValue()
    ensures Pack(Detached, EmptyRaw, true) == Ok([])
    ensures SetFieldAsWritten(EmptyRaw, IntV(42)) == (Raw("data", Implicit, NoneV, IntV(42)), Err(TypeError))
    ensures Pack(Detached, SetFieldAsWritten(EmptyRaw, IntV(42)).0, true).Err?
    ensures AfterSet(EmptyRaw, IntV(42)) == EmptyRaw
  {
    assert Resize([], 0) == [];
  }

  // ---- the length written through before a failed assignment stays ----

  /** The packet after `packet[i] = v`: the new packet when the assignment
      succeeds, the old one when it raises. */
  function AfterSetAt(p: Packet, i: nat, v: Value): (r: Packet)
    requires i < |p.fields|
    ensures SameLayout(r, p)
  {
    if SetAt(p, i, v).Ok? then SetAt(p, i, v).value else p
  }

  /** A raw or text field whose sibling count agrees with its content
      keeps agreeing after any assignment to it, failed or not. */
  lemma SetAtKeepsSync(p: Packet, i: nat, v: Value)
    requires i < |p.fields| && (p.fields[i].Raw? || p.fields[i].Str?) && p.fields[i].len.Ref?
    requires Position(p, p.fields[i].len.sibling) != Ok(i)
    requires ContentLength(p.fields[i]).Ok? && Count(Owner(p), p.fields[i]) == ContentLength(p.fields[i])
    ensures var r := AfterSetAt(p, i, v);
      ContentLength(r.fields[i]).Ok? && Count(Owner(r), r.fields[i]) == ContentLength(r.fields[i])
  {
    if SetAt(p, i, v).Ok? {
      var r := SetAt(p, i, v).value;
      assert Shape(r.fields[i]) == Shape(p.fields[i]);
      SetAtSyncsLength(p, i, v);
    }
  }

  /** The first of two fields, found by its name. */
  lemma FirstPosition(p: Packet, name: string)
    requires |p.fields| == 2 && !p.fields[0].Pad? && p.fields[0].name == name
    requires !p.fields[1].Pad? && p.fields[1].name != name
    ensures Position(p, name) == Ok(0)
  {
    assert Position(p, name).Ok?;
  }

  /** A packet of an empty one-byte count `n` and the raw field `d` it
      sizes, assigned text: the source writes the text's length into `n`,
      then fails the pack check with `struct.error` and rolls back `d`
      only. The corrected assignment fails as a whole. */
  lemma {:induction false} StaleLength(p: Packet, n: string, d: string, dflt: Value, t: seq<Byte>)
    requires p.fields == [Prim(n, 'B', IntV(0), IntV(0)), Raw(d, Ref(n), dflt, BytesV([]))] && n != d
    requires 0 < |t| < 256
    ensures var r := SetAtAsWritten(p, 1, TextV(t));
      && r.1 == Err(StructError)
      && r.0 == Packet(p.cls, p.bigEndian, [Prim(n, 'B', IntV(0), IntV(|t|)), p.fields[1]])
    ensures SetAt(p, 1, TextV(t)).Err?
  {
    var g := Raw(d, Ref(n), dflt, TextV(t));
    assert Normalize(p.fields[1], TextV(t)) == Ok(g);
    FirstPosition(p, n);
    var c := Prim(n, 'B', IntV(0), IntV(|t|));
    assert PackPrim('B', IntV(|t|), true).Ok?;
    assert SetFieldAsWritten(p.fields[0], IntV(|t|)) == (c, Ok(()));
    assert DetachedSet(p.fields[0], IntV(|t|)) == Ok(c);
    var q := Packet(p.cls, p.bigEndian, [c, p.fields[1]]);
    assert p.fields[0 := c] == q.fields;
    assert WriteThroughAsWritten(p, g) == (q, Ok(()));
    assert WriteThrough(p, g) == Ok(q);
    var p2 := Packet(p.cls, p.bigEndian, [c, g]);
    assert q.fields[1 := g] == p2.fields;
    FirstPosition(p2, n);
    assert RefLength(Owner(p2), n) == Ok(|t|);
    assert Pack(Owner(p2), g, true) == Err(StructError);
  }

  /** A one-byte count and the raw field it sizes, both empty. */
  const Counted: Packet := Packet("Counted", true, [
    Prim("n", 'B', IntV(0), IntV(0)),
    Raw("data", Ref("n"), NoneV, BytesV([]))])

  /** `Counted` after the failed assignment of "abc" to its data. */
  const Stale: Packet := Packet("Counted", true, [
    Prim("n", 'B', IntV(0), IntV(3)),
    Raw("data", Ref("n"), NoneV, BytesV([]))])

  /** Assigning "abc" leaves the packet claiming three bytes of data while
      holding none; `Counted` itself was in agreement. */
  lemma SetLeavesStaleLength()
    ensures Count(Owner(Counted), Counted.fields[1]) == ContentLength(Counted.fields[1]) == Ok(0)
    ensures SetAtAsWritten(Counted, 1, TextV([97, 98, 99])) == (Stale, Err(StructError))
    ensures Count(Owner(Stale), Stale.fields[1]) == Ok(3) && ContentLength(Stale.fields[1]) == Ok(0)
    ensures SetAt(Counted, 1, TextV([97, 98, 99])).Err?
  {
    assert "data"[0] != "n"[0];
    FirstPosition(Counted, "n");
    StaleLength(Counted, "n", "data", NoneV, [97, 98, 99]);
    FirstPosition(Stale, "n");
  }

  // ---- list elements ignore the packet's byte order ----

  /** Each field of `es` packed on its own in the given byte order, the
      results joined in order. */
  function JoinPacks(env: Env, es: seq<Field>, bigEndian: bool): Result<seq<Byte>>
  {
    if |es| == 0 then Ok([])
    else
      var head :- Pack(env, es[0], bigEndian);
      var rest :- JoinPacks(env, es[1..], bigEndian);
      Ok(head + rest)
  }

  /** A list of any length packs as its elements' own packs, joined in
      order, each in the byte order the list is packed with; the source
      joins them in big-endian order whatever the packet's order. */
  lemma ListFollowsByteOrder(env: Env, f: Field, bigEndian: bool)
    requires f.List?
    ensures Pack(env, f, bigEndian) == JoinPacks(env, f.elems, bigEndian)
    ensures PackListAsWritten(env, f) == JoinPacks(env, f.elems, true)
  {
    ElementsJoinPacks(env, f, 0, bigEndian);
    ElementsJoinPacks(env, f, 0, true);
    assert f.elems[0..] == f.elems;
  }

  lemma {:induction false} ElementsJoinPacks(env: Env, f: Field, from: nat, bigEndian: bool)
    requires f.List? && from <= |f.elems|
    ensures PackElements(env, f, from, bigEndian) == JoinPacks(env, f.elems[from..], bigEndian)
    decreases |f.elems| - from
  {
    if from < |f.elems| {
      ElementsJoinPacks(env, f, from + 1, bigEndian);
      assert f.elems[from..][1..] == f.elems[from + 1..];
    }
  }

  /** A list holding the unsigned 16-bit number 1. */
  const Shorts: Field := List("xs", Implicit, Prim("x", 'H', IntV(0), IntV(0)), NoneV, [Prim("x", 'H', IntV(0), IntV(1))])

  /** In a little-endian packet the source still packs it big-endian. */
  lemma ListIgnoresByteOrder()
    ensures PackListAsWritten(Detached, Shorts) == Ok([0, 1])
    ensures Pack(Detached, Shorts, false) == Ok([1, 0])
  {
    ListFollowsByteOrder(Detached, Shorts, false);
    ListFollowsByteOrder(Detached, Shorts, true);
    var e := Shorts.elems[0];
    assert Shorts.elems[1..] == [];
    assert EncodeLE(0, 0) == [];
    assert EncodeLE(1, 2) == [1, 0];
    assert Reverse([1, 0]) == [0, 1];
    assert Pack(Detached, e, true) == Ok([0, 1]);
    assert Pack(Detached, e, false) == Ok([1, 0]);
    assert [0, 1] + [] == [0, 1] && [1, 0] + [] == [1, 0];
  }

  /** A list of exactly one unsigned 16-bit element. */
  const OneShort: Field := List("xs", Static(1), Prim("x", 'H', IntV(0), IntV(0)), NoneV, [Prim("x", 'H', IntV(0), IntV(0))])

  /** As written, a list of one element with a static count hands the
      whole slice to that element, decoded big-endian. */
  lemma OneUnpackAsWritten(env: Env, f: Field, raw: seq<Byte>, bigEndian: bool, g: Field)
    requires f.List? && f.len == Static(1) && |f.elems| == 1
    requires SizeAsWritten(env, f.elems[0]) == Ok(|raw|)
    requires UnpackAsWritten(env, f.elems[0], raw, true) == Ok(g)
    ensures UnpackAsWritten(env, f, raw, bigEndian) == Ok(f.(elems := [g]))
  {
    assert ElementsSizeAsWritten(env, f, 1, 1) == Ok(0);
    assert ElementsSizeAsWritten(env, f, 0, 1) == Ok(|raw|);
    assert Slice(raw, 0, |raw|) == raw;
    assert UnpackElementsAsWritten(env, f, 1, 1, raw, |raw|) == Ok([]);
    assert [g] + [] == [g];
  }

  /** Intended, the element decodes in the byte order the list is
      decoded with. */
  lemma OneParse(env: Env, f: Field, raw: seq<Byte>, bigEndian: bool, g: Field)
    requires f.List? && f.len == Static(1) && |f.elems| == 1
    requires Parse(env, f.elems[0], raw, bigEndian) == Ok((g, |raw|))
    ensures Parse(env, f, raw, bigEndian) == Ok((f.(elems := [g]), |raw|))
  {
    assert Element(f, 0) == f.elems[0];
    assert raw[|raw|..] == [];
    assert ParseElement(env, f, 0, raw, bigEndian) == Ok((g, |raw|));
    assert ParseElements(env, f, 1, 1, raw[|raw|..], bigEndian) == Ok(([], 0));
    assert [g] + [] == [g];
    assert ParseElements(env, f, 0, 1, raw, bigEndian) == Ok(([g], |raw|));
  }

  /** Unpacking has the same departure: in a little-endian packet the
      source reads the bytes `01 00` of a one-element list as 256, where
      the intended decoding reads 1. */
  lemma ListUnpackIgnoresByteOrder(raw: seq<Byte>)
    requires raw == [1, 0]
    ensures UnpackAsWritten(Detached, OneShort, raw, false) == Ok(OneShort.(elems := [Prim("x", 'H', IntV(0), IntV(256))]))
    ensures Parse(Detached, OneShort, raw, false) == Ok((OneShort.(elems := [Prim("x", 'H', IntV(0), IntV(1))]), 2))
  {
    var e := OneShort.elems[0];
    assert DecodeLE([0, 1]) == 256 && DecodeLE(raw) == 1;
    assert Reverse(raw) == [0, 1];
    assert UnpackAsWritten(Detached, e, raw, true) == Ok(Prim("x", 'H', IntV(0), IntV(256)));
    OneUnpackAsWritten(Detached, OneShort, raw, false, Prim("x", 'H', IntV(0), IntV(256)));
    assert raw[..2] == raw;
    assert Parse(Detached, e, raw, false) == Ok((Prim("x", 'H', IntV(0), IntV(1)), 2));
    OneParse(Detached, OneShort, raw, false, Prim("x", 'H', IntV(0), IntV(1)));
  }

  // ---- List.size sums stored elements past the count ----

  /** Elements that agree up to `count` give the same size. */
  lemma {:induction false} ElementsSizeAgree(env: Env, f: Field, g: Field, from: nat, count: nat)
    requires f.List? && g.List? && from <= count
    requires forall k :: from <= k < count ==> Element(f, k) == Element(g, k)
    ensures ElementsSize(env, f, from, count) == ElementsSize(env, g, from, count)
    decreases count - from
  {
    if from < count {
      var e := if from < |f.elems| then f.elems[from] else f.proto;
      assert e == Element(g, from) == if from < |g.elems| then g.elems[from] else g.proto;
      ElementsSizeAgree(env, f, g, from + 1, count);
    }
  }

  /** A list's size depends on its resolved count only: stored elements
      past the count are not measured. */
  lemma SizeIgnoresSurplus(env: Env, f: Field, extra: seq<Field>)
    requires f.List? && !f.len.Implicit? && Resolve(env, f.len, Ok(|f.elems|)).Ok?
    requires Resolve(env, f.len, Ok(|f.elems|)).value <= |f.elems|
    ensures Size(env, f.(elems := f.elems + extra)) == Size(env, f)
  {
    var g := f.(elems := f.elems + extra);
    var count := Resolve(env, f.len, Ok(|f.elems|)).value;
    assert Resolve(env, g.len, Ok(|g.elems|)) == Ok(count);
    forall k | 0 <= k < count ensures Element(f, k) == Element(g, k) {
      assert g.elems[k] == f.elems[k];
    }
    ElementsSizeAgree(env, f, g, 0, count);
  }

  /** A list counted by a sibling, with one stored byte. */
  const Surplus: Field := List("l", Ref("n"), Prim("e", 'B', IntV(0), IntV(0)), NoneV, [Prim("e", 'B', IntV(0), IntV(7))])

  /** Detached, the count reads 0. The source measures the stored element
      anyway, so adding it changes the size. */
  lemma SizeCountsSurplus()
    ensures SizeAsWritten(Detached, Surplus) == Ok(1)
    ensures SizeAsWritten(Detached, Surplus.(elems := [])) == Ok(0)
    ensures Size(Detached, Surplus) == Size(Detached, Surplus.(elems := [])) == Ok(0)
  {
    SizeIgnoresSurplus(Detached, Surplus.(elems := []), Surplus.elems);
    assert Surplus.(elems := []).(elems := [] + Surplus.elems) == Surplus;
  }

  // ---- unpack measures a field before decoding its count ----

  /** A packet of a one-byte count `n` followed by a list `d` of
      sub-packets that `n` counts, none stored: the shape of both levels
      of the regression packet. */
  predicate CountedList(p: Packet, n: string, d: string, c: nat)
  {
    |p.fields| == 2 && n != d
    && p.fields[0] == Prim(n, 'B', IntV(0), IntV(c))
    && p.fields[1].List? && p.fields[1].name == d && p.fields[1].len == Ref(n)
    && p.fields[1].elems == [] && p.fields[1].proto.Sub? && p.fields[1].proto.value.PacketV?
  }

  /** An element list with nothing stored measures `total - from` copies of
      its prototype. */
  lemma {:induction false} EmptyListSizeAsWritten(env: Env, f: Field, from: nat, total: nat, w: nat)
    requires f.List? && f.elems == [] && from <= total && SizeAsWritten(env, f.proto) == Ok(w)
    ensures ElementsSizeAsWritten(env, f, from, total) == Ok((total - from) * w)
    decreases total - from
  {
    if from < total {
      EmptyListSizeAsWritten(env, f, from + 1, total, w);
      var k := total - (from + 1);
      assert total - from == k + 1;
      assert (k + 1) * w == k * w + w;
      assert ElementsSizeAsWritten(env, f, from, total) == Ok(w + k * w);
    }
  }

  /** A list with nothing stored, counted `c` by its sibling, measures
      `c` copies of its prototype. */
  lemma EmptyCountedSizeAsWritten(env: Env, l: Field, c: nat, w: nat)
    requires l.List? && l.elems == [] && l.len.Ref? && RefLength(env, l.len.sibling) == Ok(c)
    requires SizeAsWritten(env, l.proto) == Ok(w)
    ensures SizeAsWritten(env, l) == Ok(c * w)
  {
    EmptyListSizeAsWritten(env, l, 0, c, w);
    assert GrownLength(l, c) == c;
  }

  /** As written, such a packet measures its count byte plus `c` copies of
      the prototype: the list is grown to the count, never cut. */
  lemma CountedSizeAsWritten(p: Packet, n: string, d: string, c: nat, w: nat)
    requires CountedList(p, n, d, c) && PacketSizeAsWritten(p.fields[1].proto.value.packet) == Ok(w)
    ensures PacketSizeAsWritten(p) == Ok(1 + c * w)
  {
    CountedListSizeAsWritten(p, n, d, c, w);
    assert SizeAsWritten(Owner(p), p.fields[0]) == Ok(1);
  }

  /** The list of such a packet measures `c` copies of the prototype. */
  lemma CountedListSizeAsWritten(p: Packet, n: string, d: string, c: nat, w: nat)
    requires CountedList(p, n, d, c) && PacketSizeAsWritten(p.fields[1].proto.value.packet) == Ok(w)
    ensures FieldsSizeAsWritten(p, 1) == Ok(c * w)
  {
    var l := p.fields[1];
    CountRef(p, n, c);
    assert SizeAsWritten(Owner(p), l.proto) == Ok(w);
    EmptyCountedSizeAsWritten(Owner(p), l, c, w);
    assert FieldsSizeAsWritten(p, 2) == Ok(0);
  }

  lemma Sub2SizeAsWritten()
    ensures PacketSizeAsWritten(Sub2) == Ok(8)
  {
    assert FieldsSizeAsWritten(Sub2, 2) == Ok(0);
  }

  /** A single byte unpacks under code `B` to its own value. */
  lemma ByteUnpacks(c: Byte, bigEndian: bool)
    ensures Width('B') == Ok(1) && UnpackPrim('B', [c], bigEndian) == Ok(IntV(c))
  {
    UnpackOfPack('B', IntV(c), bigEndian);
    assert EncodeLE(c, 1) == [c];
    assert Reverse([c]) == [c];
  }

  /** The one-byte count of a counted list decodes from the first byte. */
  lemma CountAsWritten(p: Packet, n: string, d: string, raw: seq<Byte>)
    requires CountedList(p, n, d, 0) && |raw| >= 1
    ensures SizeAsWritten(Owner(p), p.fields[0]) == Ok(1)
    ensures UnpackAsWritten(Owner(p), p.fields[0], Slice(raw, 0, 1), p.bigEndian)
         == Ok(Prim(n, 'B', IntV(0), IntV(raw[0])))
  {
    assert Slice(raw, 0, 1) == [raw[0]];
    ByteUnpacks(raw[0], p.bigEndian);
  }

  /** The next field of the loop of `unpack` as written measures and
      decodes as the field does in the packet `s` as it then stands. */
  lemma FieldAsWrittenIs(p: Packet, decoded: seq<Field>, raw: seq<Byte>, start: nat, s: Packet, f: Field, w: nat, r: Result<Field>)
    requires |decoded| < |p.fields| && s == Packet(p.cls, p.bigEndian, decoded + p.fields[|decoded|..]) && f == p.fields[|decoded|]
    requires SizeAsWritten(Owner(s), f) == Ok(w) && UnpackAsWritten(Owner(s), f, Slice(raw, start, start + w), p.bigEndian) == r
    ensures FieldAsWritten(p, decoded, raw, start) == if r.Ok? then Ok((r.value, w)) else Err(r.error)
  {
    MeasureIs(p, decoded, s, f, w);
    DecodeIs(p, decoded, Slice(raw, start, start + w), s, f, r);
    FieldStepAsWritten(p, decoded, raw, start, w, r);
  }

  /** The step combines the two. */
  lemma FieldStepAsWritten(p: Packet, decoded: seq<Field>, raw: seq<Byte>, start: nat, w: nat, r: Result<Field>)
    requires |decoded| < |p.fields| && MeasureAsWritten(p, decoded) == Ok(w)
    requires DecodeAsWritten(p, decoded, Slice(raw, start, start + w)) == r
    ensures FieldAsWritten(p, decoded, raw, start) == if r.Ok? then Ok((r.value, w)) else Err(r.error)
  {
  }

  /** The width of that step is the field's size in that packet. */
  lemma MeasureIs(p: Packet, decoded: seq<Field>, s: Packet, f: Field, w: nat)
    requires |decoded| < |p.fields| && s == Packet(p.cls, p.bigEndian, decoded + p.fields[|decoded|..]) && f == p.fields[|decoded|]
    requires SizeAsWritten(Owner(s), f) == Ok(w)
    ensures MeasureAsWritten(p, decoded) == Ok(w)
  {
  }

  /** Its decode is the field's unpack in that packet. */
  lemma DecodeIs(p: Packet, decoded: seq<Field>, slice: seq<Byte>, s: Packet, f: Field, r: Result<Field>)
    requires |decoded| < |p.fields| && s == Packet(p.cls, p.bigEndian, decoded + p.fields[|decoded|..]) && f == p.fields[|decoded|]
    requires UnpackAsWritten(Owner(s), f, slice, p.bigEndian) == r
    ensures DecodeAsWritten(p, decoded, slice) == r
  {
  }

  /** A field that decodes with an error ends the loop with that error. */
  lemma FieldFailsAsWritten(p: Packet, decoded: seq<Field>, raw: seq<Byte>, start: nat, e: Error)
    requires |decoded| < |p.fields| && FieldAsWritten(p, decoded, raw, start) == Err(e)
    ensures UnpackFieldsAsWritten(p, decoded, raw, start) == Err(e)
  {
  }

  /** A first field that decodes passes on to the rest of the loop, and
      so does any error the rest ends with. */
  lemma FirstFieldAsWritten(p: Packet, raw: seq<Byte>, w: nat, g: Field, e: Error)
    requires 0 < |p.fields| && FieldAsWritten(p, [], raw, 0) == Ok((g, w))
    requires UnpackFieldsAsWritten(p, [g], raw, w) == Err(e)
    ensures UnpackPacketAsWritten(p, raw) == Err(e)
  {
    assert [] + [g] == [g];
  }

  /** As written, unpacking a counted list decodes the count, measures the
      list at `count * w` bytes and hands it that slice of the rest; any
      error the list raises is the packet's. */
  lemma CountedUnpackAsWritten(p: Packet, n: string, d: string, raw: seq<Byte>, w: nat)
    requires CountedList(p, n, d, 0) && |raw| >= 1
    requires PacketSizeAsWritten(p.fields[1].proto.value.packet) == Ok(w)
    ensures var q := Packet(p.cls, p.bigEndian, [Prim(n, 'B', IntV(0), IntV(raw[0])), p.fields[1]]);
      var g := UnpackAsWritten(Owner(q), p.fields[1], Slice(raw, 1, 1 + raw[0] * w), p.bigEndian);
      g.Err? ==> UnpackPacketAsWritten(p, raw) == Err(g.error)
  {
    var count := Prim(n, 'B', IntV(0), IntV(raw[0]));
    var q := Packet(p.cls, p.bigEndian, [count, p.fields[1]]);
    assert [count] + p.fields[1..] == q.fields;
    assert CountedList(q, n, d, raw[0]);
    CountedSizeAsWritten(q, n, d, raw[0], w);
    var l := p.fields[1];
    CountRef(q, n, raw[0]);
    assert SizeAsWritten(Owner(q), l.proto) == Ok(w);
    var c: nat := raw[0];
    EmptyCountedSizeAsWritten(Owner(q), l, c, w);
    var g := UnpackAsWritten(Owner(q), l, Slice(raw, 1, 1 + c * w), p.bigEndian);
    if g.Err? {
      ListFailsAsWritten(p, n, d, raw, q, c * w, g.error);
    }
  }

  /** Once the count has decoded, an error from the list measured at
      `len` bytes is the packet's. */
  lemma ListFailsAsWritten(p: Packet, n: string, d: string, raw: seq<Byte>, q: Packet, len: nat, e: Error)
    requires CountedList(p, n, d, 0) && |raw| >= 1
    requires q == Packet(p.cls, p.bigEndian, [Prim(n, 'B', IntV(0), IntV(raw[0])), p.fields[1]])
    requires SizeAsWritten(Owner(q), p.fields[1]) == Ok(len)
    requires UnpackAsWritten(Owner(q), p.fields[1], Slice(raw, 1, 1 + len), p.bigEndian) == Err(e)
    ensures UnpackPacketAsWritten(p, raw) == Err(e)
  {
    var count := Prim(n, 'B', IntV(0), IntV(raw[0]));
    ListFieldFailsAsWritten(p, n, d, raw, q, len, e);
    CountFieldAsWritten(p, n, d, raw);
    FirstFieldAsWritten(p, raw, 1, count, e);
  }

  /** The count is the first field of the loop: one byte, decoded. */
  lemma CountFieldAsWritten(p: Packet, n: string, d: string, raw: seq<Byte>)
    requires CountedList(p, n, d, 0) && |raw| >= 1
    ensures FieldAsWritten(p, [], raw, 0) == Ok((Prim(n, 'B', IntV(0), IntV(raw[0])), 1))
  {
    CountAsWritten(p, n, d, raw);
    assert Packet(p.cls, p.bigEndian, [] + p.fields[0..]) == p;
    FieldAsWrittenIs(p, [], raw, 0, p, p.fields[0], 1, Ok(Prim(n, 'B', IntV(0), IntV(raw[0]))));
  }

  /** The list is the second field of the loop, after the decoded count. */
  lemma ListFieldFailsAsWritten(p: Packet, n: string, d: string, raw: seq<Byte>, q: Packet, len: nat, e: Error)
    requires CountedList(p, n, d, 0) && |raw| >= 1
    requires q == Packet(p.cls, p.bigEndian, [Prim(n, 'B', IntV(0), IntV(raw[0])), p.fields[1]])
    requires SizeAsWritten(Owner(q), p.fields[1]) == Ok(len)
    requires UnpackAsWritten(Owner(q), p.fields[1], Slice(raw, 1, 1 + len), p.bigEndian) == Err(e)
    ensures UnpackFieldsAsWritten(p, [Prim(n, 'B', IntV(0), IntV(raw[0]))], raw, 1) == Err(e)
  {
    var count := Prim(n, 'B', IntV(0), IntV(raw[0]));
    assert |[count]| == 1 && Packet(p.cls, p.bigEndian, [count] + p.fields[1..]) == q;
    FieldAsWrittenIs(p, [count], raw, 1, q, p.fields[1], len, Err(e));
    FieldFailsAsWritten(p, [count], raw, 1, e);
  }

  /** The list of a counted list refuses any slice but `c * w` bytes. */
  lemma ListSliceAsWritten(env: Env, l: Field, c: nat, w: nat, slice: seq<Byte>, bigEndian: bool)
    requires l.List? && l.elems == [] && l.len.Ref? && RefLength(env, l.len.sibling) == Ok(c)
    requires SizeAsWritten(env, l.proto) == Ok(w) && |slice| != c * w
    ensures UnpackAsWritten(env, l, slice, bigEndian) == Err(AssertionError)
  {
    EmptyListSizeAsWritten(env, l, 0, c, w);
  }

  /** The sub-packet template given its one-byte slice: the count `b`
      decodes, then its list is measured at `8 * b` bytes and handed the
      empty rest of the slice, which fails the list's assertion. */
  lemma Sub1AsWrittenFails(b: Byte)
    requires b >= 1
    ensures UnpackPacketAsWritten(Sub1, [b]) == Err(AssertionError)
  {
    Sub1Shape();
    assert CountedList(Sub1, "size2", "data2", 0);
    Sub2SizeAsWritten();
    var q := Packet(Sub1.cls, Sub1.bigEndian, [Prim("size2", 'B', IntV(0), IntV(b)), Sub1.fields[1]]);
    CountedUnpackAsWritten(Sub1, "size2", "data2", [b], 8);
    CountRef(q, "size2", b);
    assert Slice([b], 1, 1 + b * 8) == [];
    ListSliceAsWritten(Owner(q), Sub1.fields[1], b, 8, [], Sub1.bigEndian);
  }

  lemma Packet1Shape()
    ensures CountedList(Packet1, "size1", "data1", 0)
    ensures Packet1.fields[1].proto.value.packet == Sub1
  {
    assert "data1"[0] != "size1"[0];
  }

  /** The template sub-packet measures one byte: its count, and no entries. */
  lemma Sub1SizeAsWritten()
    ensures PacketSizeAsWritten(Sub1) == Ok(1)
  {
    Sub1Shape();
    assert CountedList(Sub1, "size2", "data2", 0);
    Sub2SizeAsWritten();
    CountedSizeAsWritten(Sub1, "size2", "data2", 0, 8);
  }

  /** The outer list handed a slice of exactly its measured length: its
      first group gets the one-byte slice holding that group's count. */
  lemma GroupsAsWrittenFail(env: Env, l: Field, c: nat, slice: seq<Byte>)
    requires l.List? && l.elems == [] && l.proto == Sub("", PacketV(Sub1), PacketV(Sub1))
    requires l.len.Ref? && RefLength(env, l.len.sibling) == Ok(c)
    requires c >= 1 && |slice| == c && slice[0] >= 1
    ensures UnpackAsWritten(env, l, slice, false) == Err(AssertionError)
  {
    Sub1SizeAsWritten();
    EmptyListSizeAsWritten(env, l, 0, c, 1);
    assert Slice(slice, 0, 1) == [slice[0]];
    Sub1AsWrittenFails(slice[0]);
    assert UnpackElementsAsWritten(env, l, 0, c, slice, 0) == Err(AssertionError);
  }

  /** Any buffer whose outer and first inner count are both nonzero: the
      outer list is measured at one byte per group, since each template
      group measures only its count, and fails either on the slice length
      or on its first group. */
  lemma Packet1AsWrittenFails(raw: seq<Byte>)
    requires |raw| >= 2 && raw[0] >= 1 && raw[1] >= 1
    ensures UnpackPacketAsWritten(Packet1, raw) == Err(AssertionError)
  {
    Packet1Shape();
    var q := Packet(Packet1.cls, Packet1.bigEndian, [Prim("size1", 'B', IntV(0), IntV(raw[0])), Packet1.fields[1]]);
    Packet1ListAsWrittenFails(raw, q);
    ListFailsAsWritten(Packet1, "size1", "data1", raw, q, raw[0], AssertionError);
  }

  /** The outer list, measured at one byte per group and given the slice
      after the count, fails either on the slice length or on its first
      group. */
  lemma Packet1ListAsWrittenFails(raw: seq<Byte>, q: Packet)
    requires |raw| >= 2 && raw[0] >= 1 && raw[1] >= 1
    requires q == Packet(Packet1.cls, Packet1.bigEndian, [Prim("size1", 'B', IntV(0), IntV(raw[0])), Packet1.fields[1]])
    ensures SizeAsWritten(Owner(q), Packet1.fields[1]) == Ok(raw[0] as nat)
    ensures UnpackAsWritten(Owner(q), Packet1.fields[1], Slice(raw, 1, 1 + raw[0] as nat), Packet1.bigEndian) == Err(AssertionError)
  {
    Packet1Shape();
    Sub1SizeAsWritten();
    var c: nat := raw[0];
    var l := Packet1.fields[1];
    CountRef(q, "size1", c);
    assert SizeAsWritten(Owner(q), l.proto) == Ok(1);
    EmptyCountedSizeAsWritten(Owner(q), l, c, 1);
    var slice := Slice(raw, 1, 1 + c);
    if |slice| == c {
      assert slice[0] == raw[1];
      GroupsAsWrittenFail(Owner(q), l, c, slice);
    } else {
      ListSliceAsWritten(Owner(q), l, c, 1, slice, false);
    }
  }

  /** The nested lists of the regression test: the source fails on the
      buffer the corrected model decodes. */
  lemma RegressionAsWrittenFails()
    ensures GroupsFit(Groups)
    ensures UnpackPacketAsWritten(Packet1, U8(|Groups|) + GroupsBytes(Groups)) == Err(AssertionError)
  {
    GroupsFitConcrete();
    GroupsFitTail(Groups);
    var raw := U8(|Groups|) + GroupsBytes(Groups);
    assert raw[0] == 3 && raw[1] == 3;
    Packet1AsWrittenFails(raw);
  }

  // ---- clear() leaves a decoded sub-packet as it is ----

  /** As written, and without write-through, `clear()` leaves every
      sub-packet field from `from` on that still shares its default
      object exactly as it was. */
  lemma {:induction false} ClearKeepsSubPackets(p: Packet, shared: set<nat>, from: nat, k: nat)
    requires from <= k < |p.fields| && p.fields[k].Sub? && k in shared && NoWriteThrough(p)
    requires ClearFromAsWritten(p, shared, from).Ok?
    ensures ClearFromAsWritten(p, shared, from).value.fields[k] == p.fields[k]
    decreases |p.fields| - from
  {
    var q := ClearOneAsWritten(p, shared, from).value;
    if !(p.fields[from].Sub? && from in shared) {
      ClearOneFrame(p, from);
    }
    assert q.fields[k] == p.fields[k] && NoWriteThrough(q);
    if from + 1 <= k {
      ClearKeepsSubPackets(q, shared, from + 1, k);
    } else {
      ClearLeavesEarlierAsWritten(q, shared, from + 1, k);
    }
  }

  /** As written, and without write-through, `clear()` gives a sub-packet
      field that was assigned a packet its default object's content back:
      the template's after construction (`ClearAfterAssignment`), the
      decoded one after `from_raw` (`ClearRestoresDecoded`). */
  lemma {:induction false} ClearReplacesAssigned(p: Packet, shared: set<nat>, from: nat, k: nat)
    requires from <= k < |p.fields| && p.fields[k].Sub? && k !in shared && NoWriteThrough(p)
    requires ClearFromAsWritten(p, shared, from).Ok?
    ensures View(ClearFromAsWritten(p, shared, from).value.fields[k]) == p.fields[k].default
    decreases |p.fields| - from
  {
    var q := ClearOneAsWritten(p, shared, from).value;
    if !(p.fields[from].Sub? && from in shared) {
      ClearOneFrame(p, from);
    }
    assert NoWriteThrough(q) && SameLayout(q, p);
    if from + 1 <= k {
      assert q.fields[k] == p.fields[k];
      ClearReplacesAssigned(q, shared, from + 1, k);
    } else {
      assert View(q.fields[k]) == p.fields[k].default;
      assert q.fields[k].Sub? && q.fields[k].default == p.fields[k].default;
      ClearLeavesEarlierAsWritten(q, shared, from + 1, k);
    }
  }

  /** Resetting later fields as written leaves an earlier one alone when
      no length is written through. */
  lemma {:induction false} ClearLeavesEarlierAsWritten(p: Packet, shared: set<nat>, from: nat, k: nat)
    requires k < from <= |p.fields| && NoWriteThrough(p)
    requires ClearFromAsWritten(p, shared, from).Ok?
    ensures ClearFromAsWritten(p, shared, from).value.fields[k] == p.fields[k]
    decreases |p.fields| - from
  {
    if from < |p.fields| {
      var q := ClearOneAsWritten(p, shared, from).value;
      if !(p.fields[from].Sub? && from in shared) {
        ClearOneFrame(p, from);
      }
      assert q.fields[k] == p.fields[k] && NoWriteThrough(q);
      ClearLeavesEarlierAsWritten(q, shared, from + 1, k);
    }
  }

  /** A nested packet whose single count is `c`. */
  function Inner(c: Byte): Packet
  {
    Packet("Inner", true, [Prim("n", 'B', IntV(0), IntV(c))])
  }

  /** An outer packet whose sub-packet field has count 0 in its template
      and `c` after decoding. */
  function Decoded(c: Byte): Packet
  {
    Packet("Outer", true, [Sub("sub", PacketV(Inner(0)), PacketV(Inner(c)))])
  }

  /** That packet as the source's `from_raw` leaves it after decoding
      `c`: the sub-packet's default object holds `c` too. */
  function FromRawOuter(c: Byte): Packet
  {
    Packet("Outer", true, [Sub("sub", PacketV(Inner(c)), PacketV(Inner(c)))])
  }

  /** As written, the nested packet measures one byte. */
  lemma InnerSizeAsWritten()
    ensures SizeAsWritten(Owner(Inner(0)), Inner(0).fields[0]) == Ok(1)
    ensures PacketSizeAsWritten(Inner(0)) == Ok(1)
  {
    assert FieldsSizeAsWritten(Inner(0), 1) == Ok(0);
  }

  /** As written, the nested packet's single byte decodes to its count. */
  lemma InnerUnpacksAsWritten(c: Byte)
    ensures PacketSizeAsWritten(Inner(0)) == Ok(1)
    ensures UnpackPacketAsWritten(Inner(0), [c]) == Ok(Inner(c))
  {
    var p := Inner(0);
    var g := Prim("n", 'B', IntV(0), IntV(c));
    InnerSizeAsWritten();
    InnerFieldAsWritten(c);
    assert [] + [g] == [g];
    assert UnpackFieldsAsWritten(p, [g], [c], 1) == Ok(Inner(c));
  }

  /** The first step of that unpack: one byte, decoded as the count. */
  lemma InnerFieldAsWritten(c: Byte)
    requires SizeAsWritten(Owner(Inner(0)), Inner(0).fields[0]) == Ok(1)
    ensures FieldAsWritten(Inner(0), [], [c], 0) == Ok((Prim("n", 'B', IntV(0), IntV(c)), 1))
  {
    var p := Inner(0);
    var g := Prim("n", 'B', IntV(0), IntV(c));
    assert Slice([c], 0, 1) == [c];
    ByteUnpacks(c, true);
    assert UnpackAsWritten(Owner(p), p.fields[0], Slice([c], 0, 1), true) == Ok(g);
    assert [] + p.fields[0..] == p.fields;
    FieldAsWrittenIs(p, [], [c], 0, p, p.fields[0], 1, Ok(g));
  }

  /** As written, `Outer.from_raw(bytes([c]))` decodes `c` into the
      sub-packet and into its default object. */
  lemma OuterFromRawAsWritten(c: Byte)
    ensures UnpackPacketAsWritten(Decoded(0), [c]) == Ok(Decoded(c))
    ensures FromRawAsWritten(Decoded(0), [c]) == Ok(FromRawOuter(c))
  {
    var p := Decoded(0);
    InnerUnpacksAsWritten(c);
    var g := Sub("sub", PacketV(Inner(0)), PacketV(Inner(c)));
    assert SizeAsWritten(Owner(p), p.fields[0]) == Ok(1);
    assert Slice([c], 0, 1) == [c];
    assert UnpackAsWritten(Owner(p), p.fields[0], Slice([c], 0, 1), true) == Ok(g);
    assert [] + p.fields[0..] == p.fields;
    FieldAsWrittenIs(p, [], [c], 0, p, p.fields[0], 1, Ok(g));
    assert [] + [g] == [g];
    assert UnpackFieldsAsWritten(p, [g], [c], 1) == Ok(Decoded(c));
    assert ShareDefaults(Decoded(c)) == FromRawOuter(c);
  }

  /** After `from_raw` decoded a count of 5 into the sub-packet, the
      source's `clear()` keeps the 5, where the intended one restores the
      template's 0. */
  lemma ClearKeepsDecoded()
    ensures FromRawAsWritten(Decoded(0), [5]) == Ok(FromRawOuter(5))
    ensures ClearAsWritten(FromRawOuter(5), {0}) == Ok(FromRawOuter(5))
    ensures FromRaw(Decoded(0), [5], false) == Ok(Decoded(5))
    ensures Clear(Decoded(5)).Ok? && View(Clear(Decoded(5)).value.fields[0]) == PacketV(Inner(0))
  {
    OuterFromRawAsWritten(5);
    var p := FromRawOuter(5);
    assert PackPrim('B', IntV(5), true).Ok?;
    assert PackPacket(Inner(5)).Ok?;
    assert ClearOneAsWritten(p, {0}, 0) == Ok(p);
    assert ClearFromAsWritten(p, {0}, 1) == Ok(p);
    OuterFromRaw(5);
    ClearDecodedIntended(5);
  }

  /** The intended `from_raw` decodes `c` into the sub-packet and leaves
      its template alone. */
  lemma OuterFromRaw(c: Byte)
    ensures FromRaw(Decoded(0), [c], false) == Ok(Decoded(c))
  {
    InnerParses(c);
    var h := Sub("sub", PacketV(Inner(0)), PacketV(Inner(c)));
    assert [] + Decoded(0).fields[0..] == Decoded(0).fields;
    assert ParseField(Decoded(0), [], [c]) == Ok((h, 1));
    assert [] + [h] == [h];
    assert [h] + Decoded(0).fields[1..] == [h];
    assert ParseFields(Decoded(0), 1, [h], [], false) == Ok((Decoded(c), 0));
    ParseFieldsStep(Decoded(0), 0, [], [c], h, 1, [h], Decoded(c), 0);
  }

  /** The intended unpack of the nested packet's single byte. */
  lemma InnerParses(c: Byte)
    ensures ParsePacket(Inner(0), [c], false) == Ok((Inner(c), 1))
  {
    var g := Prim("n", 'B', IntV(0), IntV(c));
    InnerParseField(c);
    assert [c][1..] == [];
    assert [] + [g] == [g];
    assert [g] + Inner(0).fields[1..] == [g];
    assert ParseFields(Inner(0), 1, [g], [], false) == Ok((Inner(c), 0));
    ParseFieldsStep(Inner(0), 0, [], [c], g, 1, [g], Inner(c), 0);
  }

  /** Its single field decodes from the one byte. */
  lemma InnerParseField(c: Byte)
    ensures ParseField(Inner(0), [], [c]) == Ok((Prim("n", 'B', IntV(0), IntV(c)), 1))
  {
    ByteUnpacks(c, true);
    assert [c][..1] == [c];
    assert [] + Inner(0).fields[0..] == Inner(0).fields;
  }

  /** The intended `clear()` gives the sub-packet its template's 0 back. */
  lemma ClearDecodedIntended(c: Byte)
    ensures Clear(Decoded(c)).Ok? && View(Clear(Decoded(c)).value.fields[0]) == PacketV(Inner(0))
  {
    var p := Decoded(c);
    assert NoWriteThrough(p);
    assert PackPrim('B', IntV(0), true).Ok?;
    assert PackPacket(Inner(0)).Ok?;
    var g := Sub("sub", PacketV(Inner(0)), PacketV(Inner(0)));
    var q := Packet("Outer", true, [g]);
    assert Normalize(p.fields[0], PacketV(Inner(0))) == Ok(g);
    assert q == Packet(p.cls, p.bigEndian, p.fields[0 := g]);
    assert SetAt(p, 0, PacketV(Inner(0))) == Ok(q);
    assert ClearFrom(q, 1) == Ok(q);
    assert Clear(p) == Ok(q);
  }

  /** As written, and without write-through: after `from_raw`, assigning
      a packet to a sub-packet field and calling `clear()` gives that
      field the content `from_raw` decoded into it, since `unpack` changed
      its default object in place. */
  lemma ClearRestoresDecoded(blank: Packet, raw: seq<Byte>, d: Packet, k: nat, v: Value, e: Packet, shared: set<nat>)
    requires NoWriteThrough(blank) && FromRawAsWritten(blank, raw) == Ok(d)
    requires k < |blank.fields| && blank.fields[k].Sub? && k !in shared
    requires SetAtAsWritten(d, k, v) == (e, Ok(())) && ClearAsWritten(e, shared).Ok?
    ensures View(ClearAsWritten(e, shared).value.fields[k]) == View(UnpackPacketAsWritten(blank, raw).value.fields[k])
  {
    assert NoWriteThrough(d) by {
      forall j | 0 <= j < |d.fields|
        ensures !WritesThrough(d.fields[j])
      {
        if !blank.fields[j].Sub? {
          assert Shape(d.fields[j]) == Shape(blank.fields[j]);
        }
      }
    }
    assert SameLayout(e, d) && Shape(e.fields[k]) == Shape(d.fields[k]);
    assert NoWriteThrough(e) by {
      forall j | 0 <= j < |e.fields|
        ensures !WritesThrough(e.fields[j])
      {
        assert Shape(e.fields[j]) == Shape(d.fields[j]);
      }
    }
    ClearReplacesAssigned(e, shared, 0, k);
  }

  /** `p = Outer.from_raw(b'\x05'); p['sub'] = Inner(n=7); p.clear()`:
      as written, the sub-packet ends with the decoded 5, neither the 7
      assigned nor the template's 0. */
  lemma ClearAfterFromRawAssignment()
    ensures FromRawAsWritten(Decoded(0), [5]) == Ok(FromRawOuter(5))
    ensures SetAtAsWritten(FromRawOuter(5), 0, PacketV(Inner(7))) == (Reassigned(5, 7), Ok(()))
    ensures ClearAsWritten(Reassigned(5, 7), {}).Ok?
    ensures View(ClearAsWritten(Reassigned(5, 7), {}).value.fields[0]) == PacketV(Inner(5))
  {
    OuterFromRawAsWritten(5);
    ReassignAsWritten(5, 7);
    ClearReassignedAsWritten(5, 7);
  }

  /** The packet after `from_raw` decoded `c` and `Inner(n=a)` was
      assigned to the sub-packet: the default object still holds `c`. */
  function Reassigned(c: Byte, a: Byte): Packet
  {
    Packet("Outer", true, [Sub("sub", PacketV(Inner(c)), PacketV(Inner(a)))])
  }

  /** Assigning a packet rebinds the value and leaves the default object. */
  lemma ReassignAsWritten(c: Byte, a: Byte)
    ensures SetAtAsWritten(FromRawOuter(c), 0, PacketV(Inner(a))) == (Reassigned(c, a), Ok(()))
  {
    var d := FromRawOuter(c);
    var e := Reassigned(c, a);
    assert PackPrim('B', IntV(a), true).Ok?;
    assert PackPacket(Inner(a)).Ok?;
    assert Normalize(d.fields[0], PacketV(Inner(a))) == Ok(e.fields[0]);
    assert e == Packet(d.cls, d.bigEndian, d.fields[0 := e.fields[0]]);
  }

  /** `clear()` resets the assigned sub-packet to its default object. */
  lemma ClearReassignedAsWritten(c: Byte, a: Byte)
    ensures ClearAsWritten(Reassigned(c, a), {}) == Ok(FromRawOuter(c))
  {
    var e := Reassigned(c, a);
    var q := FromRawOuter(c);
    assert PackPrim('B', IntV(c), true).Ok?;
    assert PackPacket(Inner(c)).Ok?;
    assert Normalize(e.fields[0], PacketV(Inner(c))) == Ok(q.fields[0]);
    assert q == Packet(e.cls, e.bigEndian, e.fields[0 := q.fields[0]]);
    assert SetAt(e, 0, PacketV(Inner(c))) == Ok(q);
    assert ClearOneAsWritten(e, {}, 0) == Ok(q);
    assert ClearFromAsWritten(q, {}, 1) == Ok(q);
  }

  /** `p = Outer(); p['sub'] = Inner(n=7); p.clear()`: the assignment
      ends the sharing, so the source's `clear()` gives the sub-packet its
      template's 0 back, as the intended one does. */
  lemma ClearAfterAssignment()
    ensures SetAtAsWritten(Decoded(0), 0, PacketV(Inner(7))) == (Decoded(7), Ok(()))
    ensures ClearAsWritten(Decoded(7), {}).Ok?
    ensures View(ClearAsWritten(Decoded(7), {}).value.fields[0]) == PacketV(Inner(0))
  {
    var p := Decoded(7);
    assert NoWriteThrough(p);
    assert PackPrim('B', IntV(7), true).Ok? && PackPrim('B', IntV(0), true).Ok?;
    assert PackPacket(Inner(7)).Ok? && PackPacket(Inner(0)).Ok?;
    var g := Sub("sub", PacketV(Inner(0)), PacketV(Inner(0)));
    var q := Packet("Outer", true, [g]);
    assert Normalize(p.fields[0], PacketV(Inner(0))) == Ok(g);
    assert q == Packet(p.cls, p.bigEndian, p.fields[0 := g]);
    assert SetAt(p, 0, PacketV(Inner(0))) == Ok(q);
    assert ClearOneAsWritten(p, {}, 0) == Ok(q);
    assert ClearFromAsWritten(q, {}, 1) == Ok(q);
    var f0 := Decoded(0).fields[0];
    assert Normalize(f0, PacketV(Inner(7))) == Ok(p.fields[0]);
    assert p == Packet(Decoded(0).cls, Decoded(0).bigEndian, Decoded(0).fields[0 := p.fields[0]]);
  }
}

=== FILE: intcodec.dfy ===
/** Fixed-width integers as bytes, the part of Python's `struct` that
    `Field.pack` and `Field.unpack` rely on (packeteer/fields.py:50-62):
    unsigned values in base 256, signed values in two's complement, and
    either byte order. */
module IntCodec {
  import opened Base

  /** Least significant byte first. */
  function EncodeLE(v: nat, width: nat): (r: seq<Byte>)
    requires v < Pow256(width)
    ensures |r| == width
  {
    if width == 0 then [] else [v % 256] + EncodeLE(v / 256, width - 1)
  }

  function DecodeLE(b: seq<Byte>): (v: nat)
    ensures v < Pow256(|b|)
  {
    if |b| == 0 then 0 else b[0] + 256 * DecodeLE(b[1..])
  }

  function Reverse(b: seq<Byte>): (r: seq<Byte>)
    ensures |r| == |b|
    ensures forall i :: 0 <= i < |b| ==> r[i] == b[|b| - 1 - i]
  {
    if |b| == 0 then [] else Reverse(b[1..]) + [b[0]]
  }

  lemma {:induction false} ReverseReverse(b: seq<Byte>)
    ensures Reverse(Reverse(b)) == b
  {
    var r := Reverse(Reverse(b));
    assert |r| == |b|;
    forall i | 0 <= i < |b|
      ensures r[i] == b[i]
    {
      assert r[i] == Reverse(b)[|b| - 1 - i];
    }
  }

  /** Unsigned encoding in the requested byte order. */
  function EncodeUnsigned(v: nat, width: nat, bigEndian: bool): (r: seq<Byte>)
    requires v < Pow256(width)
    ensures |r| == width
  {
    if bigEndian then Reverse(EncodeLE(v, width)) else EncodeLE(v, width)
  }

  function DecodeUnsigned(b: seq<Byte>, bigEndian: bool): (v: nat)
    ensures v < Pow256(|b|)
  {
    if bigEndian then DecodeLE(Reverse(b)) else DecodeLE(b)
  }

  /** The range `struct` accepts for a signed or unsigned integer of `width` bytes. */
  predicate InRange(v: int, width: nat, signed: bool)
  {
    if signed then -(Pow256(width) / 2) <= v < Pow256(width) / 2
    else 0 <= v < Pow256(width)
  }

  /** Two's complement: the unsigned pattern that stands for `v`. */
  function ToUnsigned(v: int, width: nat, signed: bool): (u: nat)
    requires InRange(v, width, signed)
    ensures u < Pow256(width)
  {
    if v < 0 then v + Pow256(width) else v
  }

  function FromUnsigned(u: nat, width: nat, signed: bool): (v: int)
    requires width > 0 && u < Pow256(width)
    ensures InRange(v, width, signed)
  {
    PowHalf(width);
    if signed && u >= Pow256(width) / 2 then u - Pow256(width) else u
  }

  function EncodeInt(v: int, width: nat, signed: bool, bigEndian: bool): (r: seq<Byte>)
    requires InRange(v, width, signed)
    ensures |r| == width
  {
    EncodeUnsigned(ToUnsigned(v, width, signed), width, bigEndian)
  }

  function DecodeInt(b: seq<Byte>, signed: bool, bigEndian: bool): (v: int)
    requires |b| > 0
    ensures InRange(v, |b|, signed)
  {
    FromUnsigned(DecodeUnsigned(b, bigEndian), |b|, signed)
  }

  lemma {:induction false} DecodeEncodeLE(v: nat, width: nat)
    requires v < Pow256(width)
    ensures DecodeLE(EncodeLE(v, width)) == v
  {
    if width > 0 {
      var rest := EncodeLE(v / 256, width - 1);
      assert EncodeLE(v, width)[1..] == rest;
      DecodeEncodeLE(v / 256, width - 1);
    }
  }

  lemma {:induction false} EncodeDecodeLE(b: seq<Byte>)
    ensures EncodeLE(DecodeLE(b), |b|) == b
  {
    if |b| > 0 {
      var v := DecodeLE(b);
      assert v % 256 == b[0] && v / 256 == DecodeLE(b[1..]);
      EncodeDecodeLE(b[1..]);
      assert EncodeLE(v, |b|) == [b[0]] + b[1..];
    }
  }

  lemma PowHalf(width: nat)
    requires width > 0
    ensures Pow256(width) == 2 * (Pow256(width) / 2)
  {
    assert Pow256(width) == 256 * Pow256(width - 1);
  }

  /** `struct.unpack` inverts `struct.pack` for every in-range integer, in both byte orders. */
  lemma DecodeEncodeInt(v: int, width: nat, signed: bool, bigEndian: bool)
    requires width > 0 && InRange(v, width, signed)
    ensures DecodeInt(EncodeInt(v, width, signed, bigEndian), signed, bigEndian) == v
  {
    var u := ToUnsigned(v, width, signed);
    DecodeEncodeLE(u, width);
    if bigEndian {
      ReverseReverse(EncodeLE(u, width));
    }
    assert DecodeUnsigned(EncodeUnsigned(u, width, bigEndian), bigEndian) == u;
    PowHalf(width);
  }

  /** Conversely every byte pattern is the encoding of the integer it decodes to. */
  lemma EncodeDecodeInt(b: seq<Byte>, signed: bool, bigEndian: bool)
    requires |b| > 0
    ensures EncodeInt(DecodeInt(b, signed, bigEndian), |b|, signed, bigEndian) == b
  {
    var u := DecodeUnsigned(b, bigEndian);
    PowHalf(|b|);
    assert ToUnsigned(FromUnsigned(u, |b|, signed), |b|, signed) == u;
    if bigEndian {
      EncodeDecodeLE(Reverse(b));
      ReverseReverse(b);
    } else {
      EncodeDecodeLE(b);
    }
  }
}

=== FILE: packing.dfy ===
/** Packing: the per-kind `pack` methods (packeteer/fields.py:50-55,
    174-176, 191-195, 217-220, 240-244, 327-333) and `BasePacket.pack`
    (packeteer/packets.py:117-122). */
module Packing {
  import opened Base
  import opened Types
  import opened Primitive
  import opened Sizing

  /** `field.pack(big_endian)`, evaluated in the environment `env`.
      A list packs its stored elements in order; a sub-packet packs
      itself in its own byte order. */
  function Pack(env: Env, f: Field, bigEndian: bool): (r: Result<seq<Byte>>)
    ensures r.Ok? && (f.Prim? || f.Raw? || f.Str?) ==> Size(env, f).Ok? && |r.value| == Size(env, f).value
    ensures f.Pad? ==> (r.Ok? <==> f.fill.BytesV?) && (r.Ok? ==> r.value == f.fill.bytes)
    ensures f.Sub? && f.value.PacketV? ==> r == PackPacket(f.value.packet)
    ensures f.List? ==> (r.Ok? <==> forall k :: 0 <= k < |f.elems| ==> Pack(env, f.elems[k], bigEndian).Ok?)
    decreases f, 1
  {
    match f
    case Prim(_, code, _, v) => PackPrim(code, v, bigEndian)
    case Pad(fill) => if fill.BytesV? then Ok(fill.bytes) else Err(TypeError)
    case Raw(_, _, _, v) =>
      var n :- Size(env, f);
      if v.BytesV? then Ok(Resize(v.bytes, n)) else Err(StructError)
    case Str(_, _, _, v) =>
      var n :- Size(env, f);
      if v.TextV? then Ok(Resize(v.text, n)) else Err(TypeError)
    case Sub(_, _, v) =>
      if v.NoneV? then Ok([])
      else if v.PacketV? then PackPacket(v.packet)
      else Err(AttributeError)
    case List(_, _, _, _, _) => PackElements(env, f, 0, bigEndian)
  }

  /** The concatenated packs of a list's stored elements from `from` on. */
  function PackElements(env: Env, f: Field, from: nat, bigEndian: bool): (r: Result<seq<Byte>>)
    requires f.List? && from <= |f.elems|
    ensures r.Ok? <==> forall k :: from <= k < |f.elems| ==> Pack(env, f.elems[k], bigEndian).Ok?
    decreases f, 0, |f.elems| - from
  {
    if from == |f.elems| then Ok([])
    else
      var head :- PackElement(env, f, from, bigEndian);
      var rest :- PackElements(env, f, from + 1, bigEndian);
      Ok(head + rest)
  }

  /** Stored element `k` of a list, packed. */
  function PackElement(env: Env, f: Field, k: nat, bigEndian: bool): Result<seq<Byte>>
    requires f.List? && k < |f.elems|
    decreases f, 0, 0
  {
    Pack(env, f.elems[k], bigEndian)
  }

  /** `BasePacket.pack`: every field, padding included, in schema order,
      under the packet's byte order and with the packet as owner. */
  function PackPacket(p: Packet): (r: Result<seq<Byte>>)
    ensures r.Ok? <==> forall k :: 0 <= k < |p.fields| ==> Pack(Owner(p), p.fields[k], p.bigEndian).Ok?
    ensures |p.fields| == 0 ==> r == Ok([])
    decreases p, 1
  {
    PackFields(p, 0)
  }

  function PackFields(p: Packet, from: nat): (r: Result<seq<Byte>>)
    requires from <= |p.fields|
    ensures r.Ok? <==> forall k :: from <= k < |p.fields| ==> Pack(Owner(p), p.fields[k], p.bigEndian).Ok?
    decreases p, 0, |p.fields| - from
  {
    if from == |p.fields| then Ok([])
    else
      var head :- PackField(p, from);
      var rest :- PackFields(p, from + 1);
      Ok(head + rest)
  }

  /** Field `i` of a packet, packed under the packet's byte order. */
  function PackField(p: Packet, i: nat): Result<seq<Byte>>
    requires i < |p.fields|
    decreases p, 0, 0
  {
    Pack(Owner(p), p.fields[i], p.bigEndian)
  }

  /** A field whose stored content agrees with its resolved size: every
      list holds as many elements as its count says, padding is one byte
      wide, and nested packets are in sync themselves. This is a
      condition on the packet, not something every operation keeps:
      assigning a new count to the length field of a list leaves the
      list as long as it was, and that list is then out of sync. */
  predicate Synced(env: Env, f: Field)
    decreases f, 1
  {
    match f
    case Pad(fill) => fill.BytesV? && |fill.bytes| == 1
    case Sub(_, _, v) => v.PacketV? ==> PacketSynced(v.packet)
    case List(_, spec, _, _, elems) =>
      && Resolve(env, spec, Ok(|elems|)) == Ok(|elems|)
      && forall k :: 0 <= k < |elems| ==> Synced(env, elems[k])
    case _ => true
  }

  predicate PacketSynced(p: Packet)
    decreases p, 0
  {
    forall k :: 0 <= k < |p.fields| ==> Synced(Owner(p), p.fields[k])
  }

  /** A field in sync packs to exactly `size()` bytes. */
  lemma {:induction false} SizeIsPackLength(env: Env, f: Field, bigEndian: bool)
    requires Synced(env, f)
    requires Size(env, f).Ok? && Pack(env, f, bigEndian).Ok?
    ensures |Pack(env, f, bigEndian).value| == Size(env, f).value
    decreases f, 1
  {
    match f
    case Prim(_, _, _, _) =>
    case Pad(_) =>
    case Raw(_, _, _, _) =>
    case Str(_, _, _, _) =>
    case Sub(_, _, v) =>
      PacketSizeIsPackLength(v.packet);
    case List(_, spec, _, _, elems) =>
      ElementsSizeIsPackLength(env, f, 0, bigEndian);
  }

  lemma {:induction false} ElementsSizeIsPackLength(env: Env, f: Field, from: nat, bigEndian: bool)
    requires f.List? && from <= |f.elems|
    requires forall k :: 0 <= k < |f.elems| ==> Synced(env, f.elems[k])
    requires ElementsSize(env, f, from, |f.elems|).Ok? && PackElements(env, f, from, bigEndian).Ok?
    ensures |PackElements(env, f, from, bigEndian).value| == ElementsSize(env, f, from, |f.elems|).value
    decreases f, 0, |f.elems| - from
  {
    if from < |f.elems| {
      SizeIsPackLength(env, f.elems[from], bigEndian);
      ElementsSizeIsPackLength(env, f, from + 1, bigEndian);
    }
  }

  /** `size()` equals `len(pack())` for a packet in sync. */
  lemma {:induction false} PacketSizeIsPackLength(p: Packet)
    requires PacketSynced(p)
    requires PacketSize(p).Ok? && PackPacket(p).Ok?
    ensures |PackPacket(p).value| == PacketSize(p).value
    decreases p, 1
  {
    FieldsSizeIsPackLength(p, 0);
  }

  lemma {:induction false} FieldsSizeIsPackLength(p: Packet, from: nat)
    requires PacketSynced(p) && from <= |p.fields|
    requires FieldsSize(p, from).Ok? && PackFields(p, from).Ok?
    ensures |PackFields(p, from).value| == FieldsSize(p, from).value
    decreases p, 0, |p.fields| - from
  {
    if from < |p.fields| {
      SizeIsPackLength(Owner(p), p.fields[from], p.bigEndian);
      FieldsSizeIsPackLength(p, from + 1);
    }
  }
}

=== FILE: parsing.dfy ===
/** Unpacking: the per-kind `unpack` methods (packeteer/fields.py:57-62,
    178-180, 197-199, 222-225, 246-251, 335-348) and `BasePacket.unpack`
    (packeteer/packets.py:124-134).

    Every field decodes from the remaining buffer and reports how many
    bytes it consumed, and the cursor advances by that amount: a list
    decodes element `k` before it knows where element `k + 1` starts, and
    a packet measures a field only after every earlier field is decoded.
    The source instead slices the buffer by sizes measured before the
    decode, which goes wrong as soon as a size depends on content still
    to be decoded (a list of sub-packets each carrying its own count). */
module Parsing {
  import opened Base
  import opened Types
  import opened Primitive
  import opened Sizing

  /** `field.unpack(...)` on the bytes that remain, `rest`, in the
      environment `env`: the decoded field and the number of bytes it
      consumed. */
  function Parse(env: Env, f: Field, rest: seq<Byte>, bigEndian: bool): (r: Result<(Field, nat)>)
    ensures r.Ok? ==> r.value.1 <= |rest| && Shape(r.value.0) == Shape(f)
    ensures f.Pad? ==> r.Ok? && r.value.0 == f
    ensures f.List? && f.len.Implicit? ==> r == Err(RuntimeError)
    decreases f, 1
  {
    match f
    case Prim(name, code, dflt, _) =>
      var w :- Width(code);
      if |rest| < w then Err(StructError)
      else
        var v :- UnpackPrim(code, rest[..w], bigEndian);
        Ok((Prim(name, code, dflt, v), w))
    case Pad(_) =>
      // padding decodes nothing and never fails; the cursor moves past its byte
      Ok((f, if |rest| >= 1 then 1 else 0))
    case Raw(name, spec, dflt, _) =>
      var n :- Size(env, f);
      if |rest| < n then Err(StructError)
      else Ok((Raw(name, spec, dflt, BytesV(rest[..n])), n))
    case Str(name, spec, dflt, _) =>
      var n :- Size(env, f);
      if |rest| < n then Err(StructError)
      else Ok((Str(name, spec, dflt, TextV(StripZeros(rest[..n]))), n))
    case Sub(name, dflt, v) =>
      if !v.PacketV? then Err(AttributeError)
      else
        var sub :- ParsePacket(v.packet, rest, false);
        Ok((Sub(name, dflt, PacketV(sub.0)), sub.1))
    case List(name, spec, proto, dflt, elems) =>
      if spec.Implicit? then Err(RuntimeError)
      else
        var count :- Resolve(env, spec, Ok(|elems|));
        var body :- ParseElements(env, f, 0, count, rest, bigEndian);
        Ok((List(name, spec, proto, dflt, body.0), body.1))
  }

  /** Decode elements `from` up to `count` of a list one after another,
      each starting where the previous one ended. Element `k` decodes
      over the stored element `k`, or over a fresh prototype copy past
      the stored ones. */
  function ParseElements(env: Env, f: Field, from: nat, count: nat, rest: seq<Byte>, bigEndian: bool)
    : (r: Result<(seq<Field>, nat)>)
    requires f.List? && from <= count
    ensures r.Ok? ==> |r.value.0| == count - from && r.value.1 <= |rest|
    decreases f, 0, count - from
  {
    if from == count then Ok(([], 0))
    else
      var head :- ParseElement(env, f, from, rest, bigEndian);
      var tail :- ParseElements(env, f, from + 1, count, rest[head.1..], bigEndian);
      Ok(([head.0] + tail.0, head.1 + tail.1))
  }

  /** Element `k` of a list, decoded over its template element. */
  function ParseElement(env: Env, f: Field, k: nat, rest: seq<Byte>, bigEndian: bool): (r: Result<(Field, nat)>)
    requires f.List?
    ensures r.Ok? ==> r.value.1 <= |rest| && Shape(r.value.0) == Shape(Element(f, k))
    decreases f, 0, 0
  {
    Parse(env, Element(f, k), rest, bigEndian)
  }

  /** `BasePacket.unpack(raw, partial)`: the decoded packet and the
      number of bytes consumed. Bytes past the last field are ignored.
      With `partial`, decoding stops, leaving the remaining fields as they
      were, at the first field whose size exceeds the bytes left. */
  function ParsePacket(p: Packet, buf: seq<Byte>, partial: bool): (r: Result<(Packet, nat)>)
    ensures r.Ok? ==> r.value.1 <= |buf|
    ensures r.Ok? ==> r.value.0.cls == p.cls && r.value.0.bigEndian == p.bigEndian && |r.value.0.fields| == |p.fields|
    ensures |p.fields| == 0 ==> r == Ok((p, 0))
    decreases p, 1
  {
    ParseFields(p, 0, [], buf, partial)
  }

  /** The packet while field `|decoded|` is being decoded: the fields
      before it hold their decoded content, the later ones their old one. */
  function Midway(p: Packet, decoded: seq<Field>): (s: Packet)
    requires |decoded| <= |p.fields|
    ensures s.cls == p.cls && s.bigEndian == p.bigEndian && |s.fields| == |p.fields|
  {
    Packet(p.cls, p.bigEndian, decoded + p.fields[|decoded|..])
  }

  /** Field `|decoded|` of `p`, decoded while the fields before it hold
      `decoded`. */
  function ParseField(p: Packet, decoded: seq<Field>, rest: seq<Byte>): (r: Result<(Field, nat)>)
    requires |decoded| < |p.fields|
    ensures r.Ok? ==> r.value.1 <= |rest| && Shape(r.value.0) == Shape(p.fields[|decoded|])
    decreases p, 0, 0
  {
    Parse(Owner(Midway(p, decoded)), p.fields[|decoded|], rest, p.bigEndian)
  }

  /** The field loop from field `i` on, `decoded` holding the fields
      before it, on the bytes `rest` that remain: the packet and the
      number of bytes consumed from `rest`. */
  function ParseFields(p: Packet, i: nat, decoded: seq<Field>, rest: seq<Byte>, partial: bool)
    : (r: Result<(Packet, nat)>)
    requires i == |decoded| <= |p.fields|
    ensures r.Ok? ==> r.value.1 <= |rest|
    ensures r.Ok? ==> r.value.0.cls == p.cls && r.value.0.bigEndian == p.bigEndian && |r.value.0.fields| == |p.fields|
    decreases p, 0, |p.fields| - i
  {
    var s := Midway(p, decoded);
    if i == |p.fields| then Ok((s, 0))
    else
      var f := p.fields[i];
      var fits :- if partial then Fits(s, f, |rest|) else Ok(true);
      if !fits then Ok((s, 0))
      else
        var head :- ParseField(p, decoded, rest);
        var tail :- ParseFields(p, i + 1, decoded + [head.0], rest[head.1..], partial);
        Ok((tail.0, head.1 + tail.1))
  }

  /** One unfolding of the field loop, when not partial: field `i`
      decodes, and the loop goes on after it. */
  lemma ParseFieldsStep(p: Packet, i: nat, decoded: seq<Field>, buf: seq<Byte>, g: Field, k: nat,
                        next: seq<Field>, q: Packet, m: nat)
    requires i == |decoded| < |p.fields| && k <= |buf| && next == decoded + [g]
    requires ParseField(p, decoded, buf) == Ok((g, k))
    requires ParseFields(p, i + 1, next, buf[k..], false) == Ok((q, m))
    ensures ParseFields(p, i, decoded, buf, false) == Ok((q, k + m))
  {
  }

  /** Whether `left` bytes cover the field's size as measured now. */
  function Fits(s: Packet, f: Field, left: nat): Result<bool>
  {
    var need :- Size(Owner(s), f);
    Ok(left >= need)
  }

  /** `BasePacket.from_raw`: a fresh instance of the class, with
      `default` its freshly constructed state, unpacked from `buf`. */
  function FromRaw(default: Packet, buf: seq<Byte>, partial: bool): (r: Result<Packet>)
    ensures r.Ok? ==> SameLayout(r.value, default)
  {
    var parsed :- ParsePacket(default, buf, partial);
    ParseFieldsLayout(default, 0, [], buf, partial);
    Ok(parsed.0)
  }

  /** Unpacking keeps the packet's layout: every field keeps its kind,
      name, length mode and default, and only content changes. */
  lemma {:induction false} ParseFieldsLayout(p: Packet, i: nat, decoded: seq<Field>, rest: seq<Byte>, partial: bool)
    requires i == |decoded| <= |p.fields|
    requires forall k :: 0 <= k < i ==> Shape(decoded[k]) == Shape(p.fields[k])
    ensures ParseFields(p, i, decoded, rest, partial).Ok? ==>
      SameLayout(ParseFields(p, i, decoded, rest, partial).value.0, p)
    decreases |p.fields| - i
  {
    var s := Midway(p, decoded);
    if i == |p.fields| {
      assert s.fields == decoded;
    } else if ParseFields(p, i, decoded, rest, partial).Ok? {
      var f := p.fields[i];
      var fits := if partial then Fits(s, f, |rest|) else Ok(true);
      if fits.value {
        var head := ParseField(p, decoded, rest).value;
        var next := decoded + [head.0];
        assert forall k :: 0 <= k < i + 1 ==> Shape(next[k]) == Shape(p.fields[k]);
        ParseFieldsLayout(p, i + 1, next, rest[head.1..], partial);
      } else {
        assert forall k :: 0 <= k < |p.fields| ==> Shape(s.fields[k]) == Shape(p.fields[k]);
      }
    }
  }

  /** Fields `m` on of `q` are still those of `p`. */
  predicate Untouched(q: Packet, p: Packet, m: nat)
  {
    m <= |q.fields| == |p.fields| && q.fields[m..] == p.fields[m..]
  }

  /** The field loop keeps the fields decoded so far, and stops at some
      field `m` — the end, unless `partial` — leaving it and every later
      field as it was. A stop before the end is at a field whose size,
      measured in the packet as it then stands, exceeds the bytes left. */
  lemma {:induction false} ParseFieldsStops(p: Packet, i: nat, decoded: seq<Field>, rest: seq<Byte>, partial: bool)
    returns (m: nat, q: Packet, left: nat)
    requires i == |decoded| <= |p.fields|
    ensures var r := ParseFields(p, i, decoded, rest, partial);
      r.Ok? ==>
        && r.value.0 == q && r.value.1 + left == |rest|
        && |q.fields| == |p.fields| && q.fields[..i] == decoded
        && i <= m <= |p.fields| && Untouched(q, p, m) && (!partial ==> m == |p.fields|)
        && (m < |p.fields| ==> Fits(q, p.fields[m], left) == Ok(false))
    decreases |p.fields| - i
  {
    var s := Midway(p, decoded);
    var r := ParseFields(p, i, decoded, rest, partial);
    m, q, left := i, s, |rest|;
    if i == |p.fields| {
      assert s.fields[..i] == decoded;
      assert Untouched(s, p, i);
    } else if r.Ok? {
      var f := p.fields[i];
      var fits := if partial then Fits(s, f, |rest|) else Ok(true);
      if fits.value {
        var head := ParseField(p, decoded, rest).value;
        var next := decoded + [head.0];
        m, q, left := ParseFieldsStops(p, i + 1, next, rest[head.1..], partial);
        var t := ParseFields(p, i + 1, next, rest[head.1..], partial).value;
        assert r.value == (t.0, head.1 + t.1);
        assert q.fields[..i] == q.fields[..i + 1][..i];
      } else {
        assert r.value == (s, 0);
        assert s.fields[..i] == decoded;
        assert s.fields[i..] == p.fields[i..];
        assert Untouched(s, p, i);
      }
    }
  }
}

=== FILE: primitive.dfy ===
/** The primitive field codec: `Field.pack`, `Field.unpack` and
    `Field.size` for a field with a `struct` type code
    (packeteer/fields.py:14-16, 50-75). */
module Primitive {
  import opened Base
  import opened IntCodec
  import opened Types

  /** The type codes `Field.__init__` admits. */
  const Codes: seq<char> := "xcbB?hHiIqQfds"

  predicate ValidCode(code: char)
  {
    code in Codes
  }

  /** `Field.size`: the width table; any other type code raises. */
  function Width(code: char): (r: Result<nat>)
    ensures r.Ok? <==> ValidCode(code)
    ensures r.Ok? ==> r.value in {1, 2, 4, 8}
    ensures r.Err? ==> r.error == RuntimeError
  {
    if code == 'x' || code == 'c' || code == 'b' || code == 'B' || code == '?' || code == 's' then Ok(1)
    else if code == 'h' || code == 'H' then Ok(2)
    else if code == 'i' || code == 'I' || code == 'f' then Ok(4)
    else if code == 'q' || code == 'Q' || code == 'd' then Ok(8)
    else Err(RuntimeError)
  }

  predicate IsIntCode(code: char)
  {
    code == 'b' || code == 'B' || code == 'h' || code == 'H'
    || code == 'i' || code == 'I' || code == 'q' || code == 'Q'
  }

  /** Lower-case integer codes are signed. */
  predicate IsSigned(code: char)
  {
    code == 'b' || code == 'h' || code == 'i' || code == 'q'
  }

  predicate IsFloatCode(code: char)
  {
    code == 'f' || code == 'd'
  }

  /** The integer `struct` reads from a Python int or bool. */
  predicate IsIntegral(v: Value)
  {
    v.IntV? || v.BoolV?
  }

  function AsInt(v: Value): int
    requires IsIntegral(v)
  {
    if v.IntV? then v.i else if v.b then 1 else 0
  }

  /** `struct.pack(fmt, value)` for a single-code format. */
  function PackPrim(code: char, v: Value, bigEndian: bool): (r: Result<seq<Byte>>)
    ensures r.Ok? ==> Width(code).Ok? && |r.value| == Width(code).value
    ensures r.Err? ==> r.error == StructError
    ensures IsIntCode(code) ==>
      Width(code).Ok? && (r.Ok? <==> IsIntegral(v) && InRange(AsInt(v), Width(code).value, IsSigned(code)))
    ensures IsFloatCode(code) ==> (r.Ok? <==> v.FloatV? && |v.bits| == Width(code).value)
    ensures code == 'c' ==> (r.Ok? <==> v.BytesV? && |v.bytes| == 1)
    ensures code == '?' ==> r.Ok?
    ensures !ValidCode(code) || code == 'x' ==> r.Err?
  {
    if IsIntCode(code) then
      var w := Width(code).value;
      if IsIntegral(v) && InRange(AsInt(v), w, IsSigned(code))
      then Ok(EncodeInt(AsInt(v), w, IsSigned(code), bigEndian))
      else Err(StructError)
    else if IsFloatCode(code) then
      var w := Width(code).value;
      if v.FloatV? && |v.bits| == w
      then Ok(if bigEndian then v.bits else Reverse(v.bits))
      else Err(StructError)
    else if code == 'c' then
      if v.BytesV? && |v.bytes| == 1 then Ok(v.bytes) else Err(StructError)
    else if code == '?' then
      Ok([if Truthy(v) then 1 else 0])
    else if code == 's' then
      if v.BytesV? then Ok(Resize(v.bytes, 1)) else Err(StructError)
    else
      // 'x' takes no argument, and no other code is a valid format
      Err(StructError)
  }

  /** `struct.unpack(fmt, raw)[0]` for a buffer of exactly the code's width. */
  function UnpackPrim(code: char, b: seq<Byte>, bigEndian: bool): (r: Result<Value>)
    requires Width(code).Ok? && |b| == Width(code).value
  {
    if IsIntCode(code) then Ok(IntV(DecodeInt(b, IsSigned(code), bigEndian)))
    else if IsFloatCode(code) then Ok(FloatV(if bigEndian then b else Reverse(b)))
    else if code == 'c' || code == 's' then Ok(BytesV(b))
    else if code == '?' then Ok(BoolV(b[0] != 0))
    else
      // 'x' unpacks to an empty tuple, whose element 0 does not exist
      Err(IndexError)
  }

  /** The values `UnpackPrim` produces: exactly those a primitive field
      reproduces after a pack and unpack. */
  predicate Canonical(code: char, v: Value)
  {
    if IsIntCode(code) then v.IntV? && InRange(v.i, Width(code).value, IsSigned(code))
    else if IsFloatCode(code) then v.FloatV? && |v.bits| == Width(code).value
    else if code == 'c' || code == 's' then v.BytesV? && |v.bytes| == 1
    else code == '?' && v.BoolV?
  }

  /** Packing a canonical value and unpacking the bytes gives the value
      back, in either byte order. */
  lemma UnpackOfPack(code: char, v: Value, bigEndian: bool)
    requires Canonical(code, v)
    ensures PackPrim(code, v, bigEndian).Ok?
    ensures UnpackPrim(code, PackPrim(code, v, bigEndian).value, bigEndian) == Ok(v)
  {
    if IsIntCode(code) {
      DecodeEncodeInt(v.i, Width(code).value, IsSigned(code), bigEndian);
    } else if IsFloatCode(code) && !bigEndian {
      ReverseReverse(v.bits);
    } else if code == 's' {
      assert Resize(v.bytes, 1) == v.bytes;
    }
  }

  /** Conversely every successful unpack yields a canonical value whose
      pack gives back the same bytes — except that a boolean byte other
      than 0 and 1 comes back as 1. */
  lemma UnpackCanonical(code: char, b: seq<Byte>, bigEndian: bool)
    requires Width(code).Ok? && |b| == Width(code).value
    requires UnpackPrim(code, b, bigEndian).Ok?
    ensures Canonical(code, UnpackPrim(code, b, bigEndian).value)
    ensures PackPrim(code, UnpackPrim(code, b, bigEndian).value, bigEndian)
         == Ok(if code == '?' then [if b[0] != 0 then 1 else 0] else b)
  {
    if IsIntCode(code) {
      EncodeDecodeInt(b, IsSigned(code), bigEndian);
    } else if IsFloatCode(code) && !bigEndian {
      ReverseReverse(b);
    } else if code == 's' {
      assert Resize(b, 1) == b;
    }
  }
}

=== FILE: regression.dfy ===
/** The nested-list scenario of tests/regression_test.py: a little-endian
    packet holding a counted list of sub-packets, each holding a counted
    list of sub-sub-packets of two 32-bit entries. Unpacking decodes the
    counts 3, 2 and 1 and every entry at its place; measuring each field
    before decoding it, as the source does, fails on the same bytes. */
module Regression {
  import opened Base
  import opened IntCodec
  import opened Types
  import opened Primitive
  import opened Tables
  import opened Sizing
  import opened Parsing
  import opened RoundTrip
  import opened Container
  import opened AsWritten

  /** `struct.pack('<B', x)` and `struct.pack('<I', x)`. */
  function U8(x: nat): (r: seq<Byte>)
    requires x < 256
    ensures r == [x]
  {
    [x]
  }

  function U32(x: nat): (r: seq<Byte>)
    requires x < 0x1_0000_0000
    ensures |r| == 4
  {
    EncodeInt(x, 4, false, false)
  }

  predicate Entry(x: nat)
  {
    x < 0x1_0000_0000
  }

  // The fresh instances: every field at its default.
  const Sub2: Packet := Packet("Sub2", false, [
    Prim("entry1", 'I', IntV(0), IntV(0)),
    Prim("entry2", 'I', IntV(0), IntV(0))])

  const Sub1: Packet := Packet("Sub1", false, [
    Prim("size2", 'B', IntV(0), IntV(0)),
    List("data2", Ref("size2"), Sub("", PacketV(Sub2), PacketV(Sub2)), NoneV, [])])

  const Packet1: Packet := Packet("Packet1", false, [
    Prim("size1", 'B', IntV(0), IntV(0)),
    List("data1", Ref("size1"), Sub("", PacketV(Sub1), PacketV(Sub1)), NoneV, [])])

  /** The decoded instances. */
  function Sub2Of(e: (nat, nat)): Packet
  {
    Packet("Sub2", false, [Prim("entry1", 'I', IntV(0), IntV(e.0)), Prim("entry2", 'I', IntV(0), IntV(e.1))])
  }

  function Sub2Elements(es: seq<(nat, nat)>): (r: seq<Field>)
    ensures |r| == |es|
    ensures forall k :: 0 <= k < |es| ==> r[k] == Sub("", PacketV(Sub2), PacketV(Sub2Of(es[k])))
  {
    if es == [] then [] else [Sub("", PacketV(Sub2), PacketV(Sub2Of(es[0])))] + Sub2Elements(es[1..])
  }

  function Sub1Of(es: seq<(nat, nat)>): Packet
  {
    Packet("Sub1", false, [
      Prim("size2", 'B', IntV(0), IntV(|es|)),
      List("data2", Ref("size2"), Sub("", PacketV(Sub2), PacketV(Sub2)), NoneV, Sub2Elements(es))])
  }

  function Sub1Elements(gs: seq<seq<(nat, nat)>>): (r: seq<Field>)
    ensures |r| == |gs|
    ensures forall k :: 0 <= k < |gs| ==> r[k] == Sub("", PacketV(Sub1), PacketV(Sub1Of(gs[k])))
  {
    if gs == [] then [] else [Sub("", PacketV(Sub1), PacketV(Sub1Of(gs[0])))] + Sub1Elements(gs[1..])
  }

  function Packet1Of(gs: seq<seq<(nat, nat)>>): Packet
  {
    Packet("Packet1", false, [
      Prim("size1", 'B', IntV(0), IntV(|gs|)),
      List("data1", Ref("size1"), Sub("", PacketV(Sub1), PacketV(Sub1)), NoneV, Sub1Elements(gs))])
  }

  /** The wire form: each count byte followed by its elements. */
  predicate EntriesFit(es: seq<(nat, nat)>)
  {
    forall k :: 0 <= k < |es| ==> Entry(es[k].0) && Entry(es[k].1)
  }

  predicate GroupsFit(gs: seq<seq<(nat, nat)>>)
  {
    |gs| < 256 && forall k :: 0 <= k < |gs| ==> |gs[k]| < 256 && EntriesFit(gs[k])
  }

  function EntriesBytes(es: seq<(nat, nat)>): seq<Byte>
    requires EntriesFit(es)
  {
    if es == [] then [] else U32(es[0].0) + U32(es[0].1) + EntriesBytes(es[1..])
  }

  function GroupsBytes(gs: seq<seq<(nat, nat)>>): seq<Byte>
    requires GroupsFit(gs)
  {
    if gs == [] then [] else U8(|gs[0]|) + EntriesBytes(gs[0]) + GroupsBytes(gs[1..])
  }

  /** A one-byte count decodes to itself. */
  lemma ParseCount(env: Env, name: string, x: nat, rest: seq<Byte>)
    requires x < 256
    ensures Parse(env, Prim(name, 'B', IntV(0), IntV(0)), [x] + rest, false)
         == Ok((Prim(name, 'B', IntV(0), IntV(x)), 1))
  {
    UnpackOfPack('B', IntV(x), false);
    assert EncodeLE(x, 1) == [x];
    assert ([x] + rest)[..1] == [x];
  }

  lemma ParseEntry(env: Env, name: string, x: nat, rest: seq<Byte>)
    requires Entry(x)
    ensures Parse(env, Prim(name, 'I', IntV(0), IntV(0)), U32(x) + rest, false)
         == Ok((Prim(name, 'I', IntV(0), IntV(x)), 4))
  {
    UnpackOfPack('I', IntV(x), false);
    assert (U32(x) + rest)[..4] == U32(x);
  }

  /** With every field decoded, the field loop stops and consumes nothing. */
  lemma FieldsDone(p: Packet, decoded: seq<Field>, rest: seq<Byte>)
    requires |decoded| == |p.fields|
    ensures ParseFields(p, |decoded|, decoded, rest, false) == Ok((Packet(p.cls, p.bigEndian, decoded), 0))
  {
    assert decoded + p.fields[|decoded|..] == decoded;
  }

  lemma EntriesBytesLength(es: seq<(nat, nat)>)
    requires EntriesFit(es)
    ensures |EntriesBytes(es)| == 8 * |es|
  {
    if es != [] {
      assert EntriesFit(es[1..]) by {
        forall k | 0 <= k < |es[1..]| ensures Entry(es[1..][k].0) && Entry(es[1..][k].1) {
          assert es[1..][k] == es[k + 1];
        }
      }
      EntriesBytesLength(es[1..]);
    }
  }

  lemma ParseSub2(e: (nat, nat), rest: seq<Byte>)
    requires Entry(e.0) && Entry(e.1)
    ensures ParsePacket(Sub2, U32(e.0) + U32(e.1) + rest, false) == Ok((Sub2Of(e), 8))
  {
    var f1 := Prim("entry1", 'I', IntV(0), IntV(e.0));
    var f2 := Prim("entry2", 'I', IntV(0), IntV(e.1));
    var buf := U32(e.0) + U32(e.1) + rest;
    var buf2 := U32(e.1) + rest;
    FieldsDone(Sub2, [f1, f2], rest);
    assert Sub2Of(e) == Packet(Sub2.cls, Sub2.bigEndian, [f1, f2]);
    ParseEntry(Owner(Midway(Sub2, [f1])), "entry2", e.1, rest);
    assert buf2[4..] == rest;
    ParseFieldsStep(Sub2, 1, [f1], buf2, f2, 4, [f1, f2], Sub2Of(e), 0);
    ParseEntry(Owner(Midway(Sub2, [])), "entry1", e.0, buf2);
    assert buf == U32(e.0) + buf2 && buf[4..] == buf2;
    ParseFieldsStep(Sub2, 0, [], buf, f1, 4, [f1], Sub2Of(e), 4);
  }

  /** An element past a list's stored ones is a fresh copy of its
      prototype; for a sub-packet prototype it decodes as that packet. */
  lemma SubElement(env: Env, t: Field, from: nat, buf: seq<Byte>, q: Packet, r: Packet, k: nat)
    requires t.List? && |t.elems| <= from && t.proto.Sub? && t.proto.value == PacketV(q)
    requires ParsePacket(q, buf, false) == Ok((r, k))
    ensures ParseElement(env, t, from, buf, false) == Ok((Sub(t.proto.name, t.proto.default, PacketV(r)), k))
  {
  }

  /** A list field decodes its counted elements. */
  lemma ListField(env: Env, t: Field, buf: seq<Byte>, n: nat, body: seq<Field>, k: nat)
    requires t.List? && t.len.Ref? && RefLength(env, t.len.sibling) == Ok(n)
    requires ParseElements(env, t, 0, n, buf, false) == Ok((body, k))
    ensures Parse(env, t, buf, false) == Ok((List(t.name, t.len, t.proto, t.default, body), k))
  {
  }

  /** A packet of a one-byte count followed by a list counted by it:
      the count decodes first, and the list is then read with that
      count. */
  lemma CountedPacket(p: Packet, n: nat, buf: seq<Byte>, body: seq<Field>, k: nat)
    requires |p.fields| == 2 && !p.bigEndian && n < 256
    requires p.fields[0].Prim? && p.fields[0] == Prim(p.fields[0].name, 'B', IntV(0), IntV(0))
    requires p.fields[1].List? && p.fields[1].len == Ref(p.fields[0].name) && p.fields[1].name != p.fields[0].name
    requires var count := Prim(p.fields[0].name, 'B', IntV(0), IntV(n));
      ParseElements(Owner(Packet(p.cls, false, [count, p.fields[1]])), p.fields[1], 0, n, buf, false) == Ok((body, k))
    ensures var count := Prim(p.fields[0].name, 'B', IntV(0), IntV(n));
            var l := p.fields[1];
      ParsePacket(p, [n] + buf, false) == Ok((Packet(p.cls, false, [count, List(l.name, l.len, l.proto, l.default, body)]), 1 + k))
  {
    var name := p.fields[0].name;
    var count := Prim(name, 'B', IntV(0), IntV(n));
    var l := p.fields[1];
    var r := Packet(p.cls, false, [count, List(l.name, l.len, l.proto, l.default, body)]);
    var raw: seq<Byte> := [n] + buf;
    CountedList(p, n, buf, body, k);
    ParseCount(Owner(Midway(p, [])), name, n, buf);
    assert raw[1..] == buf;
    assert ParseField(p, [], raw) == Ok((count, 1));
    ParseFieldsStep(p, 0, [], raw, count, 1, [count], r, k);
  }

  /** With the count decoded, the list is read with that count. */
  lemma CountedList(p: Packet, n: nat, buf: seq<Byte>, body: seq<Field>, k: nat)
    requires |p.fields| == 2 && !p.bigEndian && n < 256
    requires p.fields[0].Prim? && p.fields[0] == Prim(p.fields[0].name, 'B', IntV(0), IntV(0))
    requires p.fields[1].List? && p.fields[1].len == Ref(p.fields[0].name) && p.fields[1].name != p.fields[0].name
    requires var count := Prim(p.fields[0].name, 'B', IntV(0), IntV(n));
      ParseElements(Owner(Packet(p.cls, false, [count, p.fields[1]])), p.fields[1], 0, n, buf, false) == Ok((body, k))
    ensures var count := Prim(p.fields[0].name, 'B', IntV(0), IntV(n));
            var l := p.fields[1];
      ParseFields(p, 1, [count], buf, false) == Ok((Packet(p.cls, false, [count, List(l.name, l.len, l.proto, l.default, body)]), k))
  {
    var name := p.fields[0].name;
    var count := Prim(name, 'B', IntV(0), IntV(n));
    var l := p.fields[1];
    var list := List(l.name, l.len, l.proto, l.default, body);
    var r := Packet(p.cls, false, [count, list]);
    var s := Packet(p.cls, false, [count, l]);
    assert Midway(p, [count]) == s;
    CountRef(s, name, n);
    ListField(Owner(s), l, buf, n, body, k);
    FieldsDone(p, [count, list], buf[k..]);
    ParseFieldsStep(p, 1, [count], buf, list, k, [count, list], r, 0);
  }

  /** A list's count field, read back as its length. */
  lemma CountRef(s: Packet, name: string, n: nat)
    requires |s.fields| == 2 && s.fields[0] == Prim(name, 'B', IntV(0), IntV(n))
    requires !s.fields[1].Pad? && s.fields[1].name != name
    ensures RefLength(Owner(s), name) == Ok(n)
  {
    assert !s.fields[0].Pad? && s.fields[0].name == name;
    assert Position(s, name).Ok?;
    assert Position(s, name) == Ok(0);
  }

  lemma EntriesFitTail(es: seq<(nat, nat)>)
    requires EntriesFit(es) && es != []
    ensures Entry(es[0].0) && Entry(es[0].1) && EntriesFit(es[1..])
    ensures EntriesBytes(es) == U32(es[0].0) + U32(es[0].1) + EntriesBytes(es[1..])
  {
    forall k | 0 <= k < |es[1..]| ensures Entry(es[1..][k].0) && Entry(es[1..][k].1) {
      assert es[1..][k] == es[k + 1];
    }
  }

  /** The remaining entries of one group, from element `from` of
      `count` on, decode as its sub-sub-packets. */
  lemma {:induction false} ParseSub2List(env: Env, t: Field, es: seq<(nat, nat)>, from: nat, count: nat, rest: seq<Byte>)
    requires t.List? && t.elems == [] && t.proto == Sub("", PacketV(Sub2), PacketV(Sub2))
    requires EntriesFit(es) && count == from + |es|
    ensures ParseElements(env, t, from, count, EntriesBytes(es) + rest, false) == Ok((Sub2Elements(es), 8 * |es|))
    decreases |es|
  {
    if es != [] {
      EntriesFitTail(es);
      ParseSub2List(env, t, es[1..], from + 1, count, rest);
      Sub2Step(env, t, es, from, count, rest);
    }
  }

  lemma Sub2Step(env: Env, t: Field, es: seq<(nat, nat)>, from: nat, count: nat, rest: seq<Byte>)
    requires t.List? && t.elems == [] && t.proto == Sub("", PacketV(Sub2), PacketV(Sub2))
    requires es != [] && EntriesFit(es) && Entry(es[0].0) && Entry(es[0].1) && EntriesFit(es[1..]) && count == from + |es|
    requires EntriesBytes(es) == U32(es[0].0) + U32(es[0].1) + EntriesBytes(es[1..])
    requires ParseElements(env, t, from + 1, count, EntriesBytes(es[1..]) + rest, false)
          == Ok((Sub2Elements(es[1..]), 8 * |es[1..]|))
    ensures ParseElements(env, t, from, count, EntriesBytes(es) + rest, false) == Ok((Sub2Elements(es), 8 * |es|))
  {
    var tail := EntriesBytes(es[1..]) + rest;
    Regroup(U32(es[0].0) + U32(es[0].1), EntriesBytes(es[1..]), rest);
    Sub2ElementThen(env, t, from, count, es[0], tail, Sub2Elements(es[1..]), 8 * |es[1..]|);
    Sub2ElementsCons(es);
  }

  /** One entry's sub-sub-packet, then the elements after it. */
  lemma Sub2ElementThen(env: Env, t: Field, from: nat, count: nat, e: (nat, nat), tail: seq<Byte>,
                        later: seq<Field>, m: nat)
    requires t.List? && t.elems == [] && t.proto == Sub("", PacketV(Sub2), PacketV(Sub2))
    requires Entry(e.0) && Entry(e.1) && from < count
    requires ParseElements(env, t, from + 1, count, tail, false) == Ok((later, m))
    ensures ParseElements(env, t, from, count, U32(e.0) + U32(e.1) + tail, false)
         == Ok(([Sub("", PacketV(Sub2), PacketV(Sub2Of(e)))] + later, 8 + m))
  {
    var buf := U32(e.0) + U32(e.1) + tail;
    Sub2Element(env, t, from, e, tail);
    assert buf[8..] == tail;
    ParseElementsStep(env, t, from, count, buf, false, Sub("", PacketV(Sub2), PacketV(Sub2Of(e))), 8, later, m);
  }

  lemma Sub2Element(env: Env, t: Field, from: nat, e: (nat, nat), tail: seq<Byte>)
    requires t.List? && t.elems == [] && t.proto == Sub("", PacketV(Sub2), PacketV(Sub2))
    requires Entry(e.0) && Entry(e.1)
    ensures ParseElement(env, t, from, U32(e.0) + U32(e.1) + tail, false) == Ok((Sub("", PacketV(Sub2), PacketV(Sub2Of(e))), 8))
  {
    ParseSub2(e, tail);
    SubElement(env, t, from, U32(e.0) + U32(e.1) + tail, Sub2, Sub2Of(e), 8);
  }

  /** `(a + b) + c`, regrouped, and what is left of it after `a`. */
  lemma Regroup(a: seq<Byte>, b: seq<Byte>, c: seq<Byte>)
    ensures a + b + c == a + (b + c) && (a + b + c)[|a|..] == b + c
  {
    assert (a + b + c)[|a|..] == b + c;
  }

  lemma Sub2ElementsCons(es: seq<(nat, nat)>)
    requires es != []
    ensures Sub2Elements(es) == [Sub("", PacketV(Sub2), PacketV(Sub2Of(es[0])))] + Sub2Elements(es[1..])
    ensures 8 * |es| == 8 + 8 * |es[1..]|
  {
  }

  lemma ParseSub1(es: seq<(nat, nat)>, rest: seq<Byte>)
    requires |es| < 256 && EntriesFit(es)
    ensures ParsePacket(Sub1, U8(|es|) + EntriesBytes(es) + rest, false) == Ok((Sub1Of(es), 1 + 8 * |es|))
  {
    ParseSub1Counted(es, EntriesBytes(es) + rest, rest);
    assert U8(|es|) + EntriesBytes(es) + rest == [|es|] + (EntriesBytes(es) + rest);
  }

  lemma ParseSub1Counted(es: seq<(nat, nat)>, buf: seq<Byte>, rest: seq<Byte>)
    requires |es| < 256 && EntriesFit(es) && buf == EntriesBytes(es) + rest
    ensures ParsePacket(Sub1, [|es|] + buf, false) == Ok((Sub1Of(es), 1 + 8 * |es|))
  {
    var n := |es|;
    var count := Prim("size2", 'B', IntV(0), IntV(n));
    ParseSub2List(Owner(Packet("Sub1", false, [count, Sub1.fields[1]])), Sub1.fields[1], es, 0, n, rest);
    Sub1Shape();
    CountedPacket(Sub1, n, buf, Sub2Elements(es), 8 * n);
    var l := Sub1.fields[1];
    assert Packet(Sub1.cls, false, [count, List(l.name, l.len, l.proto, l.default, Sub2Elements(es))]) == Sub1Of(es);
  }

  lemma Sub1Shape()
    ensures Sub1.cls == "Sub1" && |Sub1.fields| == 2 && !Sub1.bigEndian
    ensures Sub1.fields[0] == Prim("size2", 'B', IntV(0), IntV(0))
    ensures Sub1.fields[1] == List("data2", Ref("size2"), Sub("", PacketV(Sub2), PacketV(Sub2)), NoneV, [])
    ensures "data2" != "size2"
  {
    assert "data2"[0] != "size2"[0];
  }

  lemma GroupsFitTail(gs: seq<seq<(nat, nat)>>)
    requires GroupsFit(gs) && gs != []
    ensures |gs[0]| < 256 && EntriesFit(gs[0]) && GroupsFit(gs[1..])
    ensures GroupsBytes(gs) == U8(|gs[0]|) + EntriesBytes(gs[0]) + GroupsBytes(gs[1..])
  {
    forall k | 0 <= k < |gs[1..]| ensures |gs[1..][k]| < 256 && EntriesFit(gs[1..][k]) {
      assert gs[1..][k] == gs[k + 1];
    }
  }

  lemma {:induction false} ParseSub1List(env: Env, t: Field, gs: seq<seq<(nat, nat)>>, from: nat, count: nat, rest: seq<Byte>)
    requires t.List? && t.elems == [] && t.proto == Sub("", PacketV(Sub1), PacketV(Sub1))
    requires GroupsFit(gs) && count == from + |gs|
    ensures ParseElements(env, t, from, count, GroupsBytes(gs) + rest, false) == Ok((Sub1Elements(gs), |GroupsBytes(gs)|))
    decreases |gs|
  {
    if gs != [] {
      GroupsFitTail(gs);
      ParseSub1List(env, t, gs[1..], from + 1, count, rest);
      Sub1Step(env, t, gs, from, count, rest);
    }
  }

  lemma Sub1Step(env: Env, t: Field, gs: seq<seq<(nat, nat)>>, from: nat, count: nat, rest: seq<Byte>)
    requires t.List? && t.elems == [] && t.proto == Sub("", PacketV(Sub1), PacketV(Sub1))
    requires gs != [] && GroupsFit(gs) && |gs[0]| < 256 && EntriesFit(gs[0]) && GroupsFit(gs[1..]) && count == from + |gs|
    requires GroupsBytes(gs) == U8(|gs[0]|) + EntriesBytes(gs[0]) + GroupsBytes(gs[1..])
    requires ParseElements(env, t, from + 1, count, GroupsBytes(gs[1..]) + rest, false)
          == Ok((Sub1Elements(gs[1..]), |GroupsBytes(gs[1..])|))
    ensures ParseElements(env, t, from, count, GroupsBytes(gs) + rest, false) == Ok((Sub1Elements(gs), |GroupsBytes(gs)|))
  {
    var es := gs[0];
    var tail := GroupsBytes(gs[1..]) + rest;
    Regroup(U8(|es|) + EntriesBytes(es), GroupsBytes(gs[1..]), rest);
    Sub1ElementThen(env, t, from, count, es, tail, Sub1Elements(gs[1..]), |GroupsBytes(gs[1..])|);
    EntriesBytesLength(es);
    assert Sub1Elements(gs) == [Sub("", PacketV(Sub1), PacketV(Sub1Of(es)))] + Sub1Elements(gs[1..]);
  }

  /** One group's sub-packet, then the elements after it. */
  lemma Sub1ElementThen(env: Env, t: Field, from: nat, count: nat, es: seq<(nat, nat)>, tail: seq<Byte>,
                        later: seq<Field>, m: nat)
    requires t.List? && t.elems == [] && t.proto == Sub("", PacketV(Sub1), PacketV(Sub1))
    requires |es| < 256 && EntriesFit(es) && from < count
    requires ParseElements(env, t, from + 1, count, tail, false) == Ok((later, m))
    ensures ParseElements(env, t, from, count, U8(|es|) + EntriesBytes(es) + tail, false)
         == Ok(([Sub("", PacketV(Sub1), PacketV(Sub1Of(es)))] + later, 1 + 8 * |es| + m))
  {
    var buf := U8(|es|) + EntriesBytes(es) + tail;
    var k := 1 + 8 * |es|;
    ParseSub1(es, tail);
    EntriesBytesLength(es);
    SubElement(env, t, from, buf, Sub1, Sub1Of(es), k);
    assert buf[k..] == tail;
    ParseElementsStep(env, t, from, count, buf, false, Sub("", PacketV(Sub1), PacketV(Sub1Of(es))), k, later, m);
  }

  /** `Packet1.from_raw` decodes every group with its own count. */
  lemma ParsePacket1(gs: seq<seq<(nat, nat)>>)
    requires GroupsFit(gs)
    ensures FromRaw(Packet1, U8(|gs|) + GroupsBytes(gs), false) == Ok(Packet1Of(gs))
  {
    var n := |gs|;
    var count := Prim("size1", 'B', IntV(0), IntV(n));
    ParseSub1List(Owner(Packet("Packet1", false, [count, Packet1.fields[1]])), Packet1.fields[1], gs, 0, n, []);
    assert GroupsBytes(gs) + [] == GroupsBytes(gs);
    CountedPacket(Packet1, n, GroupsBytes(gs), Sub1Elements(gs), |GroupsBytes(gs)|);
  }

  /** The groups of the regression test. */
  const Groups: seq<seq<(nat, nat)>> := [[(0, 100), (1, 101), (2, 102)], [(3, 103), (4, 104)], [(5, 105)]]

  lemma GroupsFitConcrete()
    ensures GroupsFit(Groups)
  {
    assert EntriesFit(Groups[0]) && EntriesFit(Groups[1]) && EntriesFit(Groups[2]);
  }

  /** A count field in front reads back as its decoded count. */
  lemma CountReads(p: Packet, name: string, n: nat)
    requires |p.fields| == 2 && p.fields[0] == Prim(name, 'B', IntV(0), IntV(n))
    requires !p.fields[1].Pad? && p.fields[1].name != name
    ensures GetItem(p, Name(name)) == Ok(IntV(n))
  {
    assert !p.fields[0].Pad? && p.fields[0].name == name;
    assert Position(p, name).Ok?;
    assert Position(p, name) == Ok(0);
  }

  /** Every group's count reads back as its number of entries, and the
      outer count as the number of groups. */
  lemma GroupCount(es: seq<(nat, nat)>)
    requires |es| < 256
    ensures GetItem(Sub1Of(es), Name("size2")) == Ok(IntV(|es|))
  {
    assert "data2"[0] != "size2"[0];
    CountReads(Sub1Of(es), "size2", |es|);
  }

  lemma PacketCount(gs: seq<seq<(nat, nat)>>)
    requires |gs| < 256
    ensures GetItem(Packet1Of(gs), Name("size1")) == Ok(IntV(|gs|))
  {
    assert "data1"[0] != "size1"[0];
    CountReads(Packet1Of(gs), "size1", |gs|);
  }

  /** The regression test's buffer — `struct.pack('<BBIIIIIIBIIIIBII', 3,
      3, 0, 100, 1, 101, 2, 102, 2, 3, 103, 4, 104, 1, 5, 105)`, which is the
      count of groups followed by each group's count and little-endian
      entries — decodes to three sub-packets with 3, 2 and 1 entries, each
      entry in place. */
  lemma RegressionTest()
    ensures GroupsFit(Groups)
    ensures FromRaw(Packet1, U8(|Groups|) + GroupsBytes(Groups), false) == Ok(Packet1Of(Groups))
  {
    GroupsFitConcrete();
    ParsePacket1(Groups);
  }

  /** The counts the regression test reads back: 3 groups, of 3, 2 and 1
      entries. */
  lemma RegressionCounts()
    ensures |Groups| == 3 && GetItem(Packet1Of(Groups), Name("size1")) == Ok(IntV(3))
    ensures forall g :: 0 <= g < 3 ==> GetItem(Sub1Of(Groups[g]), Name("size2")) == Ok(IntV(3 - g))
  {
    PacketCount(Groups);
    forall g | 0 <= g < 3 ensures GetItem(Sub1Of(Groups[g]), Name("size2")) == Ok(IntV(3 - g)) {
      assert |Groups[g]| == 3 - g;
      GroupCount(Groups[g]);
    }
  }
}

=== FILE: roundtrip.dfy ===
/** The round trip `from_raw(p.pack()) == p` (packeteer/packets.py:42-47,
    117-134) and what `unpack` promises about consumption and `partial`.

    Unpacking decodes over a template — the fresh instance of the class —
    whose stored content sets the lengths a field with an implicit length
    mode is read with, and whose later fields are still in their template
    state while an earlier one is measured. `Decodes` says when a template
    reproduces a given packet: every field, measured at the moment it is
    decoded, claims exactly the bytes the packet's own pack gave it. */
module RoundTrip {
  import opened Base
  import opened Types
  import opened Primitive
  import opened Sizing
  import opened Packing
  import opened Parsing

  /** Text that packs and strips back unchanged: no trailing zero byte. */
  predicate NoTrailingZero(x: seq<Byte>)
  {
    x == [] || x[|x| - 1] != 0
  }

  /** Decoding template field `t` in `env` reproduces field `f`, which
      packs in `envP`. */
  predicate Decodes(env: Env, t: Field, f: Field, envP: Env)
    decreases f, 1
  {
    && Shape(t) == Shape(f)
    && match f
       case Prim(_, code, _, v) => Canonical(code, v)
       case Pad(fill) => fill.BytesV? && |fill.bytes| == 1
       case Raw(_, _, _, v) =>
         v.BytesV? && Size(env, t) == Ok(|v.bytes|) && Size(envP, f) == Ok(|v.bytes|)
       case Str(_, _, _, v) =>
         && v.TextV? && NoTrailingZero(v.text)
         && Size(envP, f).Ok? && Size(env, t) == Size(envP, f) && |v.text| <= Size(envP, f).value
       case Sub(_, _, v) =>
         v.PacketV? && t.Sub? && t.value.PacketV? && PacketDecodes(t.value.packet, v.packet)
       case List(_, spec, _, _, elems) =>
         && t.List? && !spec.Implicit?
         && Resolve(env, spec, Ok(|t.elems|)) == Ok(|elems|)
         && forall k :: 0 <= k < |elems| ==> DecodesElem(env, t, f, envP, k)
  }

  /** Element `k` of list `f` decodes over element `k` of template list `t`
      (a prototype copy past the template's stored elements). */
  predicate DecodesElem(env: Env, t: Field, f: Field, envP: Env, k: nat)
    requires t.List? && f.List? && k < |f.elems|
    decreases f, 0
  {
    Decodes(env, Element(t, k), f.elems[k], envP)
  }

  /** Unpacking into template `t` reproduces packet `p`: field `i` is
      decoded with the fields before it already holding `p`'s content. */
  predicate PacketDecodes(t: Packet, p: Packet)
    decreases p, 2
  {
    && SameLayout(t, p)
    && forall i :: 0 <= i < |p.fields| ==> DecodesAt(t, p, i)
  }

  /** Field `i` of template `t` reproduces field `i` of `p`, decoded with
      the fields before it holding `p`'s content. */
  predicate DecodesAt(t: Packet, p: Packet, i: nat)
    requires i < |p.fields| && |t.fields| == |p.fields|
    decreases p, 1
  {
    Decodes(Owner(Midway(t, p.fields[..i])), t.fields[i], p.fields[i], Owner(p))
  }

  /** A field decodes from its own pack, whatever follows it, consuming
      exactly the packed bytes. */
  lemma {:induction false} ParseInvertsPack(env: Env, t: Field, f: Field, envP: Env, bigEndian: bool,
                                            buf: seq<Byte>, rest: seq<Byte>)
    requires Decodes(env, t, f, envP) && Pack(envP, f, bigEndian).Ok?
    requires buf == Pack(envP, f, bigEndian).value + rest
    ensures Parse(env, t, buf, bigEndian) == Ok((f, |Pack(envP, f, bigEndian).value|))
    decreases f, 1
  {
    var bytes := Pack(envP, f, bigEndian).value;
    assert buf[..|bytes|] == bytes;
    match f
    case Prim(_, code, _, v) =>
      UnpackOfPack(code, v, bigEndian);
    case Pad(_) =>
      assert |buf| == |bytes| + |rest|;
    case Raw(_, _, _, v) =>
      assert bytes == v.bytes;
    case Str(_, _, _, v) =>
      StripResize(v.text, Size(envP, f).value);
    case Sub(_, _, v) =>
      PacketInvertsPack(t.value.packet, v.packet, buf, rest);
    case List(_, _, _, _, elems) =>
      ElementsInvertPack(env, t, f, envP, 0, bigEndian, bytes, buf, rest);
      assert elems[0..] == elems;
  }

  lemma {:induction false} ElementsInvertPack(env: Env, t: Field, f: Field, envP: Env, from: nat, bigEndian: bool,
                                              bytes: seq<Byte>, buf: seq<Byte>, rest: seq<Byte>)
    requires t.List? && f.List? && from <= |f.elems|
    requires forall k :: 0 <= k < |f.elems| ==> DecodesElem(env, t, f, envP, k)
    requires PackElements(envP, f, from, bigEndian) == Ok(bytes) && buf == bytes + rest
    ensures ParseElements(env, t, from, |f.elems|, buf, bigEndian) == Ok((f.elems[from..], |bytes|))
    decreases f, 0, |f.elems| - from
  {
    if from < |f.elems| {
      ElementInvertsPack(env, t, f, envP, from, bigEndian, bytes, buf, rest);
      var k := |PackElement(envP, f, from, bigEndian).value|;
      var tail := PackElements(envP, f, from + 1, bigEndian).value;
      ElementsInvertPack(env, t, f, envP, from + 1, bigEndian, tail, buf[k..], rest);
      ElementsJoin(env, t, f, from, bigEndian, buf, k, |tail|);
    } else {
      ElementsEnd(env, t, f, envP, bigEndian, buf);
    }
  }

  /** The decoded first element and the decoded later elements make up
      the decoded remaining elements. */
  lemma ElementsJoin(env: Env, t: Field, f: Field, from: nat, bigEndian: bool, buf: seq<Byte>, k: nat, m: nat)
    requires t.List? && f.List? && from < |f.elems| && k <= |buf|
    requires ParseElement(env, t, from, buf, bigEndian) == Ok((f.elems[from], k))
    requires ParseElements(env, t, from + 1, |f.elems|, buf[k..], bigEndian) == Ok((f.elems[from + 1..], m))
    ensures ParseElements(env, t, from, |f.elems|, buf, bigEndian) == Ok((f.elems[from..], k + m))
  {
    ParseElementsStep(env, t, from, |f.elems|, buf, bigEndian, f.elems[from], k, f.elems[from + 1..], m);
    DropOne(f.elems, from);
  }

  /** Past the last element nothing is decoded and nothing consumed. */
  lemma ElementsEnd(env: Env, t: Field, f: Field, envP: Env, bigEndian: bool, buf: seq<Byte>)
    requires t.List? && f.List?
    ensures PackElements(envP, f, |f.elems|, bigEndian) == Ok([])
    ensures ParseElements(env, t, |f.elems|, |f.elems|, buf, bigEndian) == Ok((f.elems[|f.elems|..], 0))
  {
    assert f.elems[|f.elems|..] == [];
  }

  /** The first remaining element decodes from the front of the remaining
      element bytes, leaving the later elements' bytes. */
  lemma {:induction false} ElementInvertsPack(env: Env, t: Field, f: Field, envP: Env, from: nat, bigEndian: bool,
                                              bytes: seq<Byte>, buf: seq<Byte>, rest: seq<Byte>)
    requires t.List? && f.List? && from < |f.elems|
    requires forall k :: 0 <= k < |f.elems| ==> DecodesElem(env, t, f, envP, k)
    requires PackElements(envP, f, from, bigEndian) == Ok(bytes) && buf == bytes + rest
    ensures PackElement(envP, f, from, bigEndian).Ok? && PackElements(envP, f, from + 1, bigEndian).Ok?
    ensures var k := |PackElement(envP, f, from, bigEndian).value|;
            && |bytes| == k + |PackElements(envP, f, from + 1, bigEndian).value|
            && k <= |buf| && buf[k..] == PackElements(envP, f, from + 1, bigEndian).value + rest
            && ParseElement(env, t, from, buf, bigEndian) == Ok((f.elems[from], k))
    decreases f, 0, |f.elems| - from, 0
  {
    var e := f.elems[from];
    assert DecodesElem(env, t, f, envP, from);
    PackElementsSplit(envP, f, from, bigEndian);
    var head := PackElement(envP, f, from, bigEndian).value;
    var tail := PackElements(envP, f, from + 1, bigEndian).value;
    DropHead(buf, head, tail, rest);
    ParseInvertsPack(env, Element(t, from), e, envP, bigEndian, buf, tail + rest);
  }

  /** The element loop of `pack` splits off its first element. */
  lemma PackElementsSplit(env: Env, f: Field, from: nat, bigEndian: bool)
    requires f.List? && from < |f.elems| && PackElements(env, f, from, bigEndian).Ok?
    ensures PackElement(env, f, from, bigEndian).Ok? && PackElements(env, f, from + 1, bigEndian).Ok?
    ensures PackElements(env, f, from, bigEndian).value
         == PackElement(env, f, from, bigEndian).value + PackElements(env, f, from + 1, bigEndian).value
  {
  }

  /** One unfolding of the element loop. */
  lemma ParseElementsStep(env: Env, t: Field, from: nat, count: nat, buf: seq<Byte>, bigEndian: bool,
                          e: Field, k: nat, es: seq<Field>, m: nat)
    requires t.List? && from < count && k <= |buf|
    requires ParseElement(env, t, from, buf, bigEndian) == Ok((e, k))
    requires ParseElements(env, t, from + 1, count, buf[k..], bigEndian) == Ok((es, m))
    ensures ParseElements(env, t, from, count, buf, bigEndian) == Ok(([e] + es, k + m))
  {
  }

  /** Unpacking a packet's own bytes into a template that reproduces it
      gives the packet back and consumes exactly those bytes. */
  lemma {:induction false} PacketInvertsPack(t: Packet, p: Packet, buf: seq<Byte>, rest: seq<Byte>)
    requires PacketDecodes(t, p) && PackPacket(p).Ok?
    requires buf == PackPacket(p).value + rest
    ensures ParsePacket(t, buf, false) == Ok((p, |PackPacket(p).value|))
    decreases p, 1
  {
    assert p.fields[..0] == [];
    FieldsInvertPack(t, p, 0, PackPacket(p).value, buf, rest);
  }

  lemma {:induction false} FieldsInvertPack(t: Packet, p: Packet, i: nat, bytes: seq<Byte>, buf: seq<Byte>, rest: seq<Byte>)
    requires PacketDecodes(t, p) && i <= |p.fields|
    requires PackFields(p, i) == Ok(bytes) && buf == bytes + rest
    ensures ParseFields(t, i, p.fields[..i], buf, false) == Ok((p, |bytes|))
    decreases p, 0, |p.fields| - i
  {
    if i == |p.fields| {
      MidwayDone(t, p);
    } else {
      FieldInvertsPack(t, p, i, bytes, buf, rest);
      var k := |PackField(p, i).value|;
      var tail := PackFields(p, i + 1).value;
      FieldsInvertPack(t, p, i + 1, tail, buf[k..], rest);
      TakeOneMore(p.fields, i);
      ParseFieldsStep(t, i, p.fields[..i], buf, p.fields[i], k, p.fields[..i + 1], p, |tail|);
    }
  }

  /** The next field decodes from the front of the remaining field bytes,
      leaving the later fields' bytes. */
  lemma {:induction false} FieldInvertsPack(t: Packet, p: Packet, i: nat, bytes: seq<Byte>, buf: seq<Byte>, rest: seq<Byte>)
    requires PacketDecodes(t, p) && i < |p.fields|
    requires PackFields(p, i) == Ok(bytes) && buf == bytes + rest
    ensures PackField(p, i).Ok? && PackFields(p, i + 1).Ok?
    ensures var k := |PackField(p, i).value|;
            && |bytes| == k + |PackFields(p, i + 1).value|
            && k <= |buf| && buf[k..] == PackFields(p, i + 1).value + rest
            && ParseField(t, p.fields[..i], buf) == Ok((p.fields[i], k))
    decreases p, 0, |p.fields| - i, 0
  {
    var f := p.fields[i];
    assert DecodesAt(t, p, i);
    assert |p.fields[..i]| == i;
    PackFieldsSplit(p, i);
    var head := PackField(p, i).value;
    var tail := PackFields(p, i + 1).value;
    DropHead(buf, head, tail, rest);
    ParseInvertsPack(Owner(Midway(t, p.fields[..i])), t.fields[i], f, Owner(p), p.bigEndian, buf, tail + rest);
  }

  /** The field loop of `pack` splits off its first field. */
  lemma PackFieldsSplit(p: Packet, i: nat)
    requires i < |p.fields| && PackFields(p, i).Ok?
    ensures PackField(p, i).Ok? && PackFields(p, i + 1).Ok?
    ensures PackFields(p, i).value == PackField(p, i).value + PackFields(p, i + 1).value
  {
  }

  /** With every field decoded, the packet is the decoded one. */
  lemma MidwayDone(t: Packet, p: Packet)
    requires SameLayout(t, p)
    ensures Midway(t, p.fields[..|p.fields|]) == p
  {
    assert p.fields[..|p.fields|] == p.fields;
    assert t.fields[|p.fields|..] == [];
  }

  /** `from_raw(p.pack())` is `p`, and it packs back to the same bytes. */
  lemma FromRawInvertsPack(blank: Packet, p: Packet)
    requires PacketDecodes(blank, p) && PackPacket(p).Ok?
    ensures FromRaw(blank, PackPacket(p).value, false) == Ok(p)
    ensures PackPacket(FromRaw(blank, PackPacket(p).value, false).value) == PackPacket(p)
  {
    PacketInvertsPack(blank, p, PackPacket(p).value, []);
    assert PackPacket(p).value + [] == PackPacket(p).value;
  }
}

=== FILE: setting.dfy ===
/** Assignment: `Field.set` with its pack-and-roll-back check
    (packeteer/fields.py:39-48), the `_size_val` normalisations of Raw,
    String and List (packeteer/fields.py:206-215, 233-238, 259-284) and
    the write-through of a new length into the sibling that governs it
    (packeteer/fields.py:97-105).

    Failure is a `Result`: a failed assignment produces no new state, so
    the caller keeps the old field or packet — the rollback. */
module Setting {
  import opened Base
  import opened Types
  import opened Tables
  import opened Sizing
  import opened Packing
  import opened Primitive

  /** `value[:n]` for the objects that can be sliced. */
  function Truncate(v: Value, n: nat): (r: Result<Value>)
    ensures r.Ok? <==> v.BytesV? || v.TextV? || v.SeqV?
    ensures v.TextV? ==> r == Ok(TextV(if |v.text| <= n then v.text else v.text[..n]))
  {
    match v
    case BytesV(b) => Ok(BytesV(if |b| <= n then b else b[..n]))
    case TextV(t) => Ok(TextV(if |t| <= n then t else t[..n]))
    case SeqV(items) => Ok(SeqV(if |items| <= n then items else items[..n]))
    case _ => Err(TypeError)
  }

  /** The items a list assignment produces elements for: the items of a
      list or tuple, a lone truthy value, or nothing for a falsy one. */
  function ListItems(v: Value): (items: seq<Value>)
    ensures v.SeqV? ==> items == v.items
    ensures !v.SeqV? && Truthy(v) ==> items == [v]
    ensures !v.SeqV? && !Truthy(v) ==> items == []
  {
    if v.SeqV? then v.items else if Truthy(v) then [v] else []
  }

  /** `es` padded with prototype copies, then cut, to exactly `n` elements. */
  function Conform(es: seq<Field>, proto: Field, n: nat): (r: seq<Field>)
    ensures |r| == n
    ensures forall k :: 0 <= k < n ==> r[k] == (if k < |es| then es[k] else proto)
  {
    if |es| >= n then es[..n] else es + seq(n - |es|, _ => proto)
  }

  /** The field with `_size_val(v)` stored as its content, before the
      pack check. Static lengths pad or cut here; list items become
      element fields. A static `Raw` given anything but bytes fails as
      the source does: padding text with a zero byte, or taking the
      length of a value that has none, raises TypeError; a list (padded
      with zero items) or text too long to need padding is stored and
      then refused by the pack check with `struct.error`. */
  function Normalize(f: Field, v: Value): (r: Result<Field>)
    ensures r.Ok? ==> Shape(r.value) == Shape(f)
    ensures f.Raw? && f.len.Static? ==> (r.Ok? <==> v.BytesV?)
    ensures f.Raw? && f.len.Static? && r.Ok? ==> r.value.value == BytesV(Resize(v.bytes, f.len.n))
    ensures f.Raw? && f.len.Static? && r.Err? ==>
      r.error == (if v.SeqV? || (v.TextV? && |v.text| >= f.len.n) then StructError else TypeError)
    ensures f.Str? && f.len.Static? && v.TextV? ==>
      r.Ok? && r.value.value == TextV(if |v.text| <= f.len.n then v.text else v.text[..f.len.n])
    ensures f.Raw? && !f.len.Static? ==> r == Ok(Raw(f.name, f.len, f.default, v))
    ensures f.Str? && !f.len.Static? ==> r == Ok(Str(f.name, f.len, f.default, v))
    ensures f.List? ==> (r.Ok? <==> forall k :: 0 <= k < |ListItems(v)| ==> NewElement(f.proto, ListItems(v)[k]).Ok?)
    ensures f.List? && r.Ok? ==>
      var items := ListItems(v);
      var n := if f.len.Static? then f.len.n else |items|;
      && |r.value.elems| == n
      && forall k :: 0 <= k < n ==>
           if k < |items| then NewElement(f.proto, items[k]) == Ok(r.value.elems[k])
           else r.value.elems[k] == f.proto
    decreases f, 0
  {
    match f
    case Prim(name, code, dflt, _) => Ok(Prim(name, code, dflt, v))
    case Pad(_) => Ok(f)
    case Sub(name, dflt, _) => Ok(Sub(name, dflt, v))
    case Raw(name, spec, dflt, _) =>
      if !spec.Static? then Ok(Raw(name, spec, dflt, v))
      else if v.BytesV? then Ok(Raw(name, spec, dflt, BytesV(Resize(v.bytes, spec.n))))
      else if v.SeqV? || (v.TextV? && |v.text| >= spec.n) then Err(StructError)
      else Err(TypeError)
    case Str(name, spec, dflt, _) =>
      if !spec.Static? then Ok(Str(name, spec, dflt, v))
      else
        var cut :- Truncate(v, spec.n);
        Ok(Str(name, spec, dflt, cut))
    case List(name, spec, proto, dflt, _) =>
      var es :- NewElements(proto, ListItems(v), 0);
      var es' := if spec.Static? then Conform(es, proto, spec.n) else es;
      Ok(List(name, spec, proto, dflt, es'))
  }

  /** One element per item, from `from` on (`List._create_field` on each). */
  function NewElements(proto: Field, items: seq<Value>, from: nat): (r: Result<seq<Field>>)
    requires from <= |items|
    ensures r.Ok? <==> forall k :: from <= k < |items| ==> NewElement(proto, items[k]).Ok?
    ensures r.Ok? ==> |r.value| == |items| - from
    ensures r.Ok? ==> forall k :: 0 <= k < |r.value| ==> NewElement(proto, items[from + k]) == Ok(r.value[k])
    decreases proto, 3, |items| - from
  {
    if from == |items| then Ok([])
    else
      var e :- NewElement(proto, items[from]);
      var es :- NewElements(proto, items, from + 1);
      Ok([e] + es)
  }

  /** A copy of the prototype, assigned the item when the item is truthy
      and left at the prototype's own content when it is not. The copy is
      not yet registered with the packet while it is assigned. */
  function NewElement(proto: Field, item: Value): (r: Result<Field>)
    ensures !Truthy(item) ==> r == Ok(proto)
    ensures Truthy(item) ==> r == DetachedSet(proto, item)
    ensures r.Ok? ==> Shape(r.value) == Shape(proto)
    decreases proto, 2
  {
    if Truthy(item) then DetachedSet(proto, item) else Ok(proto)
  }

  /** `field.set(value)` for a field registered with no packet: normalise,
      then keep the result only if it packs. */
  function DetachedSet(f: Field, v: Value): (r: Result<Field>)
    ensures r.Ok? <==> Normalize(f, v).Ok? && Pack(Detached, Normalize(f, v).value, true).Ok?
    ensures r.Ok? ==> Shape(r.value) == Shape(f) && Pack(Detached, r.value, true).Ok?
    ensures r.Ok? ==> r == Normalize(f, v)
    ensures Normalize(f, v).Err? ==> r == Err(Normalize(f, v).error)
    decreases f, 1
  {
    var g :- Normalize(f, v);
    var _ :- Pack(Detached, g, true);
    Ok(g)
  }

  /** `len(sized_value)`: the length the write-through reports. */
  function ContentLength(f: Field): Result<nat>
  {
    match f
    case List(_, _, _, _, es) => Ok(|es|)
    case Raw(_, _, _, v) => Len(v)
    case Str(_, _, _, v) => Len(v)
    case _ => Err(TypeError)
  }

  /** The sibling a field's length is written through to, if any. */
  predicate WritesThrough(f: Field)
  {
    (f.Raw? || f.Str? || f.List?) && f.len.Ref?
  }

  /** `self._parent[self._size] = len(sized_value)`: assign the new length
      to the sibling by name. An unknown name raises KeyError; a sibling
      that refuses the number surfaces as TypeError. */
  function WriteThrough(p: Packet, g: Field): (r: Result<Packet>)
    requires WritesThrough(g)
    ensures r.Ok? <==>
      && ContentLength(g).Ok? && Position(p, g.len.sibling).Ok?
      && DetachedSet(p.fields[Position(p, g.len.sibling).value], IntV(ContentLength(g).value)).Ok?
    ensures ContentLength(g).Ok? && Position(p, g.len.sibling).Err? ==> r == Err(KeyError)
    ensures r.Err? ==> r.error == TypeError || r.error == KeyError
    ensures r.Ok? ==> SameLayout(r.value, p)
    ensures r.Ok? ==>
      Lookup(r.value, g.len.sibling)
        == Ok(DetachedSet(p.fields[Position(p, g.len.sibling).value], IntV(ContentLength(g).value)).value)
    ensures r.Ok? ==> forall k :: 0 <= k < |p.fields| && k != Position(p, g.len.sibling).value ==>
      r.value.fields[k] == p.fields[k]
  {
    var n :- ContentLength(g);
    var j :- Position(p, g.len.sibling);
    var sibling := DetachedSet(p.fields[j], IntV(n));
    if sibling.Err? then Err(TypeError)
    else
      var q := Packet(p.cls, p.bigEndian, p.fields[j := sibling.value]);
      ReplaceKeepsLayout(p, p, j, sibling.value);
      PositionKeepsLayout(q, p, g.len.sibling);
      Ok(q)
  }

  /** `field.set(value)` on field `i` of packet `p`, which the field is
      registered with: normalise, write the new length through to the
      sibling, store, and keep the result only if the field then packs
      (with the sibling already updated). Padding ignores assignment. */
  function SetAt(p: Packet, i: nat, v: Value): (r: Result<Packet>)
    requires i < |p.fields|
    ensures p.fields[i].Pad? ==> r == Ok(p)
    ensures r.Ok? ==> SameLayout(r.value, p)
    decreases p
  {
    var f := p.fields[i];
    if f.Pad? then Ok(p)
    else
      var g :- Normalize(f, v);
      var p1 :- if WritesThrough(g) then WriteThrough(p, g) else Ok(p);
      var p2 := Packet(p1.cls, p1.bigEndian, p1.fields[i := g]);
      var _ :- Pack(Owner(p2), g, true);
      ReplaceKeepsLayout(p1, p, i, g);
      Ok(p2)
  }

  /** An assignment to a non-padding field is accepted exactly when the
      value normalises, its length (if written through) is accepted by
      the sibling, and the field then packs in the updated packet. */
  lemma SetAtAccepts(p: Packet, i: nat, v: Value)
    requires i < |p.fields| && !p.fields[i].Pad?
    ensures SetAt(p, i, v).Ok? <==>
      && Normalize(p.fields[i], v).Ok?
      && var g := Normalize(p.fields[i], v).value;
         && (WritesThrough(g) ==> WriteThrough(p, g).Ok?)
         && var p1 := if WritesThrough(g) then WriteThrough(p, g).value else p;
            Pack(Owner(Packet(p1.cls, p1.bigEndian, p1.fields[i := g])), g, true).Ok?
  {
  }

  /** What a successful assignment to a non-padding field consists of:
      the normalised field, the packet after the write-through, and the
      pack check that passed. */
  lemma SetAtUnfold(p: Packet, i: nat, v: Value)
    requires i < |p.fields| && !p.fields[i].Pad? && SetAt(p, i, v).Ok?
    ensures Normalize(p.fields[i], v).Ok?
    ensures var g := Normalize(p.fields[i], v).value;
      && (WritesThrough(g) ==> WriteThrough(p, g).Ok?)
      && var p1 := if WritesThrough(g) then WriteThrough(p, g).value else p;
         && SetAt(p, i, v).value == Packet(p1.cls, p1.bigEndian, p1.fields[i := g])
         && Pack(Owner(SetAt(p, i, v).value), g, true).Ok?
  {
  }

  /** The assigned field holds the normalised value. */
  lemma SetAtStores(p: Packet, i: nat, v: Value)
    requires i < |p.fields| && SetAt(p, i, v).Ok?
    ensures !p.fields[i].Pad? ==> Normalize(p.fields[i], v) == Ok(SetAt(p, i, v).value.fields[i])
    ensures p.fields[i].Pad? ==> SetAt(p, i, v).value == p
  {
    if !p.fields[i].Pad? {
      SetAtUnfold(p, i, v);
    }
  }

  /** Assignment touches the assigned field and, when its length is
      written through, the named sibling — no other field. */
  lemma SetAtFrame(p: Packet, i: nat, v: Value, j: nat)
    requires i < |p.fields| && SetAt(p, i, v).Ok?
    requires j < |p.fields| && j != i
    ensures SetAt(p, i, v).value.fields[j] != p.fields[j] ==>
      && WritesThrough(SetAt(p, i, v).value.fields[i])
      && Position(p, SetAt(p, i, v).value.fields[i].len.sibling) == Ok(j)
  {
    if !p.fields[i].Pad? {
      SetAtUnfold(p, i, v);
      var g := Normalize(p.fields[i], v).value;
      assert SetAt(p, i, v).value.fields[i] == g;
      if WritesThrough(g) {
        assert SetAt(p, i, v).value.fields[j] == WriteThrough(p, g).value.fields[j];
      }
    }
  }

  /** After a successful assignment the sibling that governs the field's
      length holds the new content length, so the field resolves to
      exactly the length of what it holds. For a raw or text field this
      is guaranteed (the assignment would fail otherwise); for a list it
      holds whenever the sibling is a primitive field. */
  lemma {:induction false} SetAtSyncsLength(p: Packet, i: nat, v: Value)
    requires i < |p.fields| && SetAt(p, i, v).Ok?
    requires WritesThrough(SetAt(p, i, v).value.fields[i])
    requires Position(p, SetAt(p, i, v).value.fields[i].len.sibling) != Ok(i)
    ensures Position(p, SetAt(p, i, v).value.fields[i].len.sibling).Ok?
    ensures
      var r := SetAt(p, i, v).value;
      var g := r.fields[i];
      var sibling := p.fields[Position(p, g.len.sibling).value];
      (g.Raw? || g.Str? || sibling.Prim?) ==>
        ContentLength(g).Ok? && Count(Owner(r), g) == Ok(ContentLength(g).value)
  {
    var r := SetAt(p, i, v).value;
    var g := r.fields[i];
    SetAtSibling(p, i, v);
    var n := ContentLength(g).value;
    var j := Position(p, g.len.sibling).value;
    var s := DetachedSet(p.fields[j], IntV(n)).value;
    SiblingTakesNumber(p.fields[j], n);
    if p.fields[j].Prim? {
      SiblingCount(r, g, s, n);
    } else if g.Raw? || g.Str? {
      SizedByListFails(r, g, s);
    }
  }

  /** A raw or text field whose sibling is a list cannot be packed: the
      list is not a number. */
  lemma SizedByListFails(r: Packet, g: Field, s: Field)
    requires (g.Raw? || g.Str?) && g.len.Ref?
    requires Lookup(r, g.len.sibling) == Ok(s) && View(s).SeqV?
    ensures Pack(Owner(r), g, true).Err?
  {
  }

  /** After an assignment that writes through, the sibling found by name
      in the new packet is the old sibling assigned the new length. */
  lemma SetAtSibling(p: Packet, i: nat, v: Value)
    requires i < |p.fields| && SetAt(p, i, v).Ok?
    requires WritesThrough(SetAt(p, i, v).value.fields[i])
    requires Position(p, SetAt(p, i, v).value.fields[i].len.sibling) != Ok(i)
    ensures
      var r := SetAt(p, i, v).value;
      var g := r.fields[i];
      && ContentLength(g).Ok? && Position(p, g.len.sibling).Ok?
      && Pack(Owner(r), g, true).Ok?
      && var j := Position(p, g.len.sibling).value;
         && DetachedSet(p.fields[j], IntV(ContentLength(g).value)).Ok?
         && Lookup(r, g.len.sibling) == Ok(DetachedSet(p.fields[j], IntV(ContentLength(g).value)).value)
  {
    var r := SetAt(p, i, v).value;
    SetAtUnfold(p, i, v);
    var g := Normalize(p.fields[i], v).value;
    assert r.fields[i] == g;
    var n := ContentLength(g).value;
    var j := Position(p, g.len.sibling).value;
    var s := DetachedSet(p.fields[j], IntV(n)).value;
    assert r.fields[j] == s;
    PositionKeepsLayout(r, p, g.len.sibling);
  }

  /** A field whose sibling reads as the number `n` resolves to `n`. */
  lemma SiblingCount(r: Packet, g: Field, s: Field, n: nat)
    requires WritesThrough(g) && Lookup(r, g.len.sibling) == Ok(s) && View(s) == IntV(n)
    ensures Count(Owner(r), g) == Ok(n)
  {
  }

  /** Only a primitive field or a list accepts a number on its own, and a
      primitive field then holds exactly that number. */
  lemma SiblingTakesNumber(x: Field, n: nat)
    requires !x.Pad?
    ensures DetachedSet(x, IntV(n)).Ok? ==>
      var s := DetachedSet(x, IntV(n)).value;
      || (x.Prim? && View(s) == IntV(n))
      || (x.List? && View(s).SeqV?)
  {
    match x
    case Raw(_, spec, _, _) =>
      if !spec.Static? {
        assert Pack(Detached, Normalize(x, IntV(n)).value, true).Err?;
      }
    case Str(_, spec, _, _) =>
      if !spec.Static? {
        assert Pack(Detached, Normalize(x, IntV(n)).value, true).Err?;
      }
    case _ =>
  }
}

=== FILE: sizing.dfy ===
/** Sizes: the length resolution of `SizedField.size`
    (packeteer/fields.py:83-91), the per-kind `size` methods
    (packeteer/fields.py:64-75, 187-189, 294-325) and `BasePacket.size`
    (packeteer/packets.py:141-146).

    `List.size` in the source pads the stored element list in place (it
    aliases `self._value`), against the intent its comment states. Here
    size is a pure function: a list is measured as if its elements were
    padded with prototype copies or cut to the resolved count. */
module Sizing {
  import opened Base
  import opened Types
  import opened Primitive
  import opened Tables

  /** `len(value)` for the objects that have a length. */
  function Len(v: Value): (r: Result<nat>)
    ensures r.Ok? <==> v.BytesV? || v.TextV? || v.SeqV?
    ensures v.BytesV? ==> r == Ok(|v.bytes|)
    ensures v.TextV? ==> r == Ok(|v.text|)
    ensures v.SeqV? ==> r == Ok(|v.items|)
    ensures r.Err? ==> r.error == TypeError
  {
    match v
    case BytesV(b) => Ok(|b|)
    case TextV(t) => Ok(|t|)
    case SeqV(items) => Ok(|items|)
    case _ => Err(TypeError)
  }

  /** `int(parent[name])` for a field registered with a packet, and 0
      for one that is not. Only a sibling holding a non-negative integer
      or boolean gives a length here; a negative number is refused with
      `struct.error`, and any other value with TypeError. The source
      passes a negative number on, and lets `int` convert numeric text,
      bytes and floats. */
  function RefLength(env: Env, name: string): (r: Result<nat>)
    ensures env.Detached? ==> r == Ok(0)
    ensures env.Owner? && Lookup(env.packet, name).Err? ==> r == Err(KeyError)
    ensures env.Owner? && Lookup(env.packet, name).Ok? ==>
      var v := View(Lookup(env.packet, name).value);
      (r.Ok? <==> IsIntegral(v) && AsInt(v) >= 0) && (r.Ok? ==> r.value == AsInt(v))
  {
    match env
    case Detached => Ok(0)
    case Owner(p) =>
      var f :- Lookup(p, name);
      var v := View(f);
      if !IsIntegral(v) then Err(TypeError)
      else if AsInt(v) < 0 then Err(StructError)
      else Ok(AsInt(v))
  }

  /** The three length modes: a static number, a sibling's value, or the
      length of the current content (`current`). */
  function Resolve(env: Env, spec: LenSpec, current: Result<nat>): (r: Result<nat>)
    ensures spec.Static? ==> r == Ok(spec.n)
    ensures spec.Ref? ==> r == RefLength(env, spec.sibling)
    ensures spec.Implicit? ==> r == current
  {
    match spec
    case Static(n) => Ok(n)
    case Ref(name) => RefLength(env, name)
    case Implicit => current
  }

  /** The length a sized field or list resolves to in `env`. */
  function Count(env: Env, f: Field): Result<nat>
    requires f.Raw? || f.Str? || f.List?
  {
    if f.List? then Resolve(env, f.len, Ok(|f.elems|))
    else Resolve(env, f.len, Len(f.value))
  }

  /** Element `k` of a list conformed to any count: a stored element, or
      a fresh copy of the prototype past the end of the stored ones. */
  function Element(f: Field, k: nat): (e: Field)
    requires f.List?
    ensures e == f.proto || e in f.elems
  {
    if k < |f.elems| then f.elems[k] else f.proto
  }

  /** `field.size()`, evaluated in the environment `env`. */
  function Size(env: Env, f: Field): (r: Result<nat>)
    ensures f.Prim? ==> r == Width(f.code)
    ensures f.Pad? ==> r == Ok(1)
    ensures f.Raw? || f.Str? ==> r == Count(env, f)
    ensures f.Sub? && f.value.PacketV? ==> r == PacketSize(f.value.packet)
    ensures f.Sub? && !f.value.PacketV? ==> r == Err(AttributeError)
    ensures f.List? ==>
      (r.Ok? <==> Count(env, f).Ok? && forall k :: 0 <= k < Count(env, f).value ==> Size(env, Element(f, k)).Ok?)
    decreases f, 1
  {
    match f
    case Prim(_, code, _, _) => Width(code)
    case Pad(_) => Width('x')
    case Raw(_, spec, _, v) => Resolve(env, spec, Len(v))
    case Str(_, spec, _, v) => Resolve(env, spec, Len(v))
    case Sub(_, _, v) => if v.PacketV? then PacketSize(v.packet) else Err(AttributeError)
    case List(_, spec, _, _, elems) =>
      var count :- Resolve(env, spec, Ok(|elems|));
      ElementsSize(env, f, 0, count)
  }

  /** The summed size of elements `from` up to `count` of a list. */
  function ElementsSize(env: Env, f: Field, from: nat, count: nat): (r: Result<nat>)
    requires f.List? && from <= count
    ensures r.Ok? <==> forall k :: from <= k < count ==> Size(env, Element(f, k)).Ok?
    decreases f, 0, count - from
  {
    if from == count then Ok(0)
    else
      var e := if from < |f.elems| then f.elems[from] else f.proto;
      assert e == Element(f, from);
      var s :- Size(env, e);
      var rest :- ElementsSize(env, f, from + 1, count);
      Ok(s + rest)
  }

  /** `BasePacket.size`: the sum of every field's size, padding
      included, each measured with the packet as its owner. */
  function PacketSize(p: Packet): (r: Result<nat>)
    ensures r.Ok? <==> forall k :: 0 <= k < |p.fields| ==> Size(Owner(p), p.fields[k]).Ok?
    ensures |p.fields| == 0 ==> r == Ok(0)
    decreases p, 1
  {
    FieldsSize(p, 0)
  }

  function FieldsSize(p: Packet, from: nat): (r: Result<nat>)
    requires from <= |p.fields|
    ensures r.Ok? <==> forall k :: from <= k < |p.fields| ==> Size(Owner(p), p.fields[k]).Ok?
    decreases p, 0, |p.fields| - from
  {
    if from == |p.fields| then Ok(0)
    else
      var s :- Size(Owner(p), p.fields[from]);
      var rest :- FieldsSize(p, from + 1);
      Ok(s + rest)
  }
}

=== FILE: tables.dfy ===
/** The two lookup tables `BasePacket.__init__` builds
    (packeteer/packets.py:26-34) and the name-ordered views `keys`,
    `values` and `items` (packeteer/packets.py:166-176). Padding takes no
    part in any of them. */
module Tables {
  import opened Base
  import opened Types

  /** `_fidx`: the sparse index. Entry `k` is the position of the `k`-th
      non-padding field. Built by the same left-to-right walk as the
      constructor. */
  function VisibleIndex(fields: seq<Field>): (r: seq<nat>)
    ensures |r| <= |fields|
    ensures forall k :: 0 <= k < |r| ==> r[k] < |fields| && !fields[r[k]].Pad?
    ensures forall k, l :: 0 <= k < l < |r| ==> r[k] < r[l]
    ensures forall j :: 0 <= j < |fields| && !fields[j].Pad? ==> j in r
  {
    if |fields| == 0 then []
    else
      var r := VisibleIndex(fields[..|fields| - 1]);
      if fields[|fields| - 1].Pad? then r else r + [|fields| - 1]
  }

  /** `_fnames`: each non-padding name to its position; when a name
      repeats, the later field overwrites the earlier one's entry. */
  function NameTable(fields: seq<Field>): (t: map<string, nat>)
    ensures forall n :: n in t ==> t[n] < |fields| && !fields[t[n]].Pad? && fields[t[n]].name == n
  {
    if |fields| == 0 then map[]
    else
      var t := NameTable(fields[..|fields| - 1]);
      var last := fields[|fields| - 1];
      if last.Pad? then t else t[last.name := |fields| - 1]
  }

  /** A name is in the table exactly when some non-padding field carries
      it, and it leads to the last such field. */
  lemma {:induction false} NameTableComplete(fields: seq<Field>, n: string)
    ensures n in NameTable(fields) <==> exists j :: 0 <= j < |fields| && !fields[j].Pad? && fields[j].name == n
    ensures n in NameTable(fields) ==>
      forall j :: NameTable(fields)[n] < j < |fields| ==> fields[j].Pad? || fields[j].name != n
  {
    if |fields| > 0 {
      var init := fields[..|fields| - 1];
      var last := fields[|fields| - 1];
      NameTableComplete(init, n);
      NameTableUnfold(fields);
      if !last.Pad? && last.name == n {
        assert NameTable(fields)[n] == |fields| - 1;
      } else {
        assert n in NameTable(fields) <==> n in NameTable(init);
        if n in NameTable(init) {
          var j :| 0 <= j < |init| && !init[j].Pad? && init[j].name == n;
          assert fields[j] == init[j];
          forall k | NameTable(fields)[n] < k < |fields| ensures fields[k].Pad? || fields[k].name != n {
            if k < |init| {
              assert fields[k] == init[k];
            }
          }
        } else {
          forall j | 0 <= j < |fields| && !fields[j].Pad? ensures fields[j].name != n {
            if j < |init| {
              assert fields[j] == init[j];
            }
          }
        }
      }
    }
  }

  /** One step of the table's construction: the last field's entry. */
  lemma NameTableUnfold(fields: seq<Field>)
    requires |fields| > 0
    ensures fields[|fields| - 1].Pad? ==> NameTable(fields) == NameTable(fields[..|fields| - 1])
    ensures !fields[|fields| - 1].Pad? ==>
      NameTable(fields) == NameTable(fields[..|fields| - 1])[fields[|fields| - 1].name := |fields| - 1]
  {
  }

  /** The position a name leads to (`_fnames[name]`), or KeyError. */
  function Position(p: Packet, name: string): (r: Result<nat>)
    ensures r.Ok? <==> exists j :: 0 <= j < |p.fields| && !p.fields[j].Pad? && p.fields[j].name == name
    ensures r.Ok? ==> r.value < |p.fields| && !p.fields[r.value].Pad? && p.fields[r.value].name == name
    ensures r.Err? ==> r.error == KeyError
  {
    NameTableComplete(p.fields, name);
    var t := NameTable(p.fields);
    if name in t then Ok(t[name]) else Err(KeyError)
  }

  /** The field a name leads to, or KeyError. */
  function Lookup(p: Packet, name: string): (r: Result<Field>)
    ensures r.Ok? <==> Position(p, name).Ok?
    ensures r.Ok? ==> r.value == p.fields[Position(p, name).value]
    ensures r.Ok? ==> !r.value.Pad? && r.value.name == name
    ensures r.Err? ==> r.error == KeyError
  {
    var j :- Position(p, name);
    Ok(p.fields[j])
  }

  /** The non-padding fields in schema order. */
  function Visible(fields: seq<Field>): (v: seq<Field>)
    ensures |v| == |VisibleIndex(fields)|
    ensures forall k :: 0 <= k < |v| ==> v[k] == fields[VisibleIndex(fields)[k]]
  {
    if |fields| == 0 then []
    else
      var init := fields[..|fields| - 1];
      var v := Visible(init);
      assert forall k :: 0 <= k < |v| ==> v[k] == fields[VisibleIndex(init)[k]];
      if fields[|fields| - 1].Pad? then v else v + [fields[|fields| - 1]]
  }

  /** `keys()`: the names of the non-padding fields in schema order. */
  function Keys(p: Packet): (ks: seq<string>)
    ensures |ks| == |VisibleIndex(p.fields)|
    ensures forall k :: 0 <= k < |ks| ==> ks[k] == p.fields[VisibleIndex(p.fields)[k]].name
  {
    var v := Visible(p.fields);
    seq(|v|, k requires 0 <= k < |v| => v[k].name)
  }

  /** `values()`: the non-padding fields' values in schema order. */
  function Values(p: Packet): (vs: seq<Value>)
    ensures |vs| == |VisibleIndex(p.fields)|
    ensures forall k :: 0 <= k < |vs| ==> vs[k] == View(p.fields[VisibleIndex(p.fields)[k]])
  {
    var v := Visible(p.fields);
    seq(|v|, k requires 0 <= k < |v| => View(v[k]))
  }

  /** `items()`: names paired with values, in schema order. */
  function Items(p: Packet): (its: seq<(string, Value)>)
    ensures |its| == |Keys(p)| == |Values(p)|
    ensures forall k :: 0 <= k < |its| ==> its[k] == (Keys(p)[k], Values(p)[k])
  {
    var ks := Keys(p);
    var vs := Values(p);
    seq(|ks|, k requires 0 <= k < |ks| => (ks[k], vs[k]))
  }

  /** The tables depend only on the fields' schemas, so decoding or
      assigning never changes what a name or an index leads to. */
  lemma {:induction false} TablesKeepLayout(a: seq<Field>, b: seq<Field>)
    requires |a| == |b| && forall k :: 0 <= k < |a| ==> Shape(a[k]) == Shape(b[k])
    ensures NameTable(a) == NameTable(b)
    ensures VisibleIndex(a) == VisibleIndex(b)
  {
    if |a| > 0 {
      var x, y := a[|a| - 1], b[|b| - 1];
      TablesKeepLayout(a[..|a| - 1], b[..|b| - 1]);
      assert Shape(x) == Shape(y);
      assert x.Pad? <==> y.Pad?;
      assert !x.Pad? ==> x.name == y.name;
    }
  }

  lemma PositionKeepsLayout(p: Packet, q: Packet, name: string)
    requires SameLayout(p, q)
    ensures Position(p, name) == Position(q, name)
  {
    TablesKeepLayout(p.fields, q.fields);
  }
}

=== FILE: types.dfy ===
/** The data model of a packet: field instances, the values they hold, and
    the packet that owns them (packeteer/fields.py, packeteer/packets.py).

    Python's objects are mutable and refer to their parent packet; here
    every field and packet is an immutable value, and the parent a field
    consults for its dynamic length is passed explicitly as an `Env`. */
module Types {
  import opened Base

  /** How a sized field's byte length, or a list's element count, is
      found (the `size` argument of `SizedField`): a fixed number, the
      current integer value of a named sibling, or — for `size=None` —
      the length of whatever value the field currently holds. */
  datatype LenSpec = Static(n: nat) | Ref(sibling: string) | Implicit

  /** The Python objects a field can be set to or can hold.
      Text is modelled by its encoded bytes; a float by its IEEE-754
      image, most significant byte first. */
  datatype Value =
    | NoneV
    | BoolV(b: bool)
    | IntV(i: int)
    | BytesV(bytes: seq<Byte>)
    | TextV(text: seq<Byte>)
    | FloatV(bits: seq<Byte>)
    | SeqV(items: seq<Value>)
    | PacketV(packet: Packet)

  /** A field instance: its schema part (name, type, length mode,
      default) together with its current content.
      - `Prim`: a `Field` with a `struct` type code (Char, Bool, Int8 … Double);
      - `Pad`: a `Padding`, which packs its fill and has no name;
      - `Raw` / `Str`: the sized fields;
      - `List`: a repetition of `proto`, currently holding `elems`;
      - `Sub`: a `Packet` field embedding a nested packet. */
  datatype Field =
    | Prim(name: string, code: char, default: Value, value: Value)
    | Pad(fill: Value)
    | Raw(name: string, len: LenSpec, default: Value, value: Value)
    | Str(name: string, len: LenSpec, default: Value, value: Value)
    | List(name: string, len: LenSpec, proto: Field, default: Value, elems: seq<Field>)
    | Sub(name: string, default: Value, value: Value)

  /** A packet instance: the name of its class, its byte order, and its
      fields in wire order. */
  datatype Packet = Packet(cls: string, bigEndian: bool, fields: seq<Field>)

  /** The packet a field is registered with, if any (`Field._parent`). */
  datatype Env = Detached | Owner(packet: Packet)

  /** A subscript of a packet: an integer, a string, or anything else. */
  datatype Key = Index(i: int) | Name(s: string) | OtherKey

  /** Python's truth value of an object, as `List._size_val`,
      `List._create_field` and the `?` struct code test it. */
  predicate Truthy(v: Value)
  {
    match v
    case NoneV => false
    case BoolV(b) => b
    case IntV(i) => i != 0
    case BytesV(b) => |b| > 0
    case TextV(t) => |t| > 0
    case FloatV(bits) => exists k :: 0 <= k < |bits| && bits[k] % (if k == 0 then 128 else 256) != 0
    case SeqV(items) => |items| > 0
    case PacketV(_) => true
  }

  /** The `.value` property: what `packet[key]` returns for a field.
      A list shows its elements' values; every other field its content. */
  function View(f: Field): Value
  {
    match f
    case Pad(fill) => fill
    case List(_, _, _, _, elems) => SeqV(ViewAll(elems))
    case _ => f.value
  }

  function ViewAll(elems: seq<Field>): (vs: seq<Value>)
    ensures |vs| == |elems|
    ensures forall i :: 0 <= i < |elems| ==> vs[i] == View(elems[i])
  {
    if |elems| == 0 then [] else [View(elems[0])] + ViewAll(elems[1..])
  }

  /** The schema part of a field: the field with its content erased.
      Decoding and assigning change content only, never this part. */
  function Shape(f: Field): Field
  {
    match f
    case Prim(name, code, dflt, _) => Prim(name, code, dflt, NoneV)
    case Pad(_) => f
    case Raw(name, spec, dflt, _) => Raw(name, spec, dflt, NoneV)
    case Str(name, spec, dflt, _) => Str(name, spec, dflt, NoneV)
    case List(name, spec, proto, dflt, _) => List(name, spec, proto, dflt, [])
    case Sub(name, dflt, _) => Sub(name, dflt, NoneV)
  }

  /** Two packets of one class: same class name, byte order and field schemas. */
  predicate SameLayout(a: Packet, b: Packet)
  {
    && a.cls == b.cls && a.bigEndian == b.bigEndian && |a.fields| == |b.fields|
    && forall k :: 0 <= k < |a.fields| ==> Shape(a.fields[k]) == Shape(b.fields[k])
  }

  /** Replacing one field by one of the same schema keeps the layout. */
  lemma ReplaceKeepsLayout(q: Packet, p: Packet, j: nat, g: Field)
    requires SameLayout(q, p) && j < |p.fields| && Shape(g) == Shape(p.fields[j])
    ensures SameLayout(Packet(q.cls, q.bigEndian, q.fields[j := g]), p)
  {
  }
}
